=== FILE: README.md ===
# Wedding-card designer core, modelled in Dafny

This project models the deterministic core of a wedding-card designer. The designer turns
Pinterest boards into print-ready A6 invitation cards. The model covers four parts:

- **The card-design validator** (`validate_card_design`). It takes a loosely typed JSON design
  document and does the following:
  - strips internal `_` metadata keys;
  - checks each element by its `type` tag (`text`, `decorative`, `image`), in index order;
  - checks the card (fixed 148 × 105 mm, `#RRGGBB` background);
  - only then checks the element-count rules.

  It either accepts the document or raises one error.
- **The card renderer** (`render_card_design`). It produces a canvas size, a background colour
  and an ordered list of drawing primitives (text, line, ellipse, rectangle, polygon). It does not
  produce pixels. Pieces:
  - millimetre-to-pixel conversion;
  - hex-colour decoding;
  - the font fallback chain;
  - the geometry of the five decorative motifs.

  Rendering does not validate, so a value of the wrong kind ends it with the Python exception it
  would raise.
- **The board scraper** (`pinterest_scraper.py`). Covered: the board-URL check, and how image
  URLs are gathered from a fetched page's meta tags, `img` tags and state scripts, de-duplicated,
  upgraded to full size, filtered and capped.
- **The API client and the Apify scraper** (`pinterest_api.py`, `apify_pinterest_scraper.py`).
  Covered: board ids from URL paths, the paging and token rules of the pin listing, the choice of
  one image URL per pin or item, the cap on their number, and the classification of failures.

## Conventions

- **JSON and Python values.** A JSON document is the `Json` datatype (`json.dfy`), with Python's
  truthiness, `dict.get` defaults and iteration rules.
- **Numbers.** Floats are exact reals. `int()` is truncation toward zero (`Pixels.Trunc`).
  Python's `//` by a positive constant is Dafny's `/`.
- **Outside inputs become parameters.**
  - Whether a font file loads is the function `canLoad`.
  - Fetched pages are `BoardScraper.BoardPage`.
  - HTTP responses are a sequence of `PinterestApi.Response`.
  - The Apify service's answer is either its dataset items or the message of the exception it
    raised.
- **Errors.** Failures are `Result` values carrying a datatype of the exceptions the source can
  raise.
- **The pin listing ends with its responses.** `PinterestApi.Pages` answers the k-th request with
  the k-th response. When the loop asks for a response past the end of the given sequence, the
  listing ends in `RequestFailed`. This is also what makes the model terminate. The program's
  `while True` (pinterest_api.py:155-186) goes on requesting without end from a server that keeps
  sending a bookmark and no items when `page_size` is at least 1; that non-termination is not
  modelled.

## Model

| member | source | states |
|---|---|---|
| Colour.HexToRgb | card_renderer.py:43-46 | a `#RRGGBB` string decodes to the three pairs' values 16·hi+lo, each in 0..255 |
| Colour.RgbRoundTrip | card_renderer.py:43-46 | every byte triple written as `#RRGGBB` matches the pattern and decodes back to itself |
| Colour.NonHexColoursRejected | card_schema.py:21 | "red", "#ZZZZZZ" and "#FFF" fail the colour pattern; "#4A4A4A" passes |
| Schema.ParseFont | card_schema.py:28 | a font is accepted exactly when it is one of Serif, Sans-Serif and Script |
| Schema.ParseMotif | card_schema.py:37-40 | a decorative content is accepted exactly when it is one of the five motif names |
| Schema.ParsePosition | card_schema.py:5-8 | an accepted position has x and y in [0, 200] and they are the document's values |
| Schema.ParseSize | card_schema.py:11-14 | an accepted size has width and height in (0, 100] and they are the document's values |
| Schema.ParseText | card_schema.py:24-31 | an accepted text element satisfies every field rule and carries the document's values; a rejection names at least one field |
| Schema.ParseDecorative | card_schema.py:34-43 | an accepted decorative element satisfies every field rule and carries the document's values |
| Schema.ParseImage | card_schema.py:46-51 | an accepted image element carries the document's source, position and size |
| Schema.ParseCard | card_schema.py:17-21 | an accepted card is 148 × 105 with a hex background; any other given width or height is rejected |
| Schema.ParseElement | card_schema.py:100-110 | an accepted element's tag matches its kind; every rejection names the element's index; a non-mapping element is rejected as not a mapping |
| Schema.ParsedElementIsValid | card_schema.py:24-51 | an accepted element satisfies every field rule of its kind |
| SchemaProperties.UnknownTagIff | card_schema.py:101-110 | an element is reported as of unknown type iff it is a mapping whose tag is none of text, decorative and image; the report names the index and the tag |
| Schema.ParseElements | card_schema.py:100-110 | an accepted list is the elements' own parses, one per element and in order; a rejection names the index of an element of the list |
| ElementLoop.ParseEach | card_schema.py:100-110 | a successful loop gives one parse per item, in order, each item parsed with its own index |
| ElementLoop.SucceedsWhenAllParse | card_schema.py:100-110 | the loop succeeds when every item parses |
| ElementLoop.StopsAtFirstFailure | card_schema.py:100-110 | when item k is the first that fails, the loop fails with item k's failure |
| ElementLoop.FailsAtFirstFailure | card_schema.py:100-110 | a failing loop failed at some item whose failure it reports, and every earlier item parsed |
| Schema.CountCheck | card_schema.py:57-74 | no count violation iff 1 to 10 elements, 2 to 5 text and at most 2 decorative |
| Schema.StripMetadata | card_schema.py:94 | exactly the keys not starting with `_` survive, with their values |
| Schema.Validate | card_schema.py:92-117 | an accepted document is a valid design; a non-mapping is rejected |
| Schema.ValidateCardDesign | card_schema.py:79-122 | returns `True` iff the document is valid; otherwise one message starting with "Card design validation failed: " |
| SchemaProperties.DescribeNamesFields | card_schema.py:106-122 | the message for a rejected element or card names every field that failed |
| SchemaProperties.ValidateRoundTrip | card_schema.py:92-117 | every valid design, written as a document, is accepted and parsed back to itself |
| SchemaProperties.ValidateIdempotent | card_schema.py:92-117 | re-validating the parsed design of an accepted document gives the same design |
| SchemaProperties.ElementsRoundTrip | card_schema.py:100-108 | valid elements written as a list parse back to themselves |
| SchemaProperties.CardRoundTrip | card_schema.py:17-21 | a valid card written as a mapping parses back to itself |
| SchemaProperties.MetadataIgnored | card_schema.py:94 | adding or changing a key that starts with `_` does not change the verdict or result |
| SchemaProperties.GeneratorMetadataIgnored | ai_card_generator.py:404-405 | the generator's `_design_brief` and `_source_images_count` keys do not affect validation |
| SchemaProperties.FirstBadElementReported | card_schema.py:100-110 | when element k is the first that fails, the validator reports exactly its failure |
| SchemaProperties.ReportedElementIsFirstBad | card_schema.py:100-110 | conversely, a reported element is one that fails and every earlier element parses |
| SchemaProperties.CountsCheckedAfterElements | card_schema.py:112-117 | a count or card violation is only reported after every element has parsed |
| SchemaProperties.UnknownTagNamesIndex | card_schema.py:109-122 | an unrecognised type tag, after good elements, fails naming its index and the tag; the caller's message is the fixed prefix, "Unknown element type at index i: " and the tag's text |
| SchemaProperties.UnknownTypeMessageEndsWithTag | card_schema.py:110 | the unknown-type message starts with "Unknown element type at index i: " and ends with the tag itself, or "None" when the element has no tag |
| SchemaProperties.CountsFollowTags | card_schema.py:66-67 | the parsed elements' text and decorative counts equal the counts of the raw `type` tags |
| SchemaProperties.AcceptedDocumentCounts | card_schema.py:57-74 | an accepted document has 1 to 10 elements, 2 to 5 tagged text and at most 2 tagged decorative |
| SchemaProperties.WrongCardSizeRejected | card_schema.py:19-20 | a card whose given width or height differs from 148 × 105 is rejected |
| SchemaProperties.CardDefaults | card_schema.py:19-20 | a card without width and height is 148 × 105 |
| SchemaProperties.VerdictAfterParsing | card_schema.py:112-119 | once elements and card parse, the verdict is exactly the count rules' verdict |
| SchemaProperties.TwoTextDesignAccepted | test_validation.py:6-30 | the two-text design of the validation tests is accepted |
| SchemaProperties.FontSizeTooLargeRejected | test_validation.py:40-64 | font size 100 is rejected, naming `fontSize` of element 0 |
| SchemaProperties.UnknownFontRejected | test_validation.py:74-98 | font "Comic-Sans" is rejected, naming `font` of element 0 |
| SchemaProperties.ColourNameRejected | test_validation.py:134-158 | colour "red" is rejected, naming `color` of element 0 |
| SchemaProperties.SingleTextRejected | test_validation.py:108-124 | a design with one text element fails the minimum-text rule |
| SchemaProperties.SchemaExampleAccepted | card_schema.py:125-163 | the schema example is accepted and parses to the expected design of two texts and one heart line |
| SchemaProperties.TextJsonAccepted | card_schema.py:24-31 | a text element whose fields all lie in their ranges is accepted with exactly those values, at x = 10 |
| SchemaProperties.DecorativeJsonParses | card_schema.py:34-43 | a decorative element with a motif name, hex colour, position in [0, 200] and size in (0, 100] is accepted with exactly those values |
| Pixels.Trunc | card_renderer.py:8 | `int()` of a real: the floor for non-negative values, rounding toward zero for negative ones |
| Pixels.MmToPixels | card_renderer.py:6-8 | for non-negative inputs the result is ⌊mm·dpi/25.4⌋ and non-negative |
| Pixels.MmToPixelsMonotoneInMm | card_renderer.py:6-8 | the pixel count does not decrease as the length grows |
| Pixels.MmToPixelsMonotoneInDpi | card_renderer.py:6-8 | the pixel count does not decrease as the resolution grows |
| Pixels.DoubleResolution | card_renderer.py:6-8 | doubling the resolution gives twice the pixels, or one more |
| Pixels.A6CanvasSizes | card_renderer.py:174-180 | 148 × 105 mm is 874 × 620 at 150 DPI and 1748 × 1240 at 300 DPI |
| Pixels.FontPixelSize | card_renderer.py:17 | the pixel size is ⌊size²·dpi/(25.4·36)⌋ for non-negative inputs |
| Pixels.FontPixelSizeMonotone | card_renderer.py:17 | the pixel size does not decrease as the font size grows |
| Fonts.Candidates | card_renderer.py:20-30 | Script and Sans-Serif get their own lists, every other hashable type the Serif list; a list or mapping type fails |
| Fonts.FirstLoadable | card_renderer.py:30-34 | the index of the first loadable path; none iff no path loads |
| Fonts.PickFont | card_renderer.py:30-40 | a TrueType font is the first loadable file of the family followed by DejaVu Sans; the built-in font iff none loads |
| Fonts.FontFor | card_renderer.py:11-40 | a font exists iff the type is hashable; its size is the computed pixel size |
| Motifs.MotifOf | card_renderer.py:88-160 | a content selects a motif exactly when it is one of the five motif names |
| Motifs.HeartLine | card_renderer.py:88-97 | a 2-pixel line from x to x+w at height y + h//2, and an h-by-h 2-pixel outline ellipse whose top is y and whose left edge is x + w//2 - h//2, so it sits centred on the line |
| Motifs.HeartInsideBoxIffWide | card_renderer.py:91-97 | the heart's ellipse lies inside the element box iff the box is at least as wide as high |
| Motifs.BranchPoints | card_renderer.py:101-107 | ten points whose rows run from y to y+h, non-decreasing and within the box when h ≥ 0 |
| Motifs.BranchSegments | card_renderer.py:110-111 | one 3-pixel line between each pair of consecutive points |
| Motifs.LeafPairMirrored | card_renderer.py:120-134 | a right leaf is the left leaf mirrored through its base point |
| Motifs.Leaves | card_renderer.py:114-134 | ten filled triangles, a left and a right leaf at each of five bases |
| Motifs.FloralBranch | card_renderer.py:99-134 | nine joined 3-pixel segments from row y to row y+h, then ten filled triangles |
| Motifs.GeometricBorder | card_renderer.py:136-141 | one outline rectangle on the element box |
| Motifs.LeafAccent | card_renderer.py:143-150 | one outline diamond whose corners are the midpoints of the box's sides |
| Motifs.DotCount | card_renderer.py:152-155 | the number of dots is ⌊w/10⌋ |
| Motifs.DotsPattern | card_renderer.py:152-160 | ⌊w/10⌋ filled 3-pixel dots every 10 pixels along the top edge, inside the box's width |
| Motifs.MotifOps | card_renderer.py:88-160 | an unknown motif draws nothing; motifs never draw text |
| Render.Coordinate | card_renderer.py:61-84 | a missing key is a `KeyError`, a non-number a `TypeError`, otherwise the converted pixels |
| Render.ColourOf | card_renderer.py:43-46 | a non-string colour is an `AttributeError`; a hex colour decodes to a byte triple |
| Render.TextOp | card_renderer.py:49-67 | one text primitive with the element's content, converted position, decoded colour and font, using the defaults for missing keys |
| Render.DecorativeOps | card_renderer.py:70-160 | the motif's primitives at the converted box; never text; nothing for an unknown motif |
| Render.ElementOps | card_renderer.py:187-194 | non-mappings fail; text gives one text primitive; images and unknown types give nothing |
| Render.RenderElements | card_renderer.py:187-194 | rendering succeeds iff every element renders; a failure is some element's own |
| RenderProperties.TextFieldsRender | card_renderer.py:49-67 | the fields of a text element the validator accepts, with strictly typed numbers, render without error |
| RenderProperties.DecorativeFieldsRender | card_renderer.py:70-86 | the fields of a decorative element the validator accepts, with strictly typed numbers, render without error |
| Render.RenderCardDesign | card_renderer.py:163-196 | the canvas size and background come from the card, with defaults; the primitives come from the elements in order |
| RenderProperties.RenderElementsAppend | card_renderer.py:187-194 | rendering a list is rendering its two halves in sequence |
| RenderProperties.ElementBlockInOrder | card_renderer.py:187-194 | each element's primitives follow those of all earlier elements |
| RenderProperties.TextOpsMatchTags | card_renderer.py:187-194 | the number of text primitives equals the number of elements tagged text |
| RenderProperties.ParsedElementRenders | card_renderer.py:55-86 | every element the validator accepts, with strictly typed numbers, renders without error |
| RenderProperties.ValidatedDesignRenders | card_renderer.py:163-196 | an accepted design with strictly typed numbers renders on a 148 × 105 mm canvas in its background colour, with one text primitive per text element |
| RenderProperties.LaxInt | card_schema.py:27 | how the program's validator reads the `int` field `fontSize`: an int as itself, and a string exactly when it is decimal digits; mappings, lists and `None` are refused |
| RenderProperties.LaxIntReadsDecimal | card_schema.py:27 | reading the decimal text of a number leniently gives the number back |
| RenderProperties.LaxFontSizeCrashesRenderer | card_renderer.py:49-63 | a text element whose `fontSize` is the decimal text of an accepted size: the program's lax reading gives that size, the strict parse rejects it, and rendering it ends in `TypeError` |
| RenderProperties.SchemaExampleCanvases | card_renderer.py:174-184 | the schema example renders at 874 × 620 (150 DPI) and 1748 × 1240 (300 DPI) with two text primitives |
| RenderProperties.EmptyDesignDefaults | card_renderer.py:174-177 | an empty document renders on a 148 × 105 mm white canvas with no primitives |
| RenderProperties.TextElementDefaults | card_renderer.py:55-59 | a bare text element draws "" at (0, 0) in black in the 16-point Serif chain |
| RenderProperties.TextOpDefaults | card_renderer.py:55-59 | a text element lacking position, content, font, colour and size draws with every default |
| RenderProperties.DecorativeDefaultSize | card_renderer.py:78 | a decorative element without size draws as one of 10 × 10 mm |
| PinUrls.UpgradeFirstSize | pinterest_scraper.py:52-57 | a URL without a thumbnail size is unchanged; otherwise every occurrence of the first of `/236x/`, `/474x/`, `/564x/` that occurs is replaced by `/originals/`, and the result names `/originals/` |
| PinUrls.UpgradeAllSizes | pinterest_scraper.py:77 | a URL without a thumbnail size is unchanged; a URL with a thumbnail size or `/originals/` comes out naming `/originals/` |
| PinUrls.UpgradeStep | pinterest_scraper.py:77 | one rewrite of a size directory leaves a URL without it unchanged and makes one with it or `/originals/` name `/originals/` |
| PinUrls.OriginalsKept | pinterest_scraper.py:77 | rewriting a size directory never removes an `/originals/` already present |
| BoardScraper.ValidatePinterestUrl | pinterest_scraper.py:97-117 | false for a missing or empty URL; otherwise true iff the lower-cased URL contains one of the three site patterns |
| BoardScraper.UrlCheckIgnoresCase | pinterest_scraper.py:117 | the verdict does not depend on letter case |
| BoardScraper.UrlCheckAnyContext | pinterest_scraper.py:117 | anything before or after an accepted URL keeps it accepted |
| BoardScraper.GermanBoardUrlAccepted | pinterest_scraper.py:111-117 | a German-site URL is accepted whatever the case of its host and whatever surrounds it |
| BoardScraper.ImgSource | pinterest_scraper.py:47 | `src`, else `data-src`, else the start of `srcset` (empty when absent) cut at its first comma or space: a prefix holding neither, followed by one of them or by the end |
| BoardScraper.MetaPhase | pinterest_scraper.py:37-41 | keeps earlier URLs as a prefix and never duplicates; every present `og:image` value ends up held, and nothing else is added |
| BoardScraper.ImgPhase | pinterest_scraper.py:44-63 | keeps earlier URLs as a prefix and never duplicates; adds only upgraded sources of `img` tags on a Pinterest host, and while under the limit holds every one of them |
| BoardScraper.ImgPhaseStopsAtLimit | pinterest_scraper.py:62-63 | once the limit is reached, later `img` tags are never looked at |
| BoardScraper.FindPinimgUrls | pinterest_scraper.py:73-74 | each match starts with `https://i.pinimg.com/`, has at least one more character, and contains no stop character |
| BoardScraper.FoundUrlsOccurInText | pinterest_scraper.py:73-74 | every match occurs in the script text |
| BoardScraper.MatchAtShape | pinterest_scraper.py:73 | the greedy match at a position is the slice of the text from there: the prefix, then only non-stop characters, ending just before a stop character or at the end of the text |
| BoardScraper.FoundUrlsAreMatches | pinterest_scraper.py:73-74 | every URL found is the longest match at some position of the script text |
| BoardScraper.EveryMatchCovered | pinterest_scraper.py:73-74 | every position where a match can begin lies within a URL found, which ends where that match ends: no occurrence is missed |
| BoardScraper.ScriptUrls | pinterest_scraper.py:75-81 | keeps earlier URLs as a prefix and never duplicates; adds only found URLs naming a large size, with all sizes upgraded, and while under the limit holds every one of them |
| BoardScraper.Candidates | pinterest_scraper.py:33-81 | no duplicates; every candidate is an `og:image` value, an upgraded `img` source or a large script URL; present meta values are among the first `max_images`; below the limit every `img` URL is held, and below five and the limit every script URL |
| BoardScraper.ScriptsIgnoredWhenEnough | pinterest_scraper.py:66 | with five or more tag candidates the scripts make no difference |
| BoardScraper.FinalFilter | pinterest_scraper.py:84-89 | an order-preserving sublist of the first `max_images` candidates holding exactly those starting `http` on a Pinterest host; no longer than `max_images` |
| BoardScraper.KeepStaysSubsequence | pinterest_scraper.py:84-89 | keeping or dropping the next candidate keeps the kept list an order-preserving sublist of those looked at |
| BoardScraper.KeepStaysExact | pinterest_scraper.py:86-87 | after each candidate, the kept URLs are exactly the wanted ones among those looked at |
| BoardScraper.KeepStaysDistinct | pinterest_scraper.py:84-89 | a kept list without duplicates stays without duplicates when drawn from distinct candidates |
| BoardScraper.ExtractPinterestImages | pinterest_scraper.py:33-89 | at most `max_images` distinct kept URLs in the order found, exactly the kept ones among the first `max_images` candidates; each comes from the page, and every present meta value that passes the final filter is returned |
| PinterestApi.ParseBoardId | pinterest_api.py:98-122 | fewer than two non-empty path segments is an error; otherwise the first two joined by exactly one slash |
| PinterestApi.BoardIdRoundTrip | pinterest_api.py:108-122 | `/user/board/...` gives back `user/board`, whatever follows |
| PinterestApi.UserOnlyPathRejected | pinterest_api.py:112-116 | a path with only a user name is rejected |
| PinterestApi.Pages | pinterest_api.py:147-188 | every request asks for min(page_size, 100); the first carries the given bookmark; at most `page_size` pins are returned |
| PinterestApi.PagesFollowBookmarks | pinterest_api.py:155-186 | each later request carries the previous response's bookmark, which was present |
| PinterestApi.PagesGoOn | pinterest_api.py:155-186 | a turn that read a mapping with a bookmark and held fewer than `page_size` pins sends its request and goes on with the next response's items appended and its bookmark |
| PinterestApi.PagesStop | pinterest_api.py:179-188 | a turn that does not go on sends one request; if it succeeds the result is the first `page_size` of the held pins, and the bookmark was missing or enough pins were held |
| PinterestApi.CollectedAppends | pinterest_api.py:180-181 | extending the held pins response by response holds the earlier pins followed by each response's items, in order |
| PinterestApi.PagesGatherInOrder | pinterest_api.py:179-188 | a successful listing returns the first `page_size` of the pins of the responses it read, in order; the last response had no bookmark or enough pins were held |
| PinterestApi.ListingTakesFirstPins | pinterest_api.py:124-188 | a successful listing with a token returns the first `page_size` pins of the responses read, in order, and stopped for a missing bookmark or enough pins |
| PinterestApi.GetBoardPins | pinterest_api.py:124-188 | without a token it fails before any request; otherwise as the paging loop |
| PinterestApi.ChosenImage | pinterest_api.py:213 | the requested quality when truthy, else the original entry |
| PinterestApi.PinImageUrl | pinterest_api.py:207-220 | a non-mapping pin, media or images value ends the call; a URL comes only from the chosen image when it is a mapping holding `url`, and such a mapping always gives its `url` |
| PinterestApi.ExtractImageUrls | pinterest_api.py:206-222 | succeeds iff every pin can be read; at most one URL per pin; every pin's URL is returned |
| PinterestApi.ExtractOne | pinterest_api.py:206-220 | one pin gives exactly its own URL, or nothing, or the AttributeError its reading raises |
| PinterestApi.ExtractedUrlsFromPins | pinterest_api.py:206-222 | every URL returned is the URL some pin yields |
| PinterestApi.ExtractAppend | pinterest_api.py:206-222 | the URLs of joined pin lists are the joined URLs, so pin order is kept |
| PinterestApi.RequestedQualityPreferred | pinterest_api.py:213-216 | any pin whose requested quality is a mapping with a `url` yields that URL |
| PinterestApi.OriginalFallback | pinterest_api.py:213-216 | any pin whose requested quality is missing or empty yields the original's URL when that is a mapping holding one, and nothing when there is no original |
| PinterestApi.PinWithoutMediaSkipped | pinterest_api.py:209-216 | a pin without `media` contributes no URL and does not fail |
| PinterestApi.GetImagesFromBoardUrl | pinterest_api.py:224-237 | a bad path or a missing token fails first; at most `max_images` URLs |
| PinterestApi.GetPinterestImagesViaApi | pinterest_api.py:240-254 | missing app credentials fail before anything else |
| ApifyScraper.Lookup | apify_pinterest_scraper.py:74-78 | a mapping is looked up; a string item fails when it contains the key; a number or null always fails |
| ApifyScraper.FirstTruthy | apify_pinterest_scraper.py:82 | a truthy orig, else a truthy original, else whatever 1200x holds (None when absent); truthy iff one of the three is |
| ApifyScraper.Candidate | apify_pinterest_scraper.py:71-84 | a filled `image` wins, then a filled `imageUrl`, then `images`: a mapping gives its first truthy `orig`/`original`/`1200x`, a list its first entry, anything else nothing |
| ApifyScraper.ItemUrl | apify_pinterest_scraper.py:86-95 | a URL iff the candidate is a non-empty string, with its first thumbnail size upgraded |
| ApifyScraper.Collect | apify_pinterest_scraper.py:68-98 | keeps earlier URLs as a prefix; at most one URL per item; at most `max_images` when that is at least 1 |
| ApifyScraper.CollectTakesFirst | apify_pinterest_scraper.py:68-98 | for well-formed items the result is the first `max_images` of all offered URLs, in item order |
| ApifyScraper.Classify | apify_pinterest_scraper.py:110-129 | the first matching rule on the lower-cased message: token or authentication, then timeout, then not found or 404, else generic with the text |
| ApifyScraper.ClassifyIgnoresCase | apify_pinterest_scraper.py:111 | the category does not depend on letter case |
| ApifyScraper.TokenRuleFirst | apify_pinterest_scraper.py:114-121 | a message naming both token and timeout is an authentication failure |
| ApifyScraper.ExtractBoardImages | apify_pinterest_scraper.py:34-129 | a missing token fails first; service failures are classified; an empty dataset fails; a result is non-empty and at most `max_images` long |
| ApifyScraper.ExtractMatchesReference | apify_pinterest_scraper.py:61-106 | for well-formed items: the first `max_images` offered URLs, or "no extractable URLs" when none is offered |
| ApifyScraper.ImageFieldFirst | apify_pinterest_scraper.py:74-77 | an item with `image` and `imageUrl` yields its upgraded `image` |
| ApifyScraper.ImagesListFirstEntry | apify_pinterest_scraper.py:83-84 | an `images` list yields its first entry |
| Text.SplitJoin | pinterest_api.py:110 | splitting on a separator and joining back gives the original string |
| Text.ToLowerIdempotent | pinterest_scraper.py:117 | lower-casing twice is lower-casing once |

## Left out

- Rasterisation: PIL's drawing, glyph metrics, image encoding and `render_card_to_bytes`. The
  model stops at the list of drawing primitives.
- `Image.new` rejects negative canvas sizes. The model returns the computed sizes unchanged.
- `draw.text` with non-string content. The content is carried through as the JSON value.
- Binary floating point. Reals are exact, so rounding at exact boundaries (for example
  `int(h * 0.04)` for large h) may differ from the program.
- Non-finite floats are not representable.
- Pydantic's lax coercions, which the validator here rejects: strings such as "24", and 24.0
  for an integer field. Booleans are accepted as numbers only by the renderer, which does plain
  Python arithmetic. `RenderProperties.LaxInt` models the lax reading of an `int` field for the
  finding below; it covers plain decimal digits only, not signs, surrounding spaces or
  underscores.
- RenderProperties.ValidatedDesignRenders: holds only for documents whose numbers are JSON
  numbers. In the program a numeric string such as `"fontSize": "24"`, `"x": "10"` or a card
  `"width": "148"` passes `validate_card_design` and then makes the renderer fail with
  `TypeError` (see "## Findings").
- RenderProperties.ParsedElementRenders: the same restriction to strictly typed numbers.
- RenderProperties.TextFieldsRender: the same restriction to strictly typed numbers.
- RenderProperties.DecorativeFieldsRender: the same restriction to strictly typed numbers.
- Schema.Describe: pydantic's own error-message text and Python's exception texts (the
  `AttributeError` of `.get` on a non-mapping, the `TypeError` of iterating a non-list) are
  replaced by fixed texts. Those texts add the element's index, and for a rejected element or
  card they list the names of the failing fields, separated by ", ".
- Schema.TagText: in the unknown-type message, a `type` that is a float, list or mapping is
  written `<value>` instead of Python's `str()` of it. Mappings have no key order here, and
  float formatting is not modelled. `None`, booleans, integers and strings are written as
  Python writes them.
- Letter case is ASCII only, and `\s` uses `str.isspace` on single characters. No Unicode case
  folding is modelled.
- Network and service calls are replaced by their results:
  - `requests`, BeautifulSoup parsing and `urlparse`;
  - the Apify client;
  - the HTTP status branches of `get_board_pins`, which all end in one failure here;
  - `get_oauth_url`, `exchange_code_for_token` and `set_access_token`.
- The design generator that calls an external model service (`ai_card_generator.py`), the UI (`app.py`), the GitHub helper
  scripts, and `pinterest_dl_scraper.py`: these are outside the modelled core.
- PinterestApi.ExtendWith: a response whose `items` is a non-empty mapping would extend the pin
  list with its keys. The model's mappings have no key order, so that case is a `TypeError` here.
- ApifyScraper.ExtractBoardImages: for a malformed item the generic error carries no text. The
  text of Python's `TypeError` depends on the interpreter version; it contains none of the
  classifying words.
- Motifs.Leaves: only the count, kind and fill of the leaves are stated. Their horizontal
  containment in the box is not, because it depends on float truncation of 0.15·w and 0.1·w.
- Pixels.FontPixelSize: the program multiplies by the font size twice, and this is modelled as
  written.

## Findings

| source | as written | input that shows it | evidently intended | confidence | as-written member | corrected member |
|---|---|---|---|---|---|---|
| card_schema.py:27 | `fontSize` is declared `int` and pydantic validates in lax mode, so the string "24" passes `validate_card_design`; the renderer then reads the raw value and divides it by 25.4 in `get_font_for_type` (card_renderer.py:17), which raises `TypeError` | a text element with `"fontSize": "24"` and otherwise valid fields | every design `validate_card_design` accepts renders | not executed; follows from pydantic's documented lax conversions | RenderProperties.LaxFontSizeCrashesRenderer | RenderProperties.ValidatedDesignRenders |

=== FILE: apify_scraper.dfy ===
/** The Apify board scraper (`extract_pinterest_board_images_apify`) after the scraping service
    has answered: the service call is replaced by what it returns, either the dataset items or
    the message of the exception it raised. What remains is the choice of one image URL per item,
    the cap on their number, and the translation of failures into the scraper's own errors. */
module ApifyScraper {
  import opened Wrappers
  import opened Json
  import opened Text
  import PinUrls

  /** The errors the scraper raises; every one is an `ApifyPinterestError`. */
  datatype ApifyError =
    | MissingToken                        // no API token configured
    | NoPins                              // the dataset is empty
    | NoExtractableUrls                   // no item had a usable image URL
    | AuthenticationFailed
    | TimedOut
    | BoardNotFound
    | ScrapeFailed(message: Option<string>)
      // any other failure, with the text of the original exception; `None` for the `TypeError`
      // a malformed dataset item raises, whose text names no other category

  // ---------------------------------------------------------------------------
  // One image URL per item

  /** A dataset item that is not a mapping, on which `'image' in item` or `item['image']` raises. */
  datatype ItemFault = MalformedItem

  /** `key in item` followed, when true, by `item[key]`. A string item tests for a substring
      and a list item for an equal element, and then cannot be subscripted by a string; any
      other non-mapping does not support `in` at all. */
  function Lookup(item: Json, key: string): (r: Result<Option<Json>, ItemFault>)
    ensures item.JObject? ==> r == Ok(if key in item.fields then Some(item.fields[key]) else None)
    ensures item.JStr? ==> r == (if Contains(item.s, key) then Err(MalformedItem) else Ok(None))
    ensures !item.JObject? && !item.JStr? && !item.JArray? ==> r == Err(MalformedItem)
  {
    match item
    case JObject(fields) => Ok(if key in fields then Some(fields[key]) else None)
    case JStr(s) => if Contains(s, key) then Err(MalformedItem) else Ok(None)
    case JArray(xs) => if JStr(key) in xs then Err(MalformedItem) else Ok(None)
    case _ => Err(MalformedItem)
  }

  /** A field that is present and truthy. */
  predicate Filled(v: Option<Json>) {
    v.Some? && Truthy(v.value)
  }

  /** `a or b or c` on three `dict.get` results. */
  function FirstTruthy(images: map<string, Json>): (v: Json)
    ensures Truthy(v) <==> exists key :: key in ["orig", "original", "1200x"] && key in images && Truthy(images[key])
    ensures "orig" in images && Truthy(images["orig"]) ==> v == images["orig"]
    ensures !("orig" in images && Truthy(images["orig"])) && "original" in images && Truthy(images["original"]) ==>
              v == images["original"]
    ensures !("orig" in images && Truthy(images["orig"])) && !("original" in images && Truthy(images["original"])) ==>
              v == GetOr(images, "1200x", JNull)
  {
    var orig := GetOr(images, "orig", JNull);
    var original := GetOr(images, "original", JNull);
    var large := GetOr(images, "1200x", JNull);
    var v := if Truthy(orig) then orig else if Truthy(original) then original else large;
    assert "orig" in ["orig", "original", "1200x"] && "original" in ["orig", "original", "1200x"]
           && "1200x" in ["orig", "original", "1200x"];
    v
  }

  /** The value the item offers as its image: `image`, else `imageUrl`, else `images` (a
      mapping's `orig`/`original`/`1200x`, or a list's first entry). */
  function Candidate(item: Json): (r: Result<Json, ItemFault>)
    ensures item.JObject? ==> r.Ok?
    ensures item.JObject? && Filled(Lookup(item, "image").value) ==> r == Ok(item.fields["image"])
    ensures item.JObject? && !Filled(Lookup(item, "image").value) && Filled(Lookup(item, "imageUrl").value) ==>
              r == Ok(item.fields["imageUrl"])
    ensures item.JObject? && !Filled(Lookup(item, "image").value) && !Filled(Lookup(item, "imageUrl").value) ==>
              var images := Lookup(item, "images").value;
              && (!Filled(images) ==> r == Ok(JNull))
              && (Filled(images) && images.value.JObject? ==> r == Ok(FirstTruthy(images.value.fields)))
              && (Filled(images) && images.value.JArray? ==>
                    |images.value.items| > 0 && r == Ok(images.value.items[0]))
              && (Filled(images) && !images.value.JObject? && !images.value.JArray? ==> r == Ok(JNull))
  {
    var image :- Lookup(item, "image");
    if Filled(image) then Ok(image.value)
    else
      var imageUrl :- Lookup(item, "imageUrl");
      if Filled(imageUrl) then Ok(imageUrl.value)
      else
        var images :- Lookup(item, "images");
        if !Filled(images) then Ok(JNull)
        else match images.value
          case JObject(sizes) => Ok(FirstTruthy(sizes))
          case JArray(xs) => Ok(xs[0])
          case _ => Ok(JNull)
  }

  /** What one item contributes: a non-empty string candidate, its size directory upgraded. */
  function ItemUrl(item: Json): (r: Result<Option<string>, ItemFault>)
    ensures r.Ok? <==> Candidate(item).Ok?
    ensures r.Ok? ==> (r.value.Some? <==> Candidate(item).value.JStr? && Candidate(item).value.s != "")
    ensures r.Ok? && r.value.Some? ==> r.value.value == PinUrls.UpgradeFirstSize(Candidate(item).value.s)
  {
    var c :- Candidate(item);
    if c.JStr? && c.s != "" then Ok(Some(PinUrls.UpgradeFirstSize(c.s))) else Ok(None)
  }

  /** The collecting loop: each item's URL appended, stopping as soon as `max_images` are held
      (checked after every item). */
  function Collect(urls: seq<string>, items: seq<Json>, maxImages: int): (r: Result<seq<string>, ItemFault>)
    ensures r.Ok? ==> |urls| <= |r.value| <= |urls| + |items|
    ensures r.Ok? ==> r.value[..|urls|] == urls
    ensures r.Ok? && maxImages >= 1 && |urls| < maxImages ==> |r.value| <= maxImages
    decreases |items|
  {
    if |items| == 0 then Ok(urls)
    else
      var url :- ItemUrl(items[0]);
      var next := if url.Some? then urls + [url.value] else urls;
      if |next| >= maxImages then Ok(next)
      else
        var r :- Collect(next, items[1..], maxImages);
        assert r[..|urls|] == next[..|next|][..|urls|];
        Ok(r)
  }

  /** Every URL the items offer, in order: the reference the loop is measured against. */
  function AllUrls(items: seq<Json>): seq<string>
    requires forall k :: 0 <= k < |items| ==> ItemUrl(items[k]).Ok?
    decreases |items|
  {
    if |items| == 0 then []
    else
      var rest := AllUrls(items[1..]);
      if ItemUrl(items[0]).value.Some? then [ItemUrl(items[0]).value.value] + rest else rest
  }

  /** With well-formed items, the loop returns the first `max_images` of all offered URLs,
      in item order. */
  lemma {:induction false} CollectTakesFirst(urls: seq<string>, items: seq<Json>, maxImages: int)
    requires forall k :: 0 <= k < |items| ==> ItemUrl(items[k]).Ok?
    requires |urls| < maxImages
    ensures var all := urls + AllUrls(items);
            Collect(urls, items, maxImages) == Ok(if |all| <= maxImages then all else all[..maxImages])
    decreases |items|
  {
    if |items| == 0 {
      assert urls + [] == urls;
    } else {
      var url := ItemUrl(items[0]).value;
      var next := if url.Some? then urls + [url.value] else urls;
      assert forall k :: 0 <= k < |items| - 1 ==> items[1..][k] == items[k + 1];
      var rest := AllUrls(items[1..]);
      assert urls + AllUrls(items) == next + rest;
      if |next| >= maxImages {
        assert |next| == maxImages;
        assert Collect(urls, items, maxImages) == Ok(next);
        assert (next + rest)[..maxImages] == next;
        if |next + rest| <= maxImages {
          assert rest == [];
          assert next + rest == next;
        }
      } else {
        CollectTakesFirst(next, items[1..], maxImages);
      }
    }
  }

  // ---------------------------------------------------------------------------
  // Failures

  /** The category of a failure raised by the service, by its lower-cased message, the first
      matching rule winning: token or authentication, then timeout, then not found or 404. */
  function Classify(message: string): (e: ApifyError)
    ensures var lower := ToLower(message);
            && (e == AuthenticationFailed <==> Contains(lower, "token") || Contains(lower, "authentication"))
            && (e == TimedOut <==> !Contains(lower, "token") && !Contains(lower, "authentication") && Contains(lower, "timeout"))
            && (e == BoardNotFound <==>
                  !Contains(lower, "token") && !Contains(lower, "authentication") && !Contains(lower, "timeout")
                  && (Contains(lower, "not found") || Contains(lower, "404")))
            && (e.ScrapeFailed? ==> e == ScrapeFailed(Some(message)))
    ensures e in {AuthenticationFailed, TimedOut, BoardNotFound, ScrapeFailed(Some(message))}
  {
    var lower := ToLower(message);
    if Contains(lower, "token") || Contains(lower, "authentication") then AuthenticationFailed
    else if Contains(lower, "timeout") then TimedOut
    else if Contains(lower, "not found") || Contains(lower, "404") then BoardNotFound
    else ScrapeFailed(Some(message))
  }

  /** The category does not depend on letter case; only the generic error keeps the text. */
  lemma ClassifyIgnoresCase(message: string)
    ensures Classify(message).ScrapeFailed? == Classify(ToLower(message)).ScrapeFailed?
    ensures !Classify(message).ScrapeFailed? ==> Classify(ToLower(message)) == Classify(message)
  {
    ToLowerIdempotent(message);
  }

  /** A message naming both a token and a timeout counts as an authentication failure. */
  lemma TokenRuleFirst(message: string)
    requires Contains(ToLower(message), "token") && Contains(ToLower(message), "timeout")
    ensures Classify(message) == AuthenticationFailed
  {
  }

  // ---------------------------------------------------------------------------
  // The whole call

  /** `extract_pinterest_board_images_apify(board_url, max_images)`, given the configured API
      token and what the service returned (its dataset items, or its exception's message). */
  function ExtractBoardImages(token: Option<string>, service: Result<seq<Json>, string>, maxImages: int): (r: Result<seq<string>, ApifyError>)
    ensures token.None? || token.value == "" ==> r == Err(MissingToken)
    ensures token.Some? && token.value != "" && service.Err? ==> r == Err(Classify(service.error))
    ensures token.Some? && token.value != "" && service == Ok([]) ==> r == Err(NoPins)
    ensures r.Ok? ==> |r.value| > 0
    ensures r.Ok? && maxImages >= 1 ==> |r.value| <= maxImages
    ensures r.Ok? ==> service.Ok? && Collect([], service.value, maxImages) == Ok(r.value)
  {
    if token.None? || token.value == "" then Err(MissingToken)
    else match service
      case Err(message) => Err(Classify(message))
      case Ok(items) =>
        if |items| == 0 then Err(NoPins)
        else match Collect([], items, maxImages)
          case Err(_) => Err(ScrapeFailed(None))
          case Ok(urls) => if |urls| == 0 then Err(NoExtractableUrls) else Ok(urls)
  }

  /** For a dataset of well-formed items the result is the first `max_images` offered URLs,
      or `NoExtractableUrls` when no item offers one. */
  lemma ExtractMatchesReference(token: string, items: seq<Json>, maxImages: int)
    requires token != "" && |items| > 0 && maxImages >= 1
    requires forall k :: 0 <= k < |items| ==> ItemUrl(items[k]).Ok?
    ensures var all := AllUrls(items);
            ExtractBoardImages(Some(token), Ok(items), maxImages)
              == if |all| == 0 then Err(NoExtractableUrls)
                 else Ok(if |all| <= maxImages then all else all[..maxImages])
  {
    CollectTakesFirst([], items, maxImages);
    assert [] + AllUrls(items) == AllUrls(items);
  }

  /** An item with both `image` and `imageUrl` filled in offers its `image`, upgraded. */
  lemma ImageFieldFirst(image: string, other: Json)
    requires image != ""
    ensures ItemUrl(JObject(map["image" := JStr(image), "imageUrl" := other])) == Ok(Some(PinUrls.UpgradeFirstSize(image)))
  {
    var item := JObject(map["image" := JStr(image), "imageUrl" := other]);
    assert Lookup(item, "image").value == Some(JStr(image));
  }

  /** An item offering only an `images` list offers its first entry. */
  lemma ImagesListFirstEntry(first: string, more: seq<Json>)
    requires first != ""
    ensures ItemUrl(JObject(map["images" := JArray([JStr(first)] + more)])) == Ok(Some(PinUrls.UpgradeFirstSize(first)))
  {
  }
}

=== FILE: board_scraper.dfy ===
/** The board scraper (`pinterest_scraper.py`): which board URLs are accepted, and how image
    URLs are gathered from a fetched board page. Fetching and HTML parsing are left to the
    caller: a page is given as the values the parser would hand back (the `content` of each
    `og:image` meta tag, the `src`/`data-src`/`srcset` of each `img` tag, and the text of each
    `initial-state` script), with `None` for an absent attribute. */
module BoardScraper {
  import opened Wrappers
  import opened Text
  import opened PinUrls

  // ---------------------------------------------------------------------------
  // Board URL acceptance

  const BoardPatterns: seq<string> := ["pinterest.com/", "pinterest.de/", "pinterest.co.uk/"]

  /** `validate_pinterest_url`: a non-empty URL whose lower-cased form contains one of the
      three site patterns anywhere. */
  function ValidatePinterestUrl(url: Option<string>): (ok: bool)
    ensures url.None? || url.value == "" ==> !ok
    ensures ok <==> url.Some? && url.value != ""
                    && exists k :: 0 <= k < |BoardPatterns| && Contains(ToLower(url.value), BoardPatterns[k])
  {
    if url.None? || url.value == "" then false
    else
      var lower := ToLower(url.value);
      var found := Contains(lower, BoardPatterns[0]) || Contains(lower, BoardPatterns[1])
                   || Contains(lower, BoardPatterns[2]);
      assert found <==> exists k :: 0 <= k < |BoardPatterns| && Contains(lower, BoardPatterns[k]);
      found
  }

  /** Letter case does not matter. */
  lemma UrlCheckIgnoresCase(s: string)
    ensures ValidatePinterestUrl(Some(s)) == ValidatePinterestUrl(Some(ToLower(s)))
  {
    ToLowerIdempotent(s);
  }

  /** The pattern may sit anywhere: whatever comes before or after an accepted URL, the
      result is accepted too (any path, any scheme, any subdomain). */
  lemma UrlCheckAnyContext(before: string, s: string, after: string)
    requires ValidatePinterestUrl(Some(s))
    ensures ValidatePinterestUrl(Some(before + s + after))
  {
    var k :| 0 <= k < |BoardPatterns| && Contains(ToLower(s), BoardPatterns[k]);
    ToLowerAppend(before, s);
    ToLowerAppend(before + s, after);
    ContainsExtendLeft(ToLower(before), ToLower(s), BoardPatterns[k]);
    ContainsExtendRight(ToLower(before) + ToLower(s), ToLower(after), BoardPatterns[k]);
  }

  /** A URL on the German site is accepted, however its host is capitalised and whatever
      surrounds it. */
  lemma GermanBoardUrlAccepted(before: string, host: string, after: string)
    requires ToLower(host) == "pinterest.de/"
    ensures ValidatePinterestUrl(Some(before + host + after))
  {
    ContainsOwnPrefix(BoardPatterns[1], "");
    assert BoardPatterns[1] + "" == BoardPatterns[1];
    assert Contains(ToLower(host), BoardPatterns[1]);
    UrlCheckAnyContext(before, host, after);
  }

  // ---------------------------------------------------------------------------
  // The page as the parser sees it

  datatype ImgTag = ImgTag(src: Option<string>, dataSrc: Option<string>, srcset: Option<string>)

  datatype BoardPage = BoardPage(
    ogImages: seq<Option<string>>,             // `content` of each `<meta property="og:image">`
    images: seq<ImgTag>,                       // each `<img>`
    initialStateScripts: seq<Option<string>>)  // `.string` of each `<script id="initial-state">`

  /** A present, non-empty attribute value (Python truthiness of `str | None`). */
  predicate Present(v: Option<string>) {
    v.Some? && v.value != ""
  }

  /** `img.get('src') or img.get('data-src') or img.get('srcset', '').split(',')[0].split(' ')[0]`. */
  function ImgSource(img: ImgTag): (src: string)
    ensures Present(img.src) ==> src == img.src.value
    ensures !Present(img.src) && Present(img.dataSrc) ==> src == img.dataSrc.value
    ensures !Present(img.src) && !Present(img.dataSrc) ==>
              var srcset := if img.srcset.Some? then img.srcset.value else "";
              && StartsWith(srcset, src) && ',' !in src && ' ' !in src
              && (|src| < |srcset| ==> srcset[|src|] == ',' || srcset[|src|] == ' ')
  {
    if Present(img.src) then img.src.value
    else if Present(img.dataSrc) then img.dataSrc.value
    else
      var srcset := if img.srcset.Some? then img.srcset.value else "";
      var first := BeforeFirst(srcset, ',');
      var url := BeforeFirst(first, ' ');
      assert StartsWith(srcset, url) by {
        assert srcset[..|first|] == first;
        assert first[..|url|] == url;
        assert srcset[..|url|] == first[..|url|];
      }
      assert |url| < |first| ==> srcset[|url|] == first[|url|] == ' ';
      url
  }

  // ---------------------------------------------------------------------------
  // What the page offers

  /** The present `og:image` values, in page order. */
  function PresentValues(contents: seq<Option<string>>): seq<string>
    decreases |contents|
  {
    if |contents| == 0 then []
    else (if Present(contents[0]) then [contents[0].value] else []) + PresentValues(contents[1..])
  }

  /** An `img` tag offers its source when that is non-empty and on a Pinterest host. */
  predicate ImgOffered(img: ImgTag) {
    ImgSource(img) != "" && IsPinterestHost(ImgSource(img))
  }

  /** The URL each offering `img` tag contributes (its first thumbnail size upgraded), in page order. */
  function OfferedImgUrls(imgs: seq<ImgTag>): seq<string>
    decreases |imgs|
  {
    if |imgs| == 0 then []
    else (if ImgOffered(imgs[0]) then [UpgradeFirstSize(ImgSource(imgs[0]))] else []) + OfferedImgUrls(imgs[1..])
  }

  /** The URLs the pattern finds in one script, when the script is present and names the image host. */
  function ScriptFinds(script: Option<string>): seq<string> {
    if Present(script) && Contains(script.value, "pinimg.com") then FindPinimgUrls(script.value) else []
  }

  /** The large-size URLs among those found, with all sizes upgraded, in order. */
  function LargeUrls(found: seq<string>): seq<string>
    decreases |found|
  {
    if |found| == 0 then []
    else (if IsLargeSize(found[0]) then [UpgradeAllSizes(found[0])] else []) + LargeUrls(found[1..])
  }

  /** What all the `initial-state` scripts offer, script by script. */
  function ScriptOffered(scripts: seq<Option<string>>): seq<string>
    decreases |scripts|
  {
    if |scripts| == 0 then [] else LargeUrls(ScriptFinds(scripts[0])) + ScriptOffered(scripts[1..])
  }

  // ---------------------------------------------------------------------------
  // Gathering candidates

  /** The `og:image` loop (over the first `max_images` tags): each present value not yet seen.
      Every present value ends up held, and nothing else is added. */
  function MetaPhase(urls: seq<string>, contents: seq<Option<string>>): (r: seq<string>)
    ensures NoDup(urls) ==> NoDup(r)
    ensures |urls| <= |r| <= |urls| + |contents| && r[..|urls|] == urls
    ensures forall u :: u in r ==> u in urls || u in PresentValues(contents)
    ensures forall u :: u in PresentValues(contents) ==> u in r
    decreases |contents|
  {
    if |contents| == 0 then urls
    else
      var next := if Present(contents[0]) then AddNew(urls, contents[0].value) else urls;
      var r := MetaPhase(next, contents[1..]);
      assert r[..|urls|] == next[..|next|][..|urls|];
      PrefixMembers(next, r);
      r
  }

  /** The `img` loop: a present source on a Pinterest host is upgraded and added if new; the
      loop stops once `max_images` URLs are held (checked after every tag). Nothing but offered
      URLs is added, and unless the limit was reached every offered URL is held. */
  function ImgPhase(urls: seq<string>, imgs: seq<ImgTag>, maxImages: int): (r: seq<string>)
    ensures NoDup(urls) ==> NoDup(r)
    ensures |urls| <= |r| && r[..|urls|] == urls
    ensures forall u :: u in r ==> u in urls || u in OfferedImgUrls(imgs)
    ensures |r| < maxImages ==> forall u :: u in OfferedImgUrls(imgs) ==> u in r
    decreases |imgs|
  {
    if |imgs| == 0 then urls
    else
      var src := ImgSource(imgs[0]);
      var next := if src != "" && IsPinterestHost(src) then AddNew(urls, UpgradeFirstSize(src)) else urls;
      if |next| >= maxImages then next
      else
        var r := ImgPhase(next, imgs[1..], maxImages);
        assert r[..|urls|] == next[..|next|][..|urls|];
        PrefixMembers(next, r);
        r
  }

  /** Once the `img` loop has reached `max_images` URLs, later tags are never looked at. */
  lemma {:induction false} ImgPhaseStopsAtLimit(urls: seq<string>, imgs: seq<ImgTag>, more: seq<ImgTag>, maxImages: int)
    requires |imgs| > 0 && |ImgPhase(urls, imgs, maxImages)| >= maxImages
    ensures ImgPhase(urls, imgs + more, maxImages) == ImgPhase(urls, imgs, maxImages)
    decreases |imgs|
  {
    assert (imgs + more)[0] == imgs[0];
    assert (imgs + more)[1..] == imgs[1..] + more;
    var src := ImgSource(imgs[0]);
    var next := if src != "" && IsPinterestHost(src) then AddNew(urls, UpgradeFirstSize(src)) else urls;
    if |next| < maxImages {
      ImgPhaseStopsAtLimit(next, imgs[1..], more, maxImages);
    }
  }

  const PinimgPrefix := "https://i.pinimg.com/"

  /** The characters the pattern's `[^"'}\s]` class excludes. */
  predicate IsUrlStop(c: char) {
    c == '"' || c == '\'' || c == '}' || IsSpace(c)
  }

  /** How many characters from the start are not stop characters. */
  function UrlRun(s: string): (n: nat)
    ensures n <= |s|
    decreases |s|
  {
    if |s| == 0 || IsUrlStop(s[0]) then 0 else 1 + UrlRun(s[1..])
  }

  /** The run holds no stop character and ends at one or at the end. */
  lemma {:induction false} UrlRunStops(s: string)
    ensures forall j :: 0 <= j < UrlRun(s) ==> !IsUrlStop(s[j])
    ensures UrlRun(s) < |s| ==> IsUrlStop(s[UrlRun(s)])
    decreases |s|
  {
    if |s| > 0 && !IsUrlStop(s[0]) {
      UrlRunStops(s[1..]);
      forall j | 1 <= j < UrlRun(s)
        ensures !IsUrlStop(s[j])
      {
        assert s[j] == s[1..][j - 1];
      }
    }
  }

  // The scan is stated for any literal prefix `pre` followed by `[^"'}\s]+`; the pattern of the
  // scraper is the one with `PinimgPrefix`.

  /** A literal prefix holding no stop character. */
  predicate NoStopIn(pre: string) {
    forall j :: 0 <= j < |pre| ==> !IsUrlStop(pre[j])
  }

  /** A match can begin at `i`: the prefix, then at least one non-stop character. */
  predicate MatchStartsAt(text: string, pre: string, i: nat) {
    i + |pre| < |text| && text[i..i + |pre|] == pre && !IsUrlStop(text[i + |pre|])
  }

  /** The longest match beginning at `i`: the prefix and the run of non-stop characters after it,
      up to the next stop character or the end. */
  function MatchAt(text: string, pre: string, i: nat): (m: string)
    requires MatchStartsAt(text, pre, i)
    ensures i + |pre| < i + |m| <= |text|
  {
    var p := |pre|;
    var rest := text[i + p..];
    assert rest[0] == text[i + p];
    text[i..i + p + UrlRun(rest)]
  }

  /** The longest match is the slice of the text from `i`: the prefix, then only non-stop
      characters, ending just before a stop character or at the end of the text. */
  lemma MatchAtShape(text: string, pre: string, i: nat)
    requires MatchStartsAt(text, pre, i)
    ensures var m := MatchAt(text, pre, i);
            && m == text[i..i + |m|]
            && (i + |m| == |text| || IsUrlStop(text[i + |m|]))
            && StartsWith(m, pre) && forall j :: |pre| <= j < |m| ==> !IsUrlStop(m[j])
  {
    var p := |pre|;
    var rest := text[i + p..];
    var m := MatchAt(text, pre, i);
    UrlRunStops(rest);
    assert m[..p] == pre;
    assert forall j :: p <= j < |m| ==> m[j] == rest[j - p];
    if i + |m| < |text| {
      assert text[i + |m|] == rest[UrlRun(rest)];
    }
  }

  /** The scan from position `pos` on: a match found there is taken whole and the scan resumes
      after it; otherwise it moves one character on. */
  function FindFrom(text: string, pre: string, pos: nat): seq<string>
    requires pos <= |text|
    decreases |text| - pos
  {
    if pos == |text| then []
    else if MatchStartsAt(text, pre, pos) then
      var url := MatchAt(text, pre, pos);
      [url] + FindFrom(text, pre, pos + |url|)
    else FindFrom(text, pre, pos + 1)
  }

  /** Every URL the scan from `pos` finds has the shape of a match. */
  lemma {:induction false} FindFromShape(text: string, pre: string, pos: nat)
    requires pos <= |text|
    ensures forall k :: 0 <= k < |FindFrom(text, pre, pos)| ==>
              StartsWith(FindFrom(text, pre, pos)[k], pre) && |FindFrom(text, pre, pos)[k]| > |pre|
              && forall j :: |pre| <= j < |FindFrom(text, pre, pos)[k]| ==> !IsUrlStop(FindFrom(text, pre, pos)[k][j])
    decreases |text| - pos
  {
    if pos < |text| {
      if MatchStartsAt(text, pre, pos) {
        MatchAtShape(text, pre, pos);
        FindFromAtMatch(text, pre, pos);
        FindFromShape(text, pre, pos + |MatchAt(text, pre, pos)|);
      } else {
        FindFromPastNoMatch(text, pre, pos);
        FindFromShape(text, pre, pos + 1);
      }
    }
  }

  /** `re.findall(r'https://i\.pinimg\.com/[^"\'}\s]+', text)`: scanning from the left, each
      match as long as possible, the next search starting after it. */
  function FindPinimgUrls(text: string): (urls: seq<string>)
    ensures forall k :: 0 <= k < |urls| ==>
              StartsWith(urls[k], PinimgPrefix) && |urls[k]| > |PinimgPrefix|
              && forall j :: |PinimgPrefix| <= j < |urls[k]| ==> !IsUrlStop(urls[k][j])
  {
    FindFromShape(text, PinimgPrefix, 0);
    FindFrom(text, PinimgPrefix, 0)
  }

  /** `m` is how far the run of non-stop characters goes. */
  lemma {:induction false} UrlRunExact(s: string, m: nat)
    requires m <= |s| && (m == |s| || IsUrlStop(s[m]))
    requires forall j :: 0 <= j < m ==> !IsUrlStop(s[j])
    ensures UrlRun(s) == m
    decreases |s|
  {
    if m > 0 {
      assert !IsUrlStop(s[0]);
      forall j | 0 <= j < m - 1
        ensures !IsUrlStop(s[1..][j])
      {
        assert s[1..][j] == s[j + 1];
      }
      if m - 1 < |s[1..]| {
        assert s[1..][m - 1] == s[m];
      }
      UrlRunExact(s[1..], m - 1);
    }
  }

  lemma PrefixHasNoStop()
    ensures NoStopIn(PinimgPrefix)
  {
  }

  /** A longest match holds no stop character. */
  lemma MatchHasNoStop(text: string, pre: string, i: nat)
    requires NoStopIn(pre) && MatchStartsAt(text, pre, i)
    ensures forall j :: i <= j < i + |MatchAt(text, pre, i)| ==> !IsUrlStop(text[j])
  {
    var m := MatchAt(text, pre, i);
    MatchAtShape(text, pre, i);
    forall j | i <= j < i + |m|
      ensures !IsUrlStop(text[j])
    {
      assert text[j] == m[j - i];
      if j - i < |pre| {
        assert m[j - i] == m[..|pre|][j - i];
      }
    }
  }

  /** One step of the scan at a match: that match comes first, then what the scan after it finds. */
  lemma FindFromAtMatch(text: string, pre: string, pos: nat)
    requires MatchStartsAt(text, pre, pos)
    ensures pos + |MatchAt(text, pre, pos)| <= |text|
    ensures FindFrom(text, pre, pos) == [MatchAt(text, pre, pos)] + FindFrom(text, pre, pos + |MatchAt(text, pre, pos)|)
  {
  }

  /** One step of the scan where no match begins: the scan moves one character on. */
  lemma FindFromPastNoMatch(text: string, pre: string, pos: nat)
    requires pos < |text| && !MatchStartsAt(text, pre, pos)
    ensures FindFrom(text, pre, pos) == FindFrom(text, pre, pos + 1)
  {
  }

  /** URL `k` found by the scan from `pos` is the longest match at some position from `pos` on. */
  lemma {:induction false} FoundUrlIsMatch(text: string, pre: string, pos: nat, k: nat) returns (i: nat)
    requires pos <= |text| && k < |FindFrom(text, pre, pos)|
    ensures pos <= i && MatchStartsAt(text, pre, i) && FindFrom(text, pre, pos)[k] == MatchAt(text, pre, i)
    decreases |text| - pos
  {
    if MatchStartsAt(text, pre, pos) {
      var m := MatchAt(text, pre, pos);
      var next := pos + |m|;
      FindFromAtMatch(text, pre, pos);
      var found := FindFrom(text, pre, next);
      if k == 0 {
        assert FindFrom(text, pre, pos)[0] == m;
        i := pos;
      } else {
        assert FindFrom(text, pre, pos)[k] == found[k - 1];
        i := FoundUrlIsMatch(text, pre, next, k - 1);
      }
    } else {
      FindFromPastNoMatch(text, pre, pos);
      i := FoundUrlIsMatch(text, pre, pos + 1, k);
    }
  }

  /** `u` is the longest match of the scraper's pattern at some position of `text`. */
  ghost predicate IsLongestMatch(text: string, u: string)
  {
    exists i :: 0 <= i < |text| && MatchStartsAt(text, PinimgPrefix, i) && u == MatchAt(text, PinimgPrefix, i)
  }

  /** Every URL found is the longest match at some position of the text: it stops exactly at a
      stop character or at the end. */
  lemma FoundUrlsAreMatches(text: string)
    ensures forall k :: 0 <= k < |FindPinimgUrls(text)| ==> IsLongestMatch(text, FindPinimgUrls(text)[k])
  {
    forall k | 0 <= k < |FindPinimgUrls(text)|
      ensures IsLongestMatch(text, FindPinimgUrls(text)[k])
    {
      var i := FoundUrlIsMatch(text, PinimgPrefix, 0, k);
      assert 0 <= i < |text| && MatchStartsAt(text, PinimgPrefix, i)
             && FindPinimgUrls(text)[k] == MatchAt(text, PinimgPrefix, i);
    }
  }

  /** Every URL the pattern finds is a piece of the script text. */
  lemma FoundUrlsOccurInText(text: string)
    ensures forall k :: 0 <= k < |FindPinimgUrls(text)| ==> Contains(text, FindPinimgUrls(text)[k])
  {
    forall k | 0 <= k < |FindPinimgUrls(text)|
      ensures Contains(text, FindPinimgUrls(text)[k])
    {
      var i := FoundUrlIsMatch(text, PinimgPrefix, 0, k);
      var m := MatchAt(text, PinimgPrefix, i);
      MatchAtShape(text, PinimgPrefix, i);
      ContainsIffOccurs(text, m);
      assert OccursAt(text, m, i);
    }
  }

  /** A match runs up to the first stop character after the prefix, or to the end. */
  lemma MatchEndsAt(text: string, pre: string, i: nat, e: nat)
    requires MatchStartsAt(text, pre, i) && i + |pre| < e <= |text|
    requires forall j :: i + |pre| <= j < e ==> !IsUrlStop(text[j])
    requires e == |text| || IsUrlStop(text[e])
    ensures MatchAt(text, pre, i) == text[i..e]
  {
    var p := |pre|;
    var s := text[i + p..];
    forall j | 0 <= j < e - (i + p)
      ensures !IsUrlStop(s[j])
    {
      assert s[j] == text[i + p + j];
    }
    if e < |text| {
      assert s[e - (i + p)] == text[e];
    }
    UrlRunExact(s, e - (i + p));
  }

  /** A match beginning inside the match at `pos` ends where that one does. */
  lemma SameRunEnd(text: string, pre: string, pos: nat, i: nat)
    requires NoStopIn(pre) && MatchStartsAt(text, pre, pos) && MatchStartsAt(text, pre, i)
    requires pos <= i < pos + |MatchAt(text, pre, pos)|
    ensures EndsWith(MatchAt(text, pre, pos), MatchAt(text, pre, i))
  {
    var m := MatchAt(text, pre, pos);
    var e := pos + |m|;
    MatchAtShape(text, pre, pos);
    MatchHasNoStop(text, pre, pos);
    MatchEndsAt(text, pre, i, e);
    assert m[|m| - (e - i)..] == text[i..e];
  }

  /** A URL the scan finds after the match at `pos` is also found by the scan from `pos`, one
      place further on. */
  lemma FoundAfterMatch(text: string, pre: string, pos: nat, j: nat)
    requires MatchStartsAt(text, pre, pos)
    requires j < |FindFrom(text, pre, pos + |MatchAt(text, pre, pos)|)|
    ensures j + 1 < |FindFrom(text, pre, pos)|
    ensures FindFrom(text, pre, pos)[j + 1] == FindFrom(text, pre, pos + |MatchAt(text, pre, pos)|)[j]
  {
    FindFromAtMatch(text, pre, pos);
  }

  /** The longest match at position `i` (not before `pos`) is the tail of some URL the scan from
      `pos` found. */
  lemma {:induction false} MatchCoveredBy(text: string, pre: string, pos: nat, i: nat) returns (k: nat)
    requires NoStopIn(pre) && pos <= i && MatchStartsAt(text, pre, i)
    ensures k < |FindFrom(text, pre, pos)| && EndsWith(FindFrom(text, pre, pos)[k], MatchAt(text, pre, i))
    decreases |text| - pos
  {
    if MatchStartsAt(text, pre, pos) {
      var next := pos + |MatchAt(text, pre, pos)|;
      if i < next {
        SameRunEnd(text, pre, pos, i);
        FindFromAtMatch(text, pre, pos);
        k := 0;
      } else {
        var j := MatchCoveredBy(text, pre, next, i);
        FoundAfterMatch(text, pre, pos, j);
        k := j + 1;
      }
    } else {
      FindFromPastNoMatch(text, pre, pos);
      k := MatchCoveredBy(text, pre, pos + 1, i);
    }
  }

  /** Every place where a match could begin is covered: the longest match from there is the
      tail of some URL the scan found, so the scan misses no occurrence. */
  lemma EveryMatchCovered(text: string)
    ensures forall i: nat :: MatchStartsAt(text, PinimgPrefix, i) ==>
              exists k :: 0 <= k < |FindPinimgUrls(text)| && EndsWith(FindPinimgUrls(text)[k], MatchAt(text, PinimgPrefix, i))
  {
    PrefixHasNoStop();
    forall i: nat | MatchStartsAt(text, PinimgPrefix, i)
      ensures exists k :: 0 <= k < |FindPinimgUrls(text)| && EndsWith(FindPinimgUrls(text)[k], MatchAt(text, PinimgPrefix, i))
    {
      var k := MatchCoveredBy(text, PinimgPrefix, 0, i);
      assert 0 <= k < |FindPinimgUrls(text)| && EndsWith(FindPinimgUrls(text)[k], MatchAt(text, PinimgPrefix, i));
    }
  }

  /** A script URL is only taken when it already names a large size. */
  predicate IsLargeSize(url: string) {
    Contains(url, Originals) || Contains(url, Size736) || Contains(url, Size564)
  }

  /** The inner loop over one script's URLs: a large-size URL, with all sizes upgraded, is added
      if new; the loop stops right after an addition that reaches `max_images`. Nothing but
      large-size URLs is added, and unless the limit was reached all of them are held. */
  function ScriptUrls(urls: seq<string>, found: seq<string>, maxImages: int): (r: seq<string>)
    ensures NoDup(urls) ==> NoDup(r)
    ensures |urls| <= |r| && r[..|urls|] == urls
    ensures forall u :: u in r ==> u in urls || u in LargeUrls(found)
    ensures |r| < maxImages ==> forall u :: u in LargeUrls(found) ==> u in r
    decreases |found|
  {
    if |found| == 0 then urls
    else if IsLargeSize(found[0]) && UpgradeAllSizes(found[0]) !in urls then
      var next := urls + [UpgradeAllSizes(found[0])];
      if |next| >= maxImages then next
      else
        var r := ScriptUrls(next, found[1..], maxImages);
        assert r[..|urls|] == next[..|next|][..|urls|];
        PrefixMembers(next, r);
        r
    else
      var r := ScriptUrls(urls, found[1..], maxImages);
      PrefixMembers(urls, r);
      r
  }

  /** The outer loop over the `initial-state` scripts (it does not stop at `max_images`). */
  function ScriptPhase(urls: seq<string>, scripts: seq<Option<string>>, maxImages: int): (r: seq<string>)
    ensures NoDup(urls) ==> NoDup(r)
    ensures |urls| <= |r| && r[..|urls|] == urls
    ensures forall u :: u in r ==> u in urls || u in ScriptOffered(scripts)
    ensures |r| < maxImages ==> forall u :: u in ScriptOffered(scripts) ==> u in r
    decreases |scripts|
  {
    if |scripts| == 0 then urls
    else
      var next := ScriptUrls(urls, ScriptFinds(scripts[0]), maxImages);
      var r := ScriptPhase(next, scripts[1..], maxImages);
      assert r[..|urls|] == next[..|next|][..|urls|];
      PrefixMembers(next, r);
      r
  }

  /** Scripts are consulted only when fewer than this many candidates were found. */
  const ScriptThreshold := 5

  /** The candidate list before the final filter: meta tags, then `img` tags, then (only when
      fewer than five were found) script URLs. No URL appears twice; every candidate is one the
      page offers; every present meta value is among the first `max_images`; and every offered
      `img` URL (below the limit) and script URL (below five and the limit) is a candidate. */
  function Candidates(page: BoardPage, maxImages: int): (urls: seq<string>)
    ensures NoDup(urls)
    ensures forall u :: u in urls ==>
              u in PresentValues(PyTake(page.ogImages, maxImages)) || u in OfferedImgUrls(page.images)
              || u in ScriptOffered(page.initialStateScripts)
    ensures maxImages >= 0 ==>
              forall u :: u in PresentValues(PyTake(page.ogImages, maxImages)) ==> u in PyTake(urls, maxImages)
    ensures |urls| < maxImages ==> forall u :: u in OfferedImgUrls(page.images) ==> u in urls
    ensures |urls| < ScriptThreshold && |urls| < maxImages ==>
              forall u :: u in ScriptOffered(page.initialStateScripts) ==> u in urls
  {
    var metas := PyTake(page.ogImages, maxImages);
    var fromMeta := MetaPhase([], metas);
    var fromImgs := ImgPhase(fromMeta, page.images, maxImages);
    var urls := if |fromImgs| < ScriptThreshold then ScriptPhase(fromImgs, page.initialStateScripts, maxImages)
                else fromImgs;
    PrefixMembers(fromImgs, urls);
    assert urls[..|fromMeta|] == fromMeta by {
      assert urls[..|fromImgs|][..|fromMeta|] == fromMeta;
    }
    if maxImages >= 0 then
      ShortPrefixKept(fromMeta, urls, maxImages);
      urls
    else urls
  }

  /** With five or more candidates from the tags, the scripts make no difference. */
  lemma ScriptsIgnoredWhenEnough(page: BoardPage, scripts: seq<Option<string>>, maxImages: int)
    requires |ImgPhase(MetaPhase([], PyTake(page.ogImages, maxImages)), page.images, maxImages)| >= ScriptThreshold
    ensures Candidates(page.(initialStateScripts := scripts), maxImages) == Candidates(page, maxImages)
  {
  }

  /** The final check: an `http` URL on a Pinterest host. */
  predicate Keep(url: string) {
    StartsWith(url, "http") && IsPinterestHost(url)
  }

  /** One turn of the final loop: the URL is appended when it passes `Keep`. */
  function KeepIfWanted(kept: seq<string>, url: string): seq<string> {
    if Keep(url) then kept + [url] else kept
  }

  /** The kept URLs stay an order-preserving sublist of those looked at. */
  lemma KeepStaysSubsequence(kept: seq<string>, firsts: seq<string>, i: nat)
    requires i < |firsts| && SubsequenceOf(kept, firsts[..i])
    ensures SubsequenceOf(KeepIfWanted(kept, firsts[i]), firsts[..i + 1])
  {
    assert firsts[..i + 1][..i] == firsts[..i];
    if Keep(firsts[i]) {
      assert (kept + [firsts[i]])[..|kept|] == kept;
    }
  }

  /** The kept URLs stay exactly the wanted ones among those looked at. */
  lemma KeepStaysExact(kept: seq<string>, firsts: seq<string>, i: nat)
    requires i < |firsts|
    requires forall u :: u in firsts[..i] && Keep(u) ==> u in kept
    requires forall u :: u in kept ==> u in firsts[..i]
    ensures forall u :: u in firsts[..i + 1] && Keep(u) ==> u in KeepIfWanted(kept, firsts[i])
    ensures forall u :: u in KeepIfWanted(kept, firsts[i]) ==> u in firsts[..i + 1]
  {
    assert firsts[..i + 1] == firsts[..i] + [firsts[i]];
  }

  /** From distinct candidates, no URL is kept twice. */
  lemma KeepStaysDistinct(kept: seq<string>, firsts: seq<string>, i: nat)
    requires i < |firsts| && NoDup(firsts) && NoDup(kept)
    requires forall u :: u in kept ==> u in firsts[..i]
    ensures NoDup(KeepIfWanted(kept, firsts[i]))
  {
    assert firsts[i] !in firsts[..i];
  }

  /** The final loop over the first `max_images` candidates, keeping those that pass `Keep`, in order. */
  method FinalFilter(candidates: seq<string>, maxImages: int) returns (kept: seq<string>)
    ensures forall k :: 0 <= k < |kept| ==> Keep(kept[k])
    ensures SubsequenceOf(kept, PyTake(candidates, maxImages))
    ensures forall u :: u in PyTake(candidates, maxImages) && Keep(u) ==> u in kept
    ensures forall u :: u in kept ==> u in PyTake(candidates, maxImages)
    ensures NoDup(candidates) ==> NoDup(kept)
    ensures maxImages >= 0 ==> |kept| <= maxImages
  {
    var firsts := PyTake(candidates, maxImages);
    assert NoDup(candidates) ==> NoDup(firsts) by {
      assert firsts == candidates[..|firsts|];
    }
    kept := [];
    var i := 0;
    while i < |firsts|
      invariant 0 <= i <= |firsts|
      invariant SubsequenceOf(kept, firsts[..i])
      invariant forall k :: 0 <= k < |kept| ==> Keep(kept[k])
      invariant forall u :: u in firsts[..i] && Keep(u) ==> u in kept
      invariant forall u :: u in kept ==> u in firsts[..i]
      invariant NoDup(firsts) ==> NoDup(kept)
    {
      KeepStaysSubsequence(kept, firsts, i);
      KeepStaysExact(kept, firsts, i);
      if NoDup(firsts) {
        KeepStaysDistinct(kept, firsts, i);
      }
      kept := KeepIfWanted(kept, firsts[i]);
      i := i + 1;
    }
    assert firsts[..i] == firsts;
    SubsequenceLength(kept, firsts);
  }

  /** `extract_pinterest_images` after the page has been fetched and parsed: at most
      `max_images` distinct `http` URLs on a Pinterest host, in the order they were found. */
  method ExtractPinterestImages(page: BoardPage, maxImages: int) returns (urls: seq<string>)
    ensures NoDup(urls)
    ensures maxImages >= 0 ==> |urls| <= maxImages
    ensures forall k :: 0 <= k < |urls| ==> Keep(urls[k])
    ensures SubsequenceOf(urls, PyTake(Candidates(page, maxImages), maxImages))
    ensures forall u :: u in PyTake(Candidates(page, maxImages), maxImages) && Keep(u) ==> u in urls
    ensures forall u :: u in urls ==>
              u in PresentValues(PyTake(page.ogImages, maxImages)) || u in OfferedImgUrls(page.images)
              || u in ScriptOffered(page.initialStateScripts)
    ensures maxImages >= 0 ==>
              forall u :: u in PresentValues(PyTake(page.ogImages, maxImages)) && Keep(u) ==> u in urls
  {
    var candidates := Candidates(page, maxImages);
    urls := FinalFilter(candidates, maxImages);
    PrefixMembers(PyTake(candidates, maxImages), candidates);
  }
}

=== FILE: colour.dfy ===
/** Colours: the schema's `#RRGGBB` pattern and the renderer's decoding of a colour
    string into a red/green/blue triple. */
module Colour {
  import opened Wrappers
  import Text

  predicate IsHexDigit(c: char) {
    '0' <= c <= '9' || 'a' <= c <= 'f' || 'A' <= c <= 'F'
  }

  function HexDigitValue(c: char): (v: nat)
    requires IsHexDigit(c)
    ensures v < 16
  {
    if '0' <= c <= '9' then c as int - '0' as int
    else if 'a' <= c <= 'f' then c as int - 'a' as int + 10
    else c as int - 'A' as int + 10
  }

  /** The colour pattern `^#[0-9A-Fa-f]{6}$` used for every colour field of the schema. */
  predicate IsHexColor(s: string) {
    |s| == 7 && s[0] == '#' && forall i :: 1 <= i < 7 ==> IsHexDigit(s[i])
  }

  datatype Rgb = Rgb(red: int, green: int, blue: int)

  predicate InByteRange(c: Rgb) {
    0 <= c.red <= 255 && 0 <= c.green <= 255 && 0 <= c.blue <= 255
  }

  /** `s.lstrip(c)`: drops every leading `c`, not just one. */
  function LStrip(s: string, c: char): (r: string)
    ensures |r| <= |s| && r == s[|s| - |r|..]
    ensures |r| > 0 ==> r[0] != c
    ensures forall i :: 0 <= i < |s| - |r| ==> s[i] == c
    decreases |s|
  {
    if |s| > 0 && s[0] == c then LStrip(s[1..], c) else s
  }

  /** The number a string of hex digits spells, most significant digit first. */
  function HexValue(digits: string): nat
    requires forall i :: 0 <= i < |digits| ==> IsHexDigit(digits[i])
    decreases |digits|
  {
    if |digits| == 0 then 0
    else HexValue(digits[..|digits| - 1]) * 16 + HexDigitValue(digits[|digits| - 1])
  }

  /** Python's `int(t, 16)`: surrounding white space, an optional sign, then hex digits.
      (`0x` prefixes and `_` separators need three or more characters; the renderer only
      applies this to slices of at most two.) */
  function ParseHexInt(t: string): Option<int> {
    var u := Text.Strip(t);
    if |u| == 0 then None
    else
      var negative := u[0] == '-';
      var digits := if u[0] == '-' || u[0] == '+' then u[1..] else u;
      if |digits| > 0 && forall i :: 0 <= i < |digits| ==> IsHexDigit(digits[i]) then
        var magnitude: int := HexValue(digits);
        Some(if negative then -magnitude else magnitude)
      else None
  }

  /** `s[i:j]` for non-negative bounds: clipped to the string. */
  function Slice(s: string, i: nat, j: nat): string
    requires i <= j
  {
    var lo := if i <= |s| then i else |s|;
    var hi := if j <= |s| then j else |s|;
    s[lo..hi]
  }

  /** Two hex digits read as one byte. */
  lemma HexPair(t: string)
    requires |t| == 2 && IsHexDigit(t[0]) && IsHexDigit(t[1])
    ensures ParseHexInt(t) == Some(16 * HexDigitValue(t[0]) + HexDigitValue(t[1]))
  {
    assert forall i :: 0 <= i < |t| ==> !Text.IsSpace(t[i]);
    assert Text.Strip(t) == t;
    assert t[0] != '-' && t[0] != '+';
    assert HexValue(t[..1]) == HexDigitValue(t[0]) by {
      assert t[..1][..0] == "";
    }
    assert t[..2 - 1] == t[..1];
    assert HexValue(t) == HexValue(t[..1]) * 16 + HexDigitValue(t[1]);
  }

  /** A single leading `#` before a non-`#` character is all that `lstrip` removes. */
  lemma LStripOne(s: string, c: char)
    requires |s| >= 2 && s[0] == c && s[1] != c
    ensures LStrip(s, c) == s[1..]
  {
    assert s[1..][0] == s[1];
  }

  /** `hex_to_rgb`: strip the leading `#`s, then read characters 0-1, 2-3 and 4-5 as base-16
      integers. A well-formed `#RRGGBB` decodes to three bytes, each `16 * high + low`. */
  function HexToRgb(color: string): (r: Option<Rgb>)
    ensures IsHexColor(color) ==> r == Some(Rgb(
      16 * HexDigitValue(color[1]) + HexDigitValue(color[2]),
      16 * HexDigitValue(color[3]) + HexDigitValue(color[4]),
      16 * HexDigitValue(color[5]) + HexDigitValue(color[6])))
    ensures IsHexColor(color) ==> InByteRange(r.value)
  {
    if IsHexColor(color) then DecodeHexColor(color); Decode(LStrip(color, '#'))
    else Decode(LStrip(color, '#'))
  }

  lemma DecodeHexColor(color: string)
    requires IsHexColor(color)
    ensures Decode(LStrip(color, '#')) == Some(Rgb(
      16 * HexDigitValue(color[1]) + HexDigitValue(color[2]),
      16 * HexDigitValue(color[3]) + HexDigitValue(color[4]),
      16 * HexDigitValue(color[5]) + HexDigitValue(color[6])))
  {
    var h := LStrip(color, '#');
    HexColorSlices(color);
    HexPair(h[0..2]);
    HexPair(h[2..4]);
    HexPair(h[4..6]);
  }

  /** After stripping the `#`, the three two-character slices are the colour's digit pairs. */
  lemma HexColorSlices(color: string)
    requires IsHexColor(color)
    ensures var h := LStrip(color, '#');
      && |h| == 6
      && Slice(h, 0, 2) == h[0..2] && Slice(h, 2, 4) == h[2..4] && Slice(h, 4, 6) == h[4..6]
      && h[0] == color[1] && h[1] == color[2] && h[2] == color[3]
      && h[3] == color[4] && h[4] == color[5] && h[5] == color[6]
      && forall i :: 0 <= i < 6 ==> IsHexDigit(h[i])
  {
    assert IsHexDigit(color[1]);
    LStripOne(color, '#');
  }

  function Decode(h: string): Option<Rgb> {
    var red :- ParseHexInt(Slice(h, 0, 2));
    var green :- ParseHexInt(Slice(h, 2, 4));
    var blue :- ParseHexInt(Slice(h, 4, 6));
    Some(Rgb(red, green, blue))
  }

  /** Upper-case hex digit for 0..15. */
  function HexChar(n: nat): (c: char)
    requires n < 16
    ensures IsHexDigit(c) && HexDigitValue(c) == n
  {
    if n < 10 then ('0' as int + n) as char else ('A' as int + n - 10) as char
  }

  /** The inverse direction, writing a byte triple as `#RRGGBB`; used as the reference
      that `HexToRgb` is checked against. */
  function RgbToHex(c: Rgb): string
    requires InByteRange(c)
  {
    ['#', HexChar(c.red / 16), HexChar(c.red % 16),
     HexChar(c.green / 16), HexChar(c.green % 16),
     HexChar(c.blue / 16), HexChar(c.blue % 16)]
  }

  /** Every byte triple written as `#RRGGBB` matches the schema pattern and decodes back to itself. */
  lemma RgbRoundTrip(c: Rgb)
    requires InByteRange(c)
    ensures IsHexColor(RgbToHex(c))
    ensures HexToRgb(RgbToHex(c)) == Some(c)
  {
    var s := RgbToHex(c);
    ByteDigits(c.red, s[1], s[2]);
    ByteDigits(c.green, s[3], s[4]);
    ByteDigits(c.blue, s[5], s[6]);
    DecodesTo(s, c);
  }

  /** A byte written as two hex digits reads back as itself. */
  lemma ByteDigits(n: int, high: char, low: char)
    requires 0 <= n <= 255
    requires n / 16 < 16 && high == HexChar(n / 16) && low == HexChar(n % 16)
    ensures IsHexDigit(high) && IsHexDigit(low)
    ensures 16 * HexDigitValue(high) + HexDigitValue(low) == n
  {
  }

  /** A `#` and six hex digits whose pairs spell the three channels decode to them. */
  lemma DecodesTo(s: string, c: Rgb)
    requires |s| == 7 && s[0] == '#' && forall i :: 1 <= i < 7 ==> IsHexDigit(s[i])
    requires 16 * HexDigitValue(s[1]) + HexDigitValue(s[2]) == c.red
    requires 16 * HexDigitValue(s[3]) + HexDigitValue(s[4]) == c.green
    requires 16 * HexDigitValue(s[5]) + HexDigitValue(s[6]) == c.blue
    ensures IsHexColor(s) && HexToRgb(s) == Some(c)
  {
    assert IsHexColor(s);
    assert Rgb(16 * HexDigitValue(s[1]) + HexDigitValue(s[2]),
               16 * HexDigitValue(s[3]) + HexDigitValue(s[4]),
               16 * HexDigitValue(s[5]) + HexDigitValue(s[6])) == c;
  }

  /** The renderer's two default colours: `#FFFFFF` is white and `#000000` black. */
  lemma WhiteAndBlack()
    ensures HexToRgb("#FFFFFF") == Some(Rgb(255, 255, 255))
    ensures HexToRgb("#000000") == Some(Rgb(0, 0, 0))
  {
    var white, black := "#FFFFFF", "#000000";
    assert forall i :: 1 <= i < 7 ==> white[i] == 'F';
    assert forall i :: 1 <= i < 7 ==> black[i] == '0';
    HexDigitsDecode(white, 'F', 15);
    HexDigitsDecode(black, '0', 0);
  }

  /** A colour made of one repeated digit has that digit's value in every channel. */
  lemma HexDigitsDecode(s: string, d: char, v: nat)
    requires IsHexDigit(d) && HexDigitValue(d) == v
    requires |s| == 7 && s[0] == '#' && forall i :: 1 <= i < 7 ==> s[i] == d
    ensures HexToRgb(s) == Some(Rgb(17 * v, 17 * v, 17 * v))
  {
    assert IsHexColor(s);
  }

  /** Colours that are not `#RRGGBB`, from the schema's examples, fail the pattern. */
  lemma NonHexColoursRejected()
    ensures !IsHexColor("red") && !IsHexColor("#ZZZZZZ") && !IsHexColor("#FFF")
    ensures IsHexColor("#4A4A4A")
  {
    assert "#ZZZZZZ"[1] == 'Z';
  }
}

=== FILE: drawing.dfy ===
/** What the renderer hands to the imaging library, recorded instead of rasterised: a canvas
    of a given pixel size and background, and the drawing primitives in the order issued. */
module Drawing {
  import opened Json
  import Colour

  datatype Point = Point(x: int, y: int)

  /** A bounding box `[left, top, right, bottom]`, as the imaging library takes it. */
  datatype Box = Box(left: int, top: int, right: int, bottom: int)

  /** An outline of the given line width, or a filled shape. */
  datatype Paint = Outline(colour: Colour.Rgb, width: int) | Fill(colour: Colour.Rgb)

  /** The font handed to `draw.text`: a TrueType file at a pixel size, or the library's
      built-in bitmap font. */
  datatype Font = TrueType(path: string, sizePx: int) | BuiltinDefault

  datatype DrawOp =
    | Text(at: Point, content: Json, colour: Colour.Rgb, font: Font)
    | Line(from: Point, to: Point, colour: Colour.Rgb, width: int)
    | Ellipse(box: Box, paint: Paint)
    | Rectangle(box: Box, paint: Paint)
    | Polygon(points: seq<Point>, paint: Paint)

  datatype Canvas = Canvas(width: int, height: int, background: Colour.Rgb, ops: seq<DrawOp>)

  predicate InBox(p: Point, b: Box) {
    b.left <= p.x <= b.right && b.top <= p.y <= b.bottom
  }

  predicate BoxInBox(inner: Box, outer: Box) {
    outer.left <= inner.left && inner.right <= outer.right
    && outer.top <= inner.top && inner.bottom <= outer.bottom
  }
}

=== FILE: element_loop.dfy ===
/** The shape of the validator's element loop, for any per-item parser: items are parsed in
    index order, each with its index, and the first failure ends the loop. The facts about the
    loop are stated here over an arbitrary parser, so that they do not depend on what parsing
    one element involves. */
module ElementLoop {
  import opened Wrappers

  /** Parse every item from index `i` on; the first failure is the result. */
  function ParseEach<J, T, E>(parse: (J, nat) -> Result<T, E>, items: seq<J>, i: nat): (r: Result<seq<T>, E>)
    requires i <= |items|
    ensures r.Ok? ==> |r.value| == |items| - i
                      && forall k :: 0 <= k < |r.value| ==> parse(items[i + k], i + k) == Ok(r.value[k])
    decreases |items| - i
  {
    if i == |items| then Ok([])
    else
      match parse(items[i], i)
      case Err(v) => Err(v)
      case Ok(x) =>
        match ParseEach(parse, items, i + 1)
        case Err(v) => Err(v)
        case Ok(rest) =>
          var r := [x] + rest;
          assert forall k :: 0 < k < |r| ==> r[k] == rest[k - 1] && parse(items[i + 1 + (k - 1)], i + 1 + (k - 1)) == Ok(rest[k - 1]);
          Ok(r)
  }

  /** The loop succeeds when every item from `i` on parses. */
  lemma {:induction false} SucceedsWhenAllParse<J, T, E>(parse: (J, nat) -> Result<T, E>, items: seq<J>, i: nat)
    requires i <= |items|
    requires forall k :: i <= k < |items| ==> parse(items[k], k).Ok?
    ensures ParseEach(parse, items, i).Ok?
    decreases |items| - i
  {
    if i < |items| {
      assert parse(items[i], i).Ok?;
      SucceedsWhenAllParse(parse, items, i + 1);
    }
  }

  /** When item `k` is the first that does not parse, its failure is the loop's. */
  lemma {:induction false} StopsAtFirstFailure<J, T, E>(parse: (J, nat) -> Result<T, E>, items: seq<J>, i: nat, k: nat)
    requires i <= k < |items|
    requires parse(items[k], k).Err?
    requires forall j :: i <= j < k ==> parse(items[j], j).Ok?
    ensures ParseEach(parse, items, i) == Err(parse(items[k], k).error)
    decreases k - i
  {
    if i < k {
      assert parse(items[i], i).Ok?;
      StopsAtFirstFailure(parse, items, i + 1, k);
    }
  }

  /** Conversely, a failing loop failed at some item, and every item before that one parsed. */
  lemma {:induction false} FailsAtFirstFailure<J, T, E>(parse: (J, nat) -> Result<T, E>, items: seq<J>, i: nat)
    returns (k: nat)
    requires i <= |items|
    requires ParseEach(parse, items, i).Err?
    ensures i <= k < |items|
    ensures parse(items[k], k) == Err(ParseEach(parse, items, i).error)
    ensures forall j :: i <= j < k ==> parse(items[j], j).Ok?
    decreases |items| - i
  {
    if parse(items[i], i).Err? {
      k := i;
    } else {
      k := FailsAtFirstFailure(parse, items, i + 1);
    }
  }

  /** The same, for use in contracts: a failure is some item's own failure. */
  lemma FailureOfSomeItem<J, T, E>(parse: (J, nat) -> Result<T, E>, items: seq<J>, i: nat)
    requires i <= |items|
    requires ParseEach(parse, items, i).Err?
    ensures exists k :: i <= k < |items| && parse(items[k], k) == Err(ParseEach(parse, items, i).error)
  {
    var k := FailsAtFirstFailure(parse, items, i);
  }
}

=== FILE: fonts.dfy ===
/** Font selection of the renderer (`get_font_for_type`): an ordered list of TrueType files per
    font family, then one common fallback file, then the built-in font. Whether a file can be
    loaded at a size is the file system's business and is a parameter here. */
module Fonts {
  import opened Wrappers
  import opened Json
  import opened Drawing
  import Pixels

  const LiberationSerifItalic := "/usr/share/fonts/truetype/liberation/LiberationSerif-Italic.ttf"
  const DejaVuSerifItalic := "/usr/share/fonts/truetype/dejavu/DejaVuSerif-Italic.ttf"
  const LiberationSerif := "/usr/share/fonts/truetype/liberation/LiberationSerif-Regular.ttf"
  const DejaVuSerif := "/usr/share/fonts/truetype/dejavu/DejaVuSerif.ttf"
  const LiberationSans := "/usr/share/fonts/truetype/liberation/LiberationSans-Regular.ttf"
  const DejaVuSans := "/usr/share/fonts/truetype/dejavu/DejaVuSans.ttf"

  const ScriptFamily := [LiberationSerifItalic, DejaVuSerifItalic]
  const SerifFamily := [LiberationSerif, DejaVuSerif]
  const SansSerifFamily := [LiberationSans, DejaVuSans]

  /** `font_paths.get(font_type, font_paths['Serif'])`; `None` when the font type cannot be a
      dictionary key (a list or a mapping). */
  function Candidates(fontType: Json): (r: Option<seq<string>>)
    ensures r.Some? <==> !fontType.JArray? && !fontType.JObject?
    ensures r.Some? ==> |r.value| == 2
    ensures r.Some? && fontType != JStr("Script") && fontType != JStr("Sans-Serif") ==>
              r.value == SerifFamily
    ensures r.Some? ==> r.value in {ScriptFamily, SerifFamily, SansSerifFamily}
  {
    match fontType
    case JArray(_) => None
    case JObject(_) => None
    case _ =>
      if fontType == JStr("Script") then Some(ScriptFamily)
      else if fontType == JStr("Sans-Serif") then Some(SansSerifFamily)
      else Some(SerifFamily)
  }

  /** The first path of the list that loads at the size, trying them in order. */
  function FirstLoadable(paths: seq<string>, sizePx: int, canLoad: (string, int) -> bool): (r: Option<nat>)
    ensures r.Some? ==> r.value < |paths| && canLoad(paths[r.value], sizePx)
                        && forall k :: 0 <= k < r.value ==> !canLoad(paths[k], sizePx)
    ensures r.None? <==> forall k :: 0 <= k < |paths| ==> !canLoad(paths[k], sizePx)
    decreases |paths|
  {
    if |paths| == 0 then None
    else if canLoad(paths[0], sizePx) then Some(0)
    else match FirstLoadable(paths[1..], sizePx, canLoad)
      case None => None
      case Some(k) => Some(k + 1)
  }

  /** The whole chain for a family: its own candidates, then DejaVu Sans. */
  function Chain(family: seq<string>): seq<string> {
    family + [DejaVuSans]
  }

  /** The font picked for the family at the pixel size: the first loadable file of the chain,
      and the built-in font only when none of them loads. Never fails. */
  function PickFont(family: seq<string>, sizePx: int, canLoad: (string, int) -> bool): (f: Font)
    ensures f.TrueType? ==> f.sizePx == sizePx && f.path in Chain(family) && canLoad(f.path, sizePx)
    ensures f.TrueType? ==> exists k :: 0 <= k < |Chain(family)| && Chain(family)[k] == f.path
                                       && forall j :: 0 <= j < k ==> !canLoad(Chain(family)[j], sizePx)
    ensures f == BuiltinDefault <==> forall p :: p in Chain(family) ==> !canLoad(p, sizePx)
  {
    match FirstLoadable(Chain(family), sizePx, canLoad)
    case Some(k) => TrueType(Chain(family)[k], sizePx)
    case None => BuiltinDefault
  }

  /** `get_font_for_type(font_type, size, dpi)`: the pixel size is computed first, then the
      family's list is looked up (failing for a font type that cannot be a key). */
  function FontFor(fontType: Json, size: real, dpi: int, canLoad: (string, int) -> bool): (r: Option<Font>)
    ensures r.Some? <==> Candidates(fontType).Some?
    ensures r.Some? && r.value.TrueType? ==> r.value.sizePx == Pixels.FontPixelSize(size, dpi)
  {
    var sizePx := Pixels.FontPixelSize(size, dpi);
    var family :- Candidates(fontType);
    Some(PickFont(family, sizePx, canLoad))
  }
}

=== FILE: json.dfy ===
/** The loosely typed document the Python code receives: a JSON value as `json.loads`
    builds it (dicts, lists, strings, ints, floats, booleans, `None`), together with
    the Python conventions the core applies to it. Floats are exact reals. */
module Json {

  datatype Json =
    | JNull
    | JBool(b: bool)
    | JInt(i: int)
    | JFloat(r: real)
    | JStr(s: string)
    | JArray(items: seq<Json>)
    | JObject(fields: map<string, Json>)

  /** Python truthiness: `None`, `False`, zero and empty containers are false. */
  predicate Truthy(j: Json) {
    match j
    case JNull => false
    case JBool(b) => b
    case JInt(i) => i != 0
    case JFloat(r) => r != 0.0
    case JStr(s) => |s| != 0
    case JArray(items) => |items| != 0
    case JObject(fields) => |fields| != 0
  }

  /** `d.get(key, default)`: a present key wins even when its value is `None`. */
  function GetOr(fields: map<string, Json>, key: string, default: Json): Json {
    if key in fields then fields[key] else default
  }

  /** What `for x in value:` does with a value whose items are then used as mappings. */
  datatype Iteration =
    | Items(items: seq<Json>)   // a list, or an empty str/dict: these items, in order
    | FirstNotMapping           // a non-empty str or dict: the first item is a str, which has no `.get`
    | NotIterable               // None, a bool or a number: `TypeError`

  function Iterate(j: Json): (it: Iteration)
    ensures it.Items? ==> (j.JArray? && it.items == j.items) || |it.items| == 0
    ensures j.JArray? ==> it == Items(j.items)
  {
    match j
    case JArray(items) => Items(items)
    case JStr(s) => if |s| == 0 then Items([]) else FirstNotMapping
    case JObject(fields) => if |fields| == 0 then Items([]) else FirstNotMapping
    case _ => NotIterable
  }
}

=== FILE: motifs.dfy ===
/** The geometry of the five decorative motifs (`render_decorative_element`), in pixels.
    `x`, `y` is the element's top-left corner and `w`, `h` its size, all already converted
    from millimetres; `/` and `%` by a positive constant are Python's `//` and `%`. */
module Motifs {
  import opened Wrappers
  import opened Json
  import opened Drawing
  import Colour
  import Schema
  import Pixels

  /** The motif a decorative element's `content` names; a value that is not one of the five
      names (or not a string at all) names none. */
  function MotifOf(content: Json): (r: Option<Schema.Motif>)
    ensures r.Some? <==> content.JStr? && Schema.ParseMotif(content.s).Some?
    ensures r.Some? ==> content == JStr(Schema.MotifName(r.value))
  {
    if content.JStr? then Schema.ParseMotif(content.s) else None
  }

  /** The element's own pixel box. */
  function ElementBox(x: int, y: int, w: int, h: int): Box {
    Box(x, y, x + w, y + h)
  }

  // ---------------------------------------------------------------------------
  // heart-line

  /** A horizontal line across the middle of the box, and a circle outline of the box's height
      resting on its top edge, centred on the line. */
  function HeartLine(x: int, y: int, w: int, h: int, c: Colour.Rgb): (ops: seq<DrawOp>)
    ensures |ops| == 2 && ops[0].Line? && ops[1].Ellipse?
    ensures ops[0].from.y == ops[0].to.y && ops[0].from.x == x && ops[0].to.x == x + w
    ensures ops[0].from.y == y + h / 2 && h - 1 <= 2 * (ops[0].from.y - y) <= h
    ensures ops[0].colour == c && ops[0].width == 2 && ops[1].paint == Outline(c, 2)
    ensures var b := ops[1].box;
            b.left == x + w / 2 - h / 2 && b.top == y && b.bottom - b.top == h && b.right - b.left == h
            && -1 <= (b.left + b.right) - (ops[0].from.x + ops[0].to.x) <= 1
  {
    var yCenter := y + h / 2;
    var heartX := x + w / 2 - h / 2;
    [Line(Point(x, yCenter), Point(x + w, yCenter), c, 2),
     Ellipse(Box(heartX, y, heartX + h, y + h), Outline(c, 2))]
  }

  /** The circle of a heart-line fits inside the element's box exactly when the box is at
      least as wide as it is high. */
  lemma HeartInsideBoxIffWide(x: int, y: int, w: int, h: int, c: Colour.Rgb)
    requires w >= 0 && h >= 0
    ensures BoxInBox(HeartLine(x, y, w, h, c)[1].box, ElementBox(x, y, w, h)) <==> h <= w
  {
    var b := HeartLine(x, y, w, h, c)[1].box;
    assert b.left == x + w / 2 - h / 2 && b.right == x + w / 2 - h / 2 + h;
    if h > w {
      if w % 2 == 0 {
        assert h / 2 + h % 2 > w / 2;
      } else {
        assert h / 2 > w / 2;
      }
    }
  }

  // ---------------------------------------------------------------------------
  // floral-branch

  /** Point `i` of the branch curve, `t = i / 9`. */
  function BranchPoint(x: int, y: int, w: int, h: int, i: int): Point {
    var t := i as real / 9.0;
    Point(x + w / 2 + Pixels.Trunc(w as real * 0.2 * (t - 0.5)), y + Pixels.Trunc(h as real * t))
  }

  /** The ten points of the branch, running from the top edge down to the bottom edge. */
  function BranchPoints(x: int, y: int, w: int, h: int): (pts: seq<Point>)
    ensures |pts| == 10
    ensures pts[0].y == y && pts[9].y == y + h
    ensures h >= 0 ==> forall i :: 0 <= i < 9 ==> pts[i].y <= pts[i + 1].y
    ensures h >= 0 ==> forall i :: 0 <= i < 10 ==> y <= pts[i].y <= y + h
  {
    var pts := seq(10, i requires 0 <= i < 10 => BranchPoint(x, y, w, h, i));
    BranchPointsFacts(x, y, w, h, pts);
    pts
  }

  lemma BranchPointsFacts(x: int, y: int, w: int, h: int, pts: seq<Point>)
    requires |pts| == 10 && forall i :: 0 <= i < 10 ==> pts[i] == BranchPoint(x, y, w, h, i)
    ensures pts[0].y == y && pts[9].y == y + h
    ensures h >= 0 ==> forall i :: 0 <= i < 9 ==> pts[i].y <= pts[i + 1].y
    ensures h >= 0 ==> forall i :: 0 <= i < 10 ==> y <= pts[i].y <= y + h
  {
    assert pts[0] == BranchPoint(x, y, w, h, 0);
    assert pts[9] == BranchPoint(x, y, w, h, 9);
    BranchRowEnds(h);
    if h >= 0 {
      forall i | 0 <= i < 9
        ensures pts[i].y <= pts[i + 1].y
      {
        assert pts[i] == BranchPoint(x, y, w, h, i);
        assert pts[i + 1] == BranchPoint(x, y, w, h, i + 1);
        BranchRowsDescend(h, i);
      }
      forall i | 0 <= i < 10
        ensures y <= pts[i].y <= y + h
      {
        assert pts[i] == BranchPoint(x, y, w, h, i);
        BranchRowWithin(h, i);
      }
    }
  }

  /** The first row is the top edge and the last the bottom edge. */
  lemma BranchRowEnds(h: int)
    ensures Pixels.Trunc(h as real * (0 as real / 9.0)) == 0
    ensures Pixels.Trunc(h as real * (9 as real / 9.0)) == h
  {
    assert 0 as real / 9.0 == 0.0;
    assert 9 as real / 9.0 == 1.0;
    assert h as real * 0.0 == 0.0;
    assert h as real * 1.0 == h as real;
  }

  lemma BranchRowsDescend(h: int, i: int)
    requires h >= 0 && 0 <= i
    ensures Pixels.Trunc(h as real * (i as real / 9.0)) <= Pixels.Trunc(h as real * ((i + 1) as real / 9.0))
  {
    var hr := h as real;
    var a := i as real / 9.0;
    var b := (i + 1) as real / 9.0;
    assert a <= b;
    Pixels.MulNonNegative(hr, b - a);
    assert hr * (b - a) == hr * b - hr * a;
    Pixels.TruncMonotone(hr * a, hr * b);
  }

  lemma BranchRowWithin(h: int, i: int)
    requires h >= 0 && 0 <= i <= 9
    ensures 0 <= Pixels.Trunc(h as real * (i as real / 9.0)) <= h
  {
    var hr := h as real;
    var t := i as real / 9.0;
    assert 0.0 <= t <= 1.0;
    Pixels.MulNonNegative(hr, t);
    Pixels.MulNonNegative(hr, 1.0 - t);
    assert hr * (1.0 - t) == hr - hr * t;
    assert hr * t <= hr;
    var n := Pixels.Trunc(hr * t);
    assert n as real <= hr * t;
  }

  /** Nine line segments of width 3 joining consecutive points. */
  function BranchSegments(pts: seq<Point>, c: Colour.Rgb): (ops: seq<DrawOp>)
    requires |pts| >= 1
    ensures |ops| == |pts| - 1
    ensures forall i :: 0 <= i < |ops| ==> ops[i] == Line(pts[i], pts[i + 1], c, 3)
  {
    seq(|pts| - 1, i requires 0 <= i < |pts| - 1 => Line(pts[i], pts[i + 1], c, 3))
  }

  /** The point on the branch where leaf pair `i` grows, `t = (i + 0.5) / 5`. */
  function LeafBase(x: int, y: int, w: int, h: int, i: int): Point {
    var t := (i as real + 0.5) / 5.0;
    Point(x + w / 2 + Pixels.Trunc(w as real * 0.2 * (t - 0.5)), y + Pixels.Trunc(h as real * t))
  }

  /** The tip offset of a leaf, and the offset of its third corner along the branch row. */
  function LeafTip(w: int, h: int): Point {
    Point(Pixels.Trunc(w as real * 0.15), Pixels.Trunc(h as real * 0.04))
  }

  function LeafInner(w: int): int {
    Pixels.Trunc(w as real * 0.1)
  }

  function LeftLeaf(base: Point, w: int, h: int, c: Colour.Rgb): DrawOp {
    Polygon([base,
             Point(base.x - LeafTip(w, h).x, base.y - LeafTip(w, h).y),
             Point(base.x - LeafInner(w), base.y)], Fill(c))
  }

  function RightLeaf(base: Point, w: int, h: int, c: Colour.Rgb): DrawOp {
    Polygon([base,
             Point(base.x + LeafTip(w, h).x, base.y + LeafTip(w, h).y),
             Point(base.x + LeafInner(w), base.y)], Fill(c))
  }

  /** The left and right leaf of a pair are mirror images through their common base point:
      the tips point away from each other and the inner corners lie on the base's row. */
  lemma LeafPairMirrored(base: Point, w: int, h: int, c: Colour.Rgb)
    ensures var left := LeftLeaf(base, w, h, c).points;
            var right := RightLeaf(base, w, h, c).points;
            left[0] == right[0] == base
            && right[1].x - base.x == base.x - left[1].x && right[1].y - base.y == base.y - left[1].y
            && right[2].x - base.x == base.x - left[2].x && left[2].y == right[2].y == base.y
  {
  }

  /** Five leaf pairs, left leaf first; each leaf a filled triangle. */
  function Leaves(x: int, y: int, w: int, h: int, c: Colour.Rgb): (ops: seq<DrawOp>)
    ensures |ops| == 10
    ensures forall k :: 0 <= k < 10 ==> ops[k].Polygon? && |ops[k].points| == 3 && ops[k].paint == Fill(c)
    ensures forall i :: 0 <= i < 5 ==>
              ops[2 * i] == LeftLeaf(LeafBase(x, y, w, h, i), w, h, c)
              && ops[2 * i + 1] == RightLeaf(LeafBase(x, y, w, h, i), w, h, c)
  {
    LeafPair(x, y, w, h, c, 0) + LeafPair(x, y, w, h, c, 1) + LeafPair(x, y, w, h, c, 2)
    + LeafPair(x, y, w, h, c, 3) + LeafPair(x, y, w, h, c, 4)
  }

  function LeafPair(x: int, y: int, w: int, h: int, c: Colour.Rgb, i: int): seq<DrawOp> {
    var base := LeafBase(x, y, w, h, i);
    [LeftLeaf(base, w, h, c), RightLeaf(base, w, h, c)]
  }

  /** A branch of nine joined segments from the top edge to the bottom edge, then five
      mirrored pairs of filled leaves. */
  function FloralBranch(x: int, y: int, w: int, h: int, c: Colour.Rgb): (ops: seq<DrawOp>)
    ensures |ops| == 19
    ensures forall i :: 0 <= i < 9 ==> ops[i].Line? && ops[i].width == 3 && ops[i].colour == c
    ensures forall i :: 0 <= i < 8 ==> ops[i].to == ops[i + 1].from
    ensures ops[0].from.y == y && ops[8].to.y == y + h
    ensures h >= 0 ==> forall i :: 0 <= i < 9 ==> y <= ops[i].from.y <= ops[i].to.y <= y + h
    ensures forall i :: 9 <= i < 19 ==> ops[i].Polygon? && |ops[i].points| == 3 && ops[i].paint == Fill(c)
  {
    var pts := BranchPoints(x, y, w, h);
    BranchSegments(pts, c) + Leaves(x, y, w, h, c)
  }

  // ---------------------------------------------------------------------------
  // geometric-border, leaf-accent, dots-pattern

  /** An outlined rectangle on the element's box. */
  function GeometricBorder(x: int, y: int, w: int, h: int, c: Colour.Rgb): (ops: seq<DrawOp>)
    ensures |ops| == 1 && ops[0].Rectangle? && ops[0].paint == Outline(c, 2)
    ensures ops[0].box == ElementBox(x, y, w, h)
  {
    [Rectangle(Box(x, y, x + w, y + h), Outline(c, 2))]
  }

  /** An outlined diamond through the midpoints of the box's top, right, bottom and left edges. */
  function LeafAccent(x: int, y: int, w: int, h: int, c: Colour.Rgb): (ops: seq<DrawOp>)
    ensures |ops| == 1 && ops[0].Polygon? && |ops[0].points| == 4 && ops[0].paint == Outline(c, 2)
    ensures var p := ops[0].points;
            p[0].y == y && p[1].x == x + w && p[2].y == y + h && p[3].x == x
            && p[0].x == p[2].x && p[1].y == p[3].y
            && w - 1 <= 2 * (p[0].x - x) <= w && h - 1 <= 2 * (p[1].y - y) <= h
    ensures w >= 0 && h >= 0 ==> forall i :: 0 <= i < 4 ==> InBox(ops[0].points[i], ElementBox(x, y, w, h))
  {
    [Polygon([Point(x + w / 2, y), Point(x + w, y + h / 2), Point(x + w / 2, y + h), Point(x, y + h / 2)],
             Outline(c, 2))]
  }

  const DotSize := 3
  const DotSpacing := 10

  /** `range(int(w // 10))`: as many dots as fit at ten-pixel spacing, none for a negative width. */
  function DotCount(w: int): (n: nat)
    ensures w >= 0 ==> n * DotSpacing <= w < (n + 1) * DotSpacing
    ensures w < DotSpacing ==> n == 0
  {
    if w / DotSpacing >= 0 then w / DotSpacing else 0
  }

  /** A row of filled 3-pixel dots along the top edge, ten pixels apart, from the left edge. */
  function DotsPattern(x: int, y: int, w: int, h: int, c: Colour.Rgb): (ops: seq<DrawOp>)
    ensures |ops| == DotCount(w)
    ensures forall i :: 0 <= i < |ops| ==>
              ops[i] == Ellipse(Box(x + DotSpacing * i, y, x + DotSpacing * i + DotSize, y + DotSize), Fill(c))
    ensures forall i :: 0 <= i < |ops| ==> x <= ops[i].box.left && ops[i].box.right <= x + w
  {
    var n := DotCount(w);
    seq(n, i requires 0 <= i < n =>
      Ellipse(Box(x + DotSpacing * i, y, x + DotSpacing * i + DotSize, y + DotSize), Fill(c)))
  }

  /** The motif's primitives; a content value that names no motif draws nothing. */
  function MotifOps(content: Json, x: int, y: int, w: int, h: int, c: Colour.Rgb): (ops: seq<DrawOp>)
    ensures MotifOf(content).None? ==> ops == []
    ensures forall i :: 0 <= i < |ops| ==> !ops[i].Text?
  {
    var motif := MotifOf(content);
    if motif == Some(Schema.HeartLine) then HeartLine(x, y, w, h, c)
    else if motif == Some(Schema.FloralBranch) then FloralBranch(x, y, w, h, c)
    else if motif == Some(Schema.GeometricBorder) then GeometricBorder(x, y, w, h, c)
    else if motif == Some(Schema.LeafAccent) then LeafAccent(x, y, w, h, c)
    else if motif == Some(Schema.DotsPattern) then DotsPattern(x, y, w, h, c)
    else []
  }
}

=== FILE: pin_urls.dfy ===
/** URL rules shared by both board scrapers: the Pinterest host check and the rewrite of a
    thumbnail size directory (`/236x/`, `/474x/`, `/564x/`) to `/originals/`. */
module PinUrls {
  import opened Text

  const Size236 := "/236x/"
  const Size474 := "/474x/"
  const Size564 := "/564x/"
  const Size736 := "/736x/"
  const Originals := "/originals/"

  /** The URL names an image on Pinterest's image host or site. */
  predicate IsPinterestHost(url: string) {
    Contains(url, "pinimg.com") || Contains(url, "pinterest.com")
  }

  predicate HasThumbnailSize(url: string) {
    Contains(url, Size236) || Contains(url, Size474) || Contains(url, Size564)
  }

  /** The first of `/236x/`, `/474x/`, `/564x/` that occurs, every occurrence of it replaced by
      `/originals/`; the other two are left alone. */
  function UpgradeFirstSize(url: string): (r: string)
    ensures !HasThumbnailSize(url) ==> r == url
    ensures HasThumbnailSize(url) ==> Contains(r, Originals)
    ensures Contains(url, Size236) ==> r == ReplaceAll(url, Size236, Originals)
    ensures !Contains(url, Size236) && Contains(url, Size474) ==> r == ReplaceAll(url, Size474, Originals)
    ensures !Contains(url, Size236) && !Contains(url, Size474) && Contains(url, Size564) ==>
              r == ReplaceAll(url, Size564, Originals)
  {
    if Contains(url, Size236) then
      ReplaceAllPresent(url, Size236, Originals);
      ReplaceAll(url, Size236, Originals)
    else if Contains(url, Size474) then
      ReplaceAllPresent(url, Size474, Originals);
      ReplaceAll(url, Size474, Originals)
    else if Contains(url, Size564) then
      ReplaceAllPresent(url, Size564, Originals);
      ReplaceAll(url, Size564, Originals)
    else url
  }

  /** All three size directories rewritten in turn (`/236x/`, then `/474x/`, then `/564x/`). A URL
      that held a size directory or `/originals/` holds `/originals/` afterwards. */
  function UpgradeAllSizes(url: string): (r: string)
    ensures !HasThumbnailSize(url) ==> r == url
    ensures HasThumbnailSize(url) || Contains(url, Originals) ==> Contains(r, Originals)
  {
    var r1 := ReplaceAll(url, Size236, Originals);
    var r2 := ReplaceAll(r1, Size474, Originals);
    UpgradeStep(url, Size236);
    UpgradeStep(r1, Size474);
    UpgradeStep(r2, Size564);
    ReplaceAll(r2, Size564, Originals)
  }

  /** One rewrite step: a URL holding the size directory or `/originals/` comes out holding
      `/originals/`, and one not holding the size directory comes out unchanged. */
  lemma UpgradeStep(s: string, size: string)
    requires size == Size236 || size == Size474 || size == Size564
    ensures Contains(s, size) || Contains(s, Originals) ==> Contains(ReplaceAll(s, size, Originals), Originals)
    ensures !Contains(s, size) ==> ReplaceAll(s, size, Originals) == s
  {
    if Contains(s, size) {
      ReplaceAllPresent(s, size, Originals);
    } else {
      ReplaceAllAbsent(s, size, Originals);
    }
  }

  /** A size directory is `/`, a digit, ...: none starts inside `/originals/` before its closing
      slash. */
  lemma NoSizeInsideOriginals(s: string, size: string)
    requires size == Size236 || size == Size474 || size == Size564
    requires StartsWith(s, Originals)
    ensures forall j :: 0 <= j < |Originals| - 1 ==> !StartsWith(s[j..], size)
  {
    forall j | 0 <= j < |Originals| - 1
      ensures !StartsWith(s[j..], size)
    {
      assert s[j] == Originals[j] && s[j + 1] == Originals[j + 1];
      assert s[j..][0] == s[j] && s[j..][1] == s[j + 1];
    }
  }

  /** Rewriting a size directory never removes an `/originals/` that was already there. */
  lemma {:induction false} OriginalsKept(s: string, size: string)
    requires size == Size236 || size == Size474 || size == Size564
    requires Contains(s, Originals)
    ensures Contains(ReplaceAll(s, size, Originals), Originals)
    decreases |s|
  {
    if StartsWith(s, size) {
      ContainsOwnPrefix(Originals, ReplaceAll(s[|size|..], size, Originals));
    } else if StartsWith(s, Originals) {
      var n := |Originals| - 1;
      NoSizeInsideOriginals(s, size);
      ReplaceAllSkips(s, size, Originals, n);
      var tail := ReplaceAll(s[n..], size, Originals);
      assert s[n] == s[..|Originals|][n] == Originals[n] == '/';
      assert s[n..][0] == s[n];
      assert |tail| > 0 && tail[0] == '/';
      var r := s[..n] + tail;
      assert r[..|Originals|] == Originals by {
        forall i | 0 <= i < |Originals|
          ensures r[i] == Originals[i]
        {
          if i < n {
            assert r[i] == s[i];
          }
        }
      }
      ContainsOwnPrefix(Originals, r[|Originals|..]);
      assert Originals + r[|Originals|..] == r;
    } else {
      OriginalsKept(s[1..], size);
      ContainsExtendLeft([s[0]], ReplaceAll(s[1..], size, Originals), Originals);
    }
  }
}

=== FILE: pinterest_api.dfy ===
/** The pure parts of the Pinterest API client (`pinterest_api.py`): the board id taken from a
    board URL's path, the paging rules of the pin listing, and the choice of one image URL per
    pin. HTTP is replaced by the sequence of responses the server would give, and URL parsing
    by the path `urlparse` would return. */
module PinterestApi {
  import opened Wrappers
  import opened Json
  import opened Text

  /** How a call ends when it does not return normally. */
  datatype ApiError =
    | MissingCredentials   // the app id or secret is not configured
    | InvalidBoardUrl      // the path has fewer than two segments
    | TokenNotSet          // no access token before listing pins
    | RequestFailed        // the request raised, or the server answered with an error status
    | AttributeError       // `.get` on a value that is not a mapping
    | TypeError            // `extend` with a value that is not a list

  // ---------------------------------------------------------------------------
  // Board id

  /** The non-empty segments of a URL path. */
  function PathSegments(path: string): (parts: seq<string>)
    ensures forall k :: 0 <= k < |parts| ==> parts[k] != "" && '/' !in parts[k]
  {
    var r := NonEmptyParts(Split(path, '/'));
    assert forall k :: 0 <= k < |r| ==> r[k] in Split(path, '/');
    r
  }

  /** `parse_board_id_from_url`: the first two non-empty path segments joined by one slash. */
  function ParseBoardId(path: string): (r: Result<string, ApiError>)
    ensures r.Err? <==> |PathSegments(path)| < 2
    ensures r.Err? ==> r.error == InvalidBoardUrl
    ensures r.Ok? ==>
              var parts := PathSegments(path);
              var k := |parts[0]|;
              && r.value == parts[0] + "/" + parts[1]
              && 0 < k < |r.value| - 1 && r.value[k] == '/'
              && '/' !in r.value[..k] && '/' !in r.value[k + 1..]
  {
    var parts := PathSegments(path);
    if |parts| < 2 then Err(InvalidBoardUrl)
    else
      var id := parts[0] + "/" + parts[1];
      assert id[..|parts[0]|] == parts[0];
      assert id[|parts[0]| + 1..] == parts[1];
      Ok(id)
  }

  /** A board path `/user/board/...` gives back `user/board`, whatever follows. */
  lemma BoardIdRoundTrip(user: string, board: string, rest: string)
    requires user != "" && board != "" && '/' !in user && '/' !in board
    ensures ParseBoardId("/" + user + "/" + board + "/" + rest) == Ok(user + "/" + board)
  {
    var path := "/" + user + "/" + board + "/" + rest;
    assert path == "" + ['/'] + (user + ['/'] + (board + ['/'] + rest));
    SplitWordThenSep("", user + ['/'] + (board + ['/'] + rest), '/');
    SplitWordThenSep(user, board + ['/'] + rest, '/');
    SplitWordThenSep(board, rest, '/');
    var split := Split(path, '/');
    assert split == [""] + [user] + [board] + Split(rest, '/');
    assert split[1..] == [user] + ([board] + Split(rest, '/'));
    assert split[1..][1..] == [board] + Split(rest, '/');
    assert NonEmptyParts(split) == NonEmptyParts(split[1..]);
    assert NonEmptyParts(split[1..]) == [user] + NonEmptyParts(split[1..][1..]);
    assert NonEmptyParts(split[1..][1..]) == [board] + NonEmptyParts(Split(rest, '/'));
  }

  /** A URL path with only a user name (or nothing) is rejected. */
  lemma UserOnlyPathRejected(user: string)
    requires '/' !in user
    ensures ParseBoardId("/" + user + "/") == Err(InvalidBoardUrl)
  {
    var path := "/" + user + "/";
    assert path == "" + ['/'] + (user + ['/'] + "");
    SplitWordThenSep("", user + ['/'] + "", '/');
    SplitWordThenSep(user, "", '/');
    assert Split(path, '/') == [""] + [user] + [""];
    assert PathSegments(path) == NonEmptyParts([user] + [""]);
  }

  // ---------------------------------------------------------------------------
  // Pin listing

  /** The server page size is capped at 100. */
  const MaxPageSize := 100

  /** One response: a failure (exception or error status) or the decoded JSON body. */
  datatype Response = Failure | Body(data: Json)

  /** The query parameters sent with one request. */
  datatype Request = Request(pageSize: int, bookmark: Option<Json>)

  /** The requests made and how the call ended. */
  datatype Listing = Listing(requests: seq<Request>, outcome: Result<seq<Json>, ApiError>)

  function Min(a: int, b: int): int {
    if a <= b then a else b
  }

  /** `all_pins.extend(items)`; a string extends with its characters. */
  function ExtendWith(items: Json): (r: Result<seq<Json>, ApiError>)
    ensures items.JArray? ==> r == Ok(items.items)
    ensures r.Ok? ==> items.JArray? || items.JStr? || items == JObject(map[])
  {
    match items
    case JArray(xs) => Ok(xs)
    case JStr(s) => Ok(seq(|s|, k requires 0 <= k < |s| => JStr([s[k]])))
    case JObject(fields) => if |fields| == 0 then Ok([]) else Err(TypeError)
    case _ => Err(TypeError)
  }

  /** The pins one response adds (none when it ends the call). */
  function ResponseItems(response: Response): seq<Json> {
    if response.Body? && response.data.JObject? && ExtendWith(GetOr(response.data.fields, "items", JArray([]))).Ok? then
      ExtendWith(GetOr(response.data.fields, "items", JArray([]))).value
    else []
  }

  /** The pins of responses `lo` up to (not including) `hi`, in order. */
  function ItemsBetween(responses: seq<Response>, lo: nat, hi: nat): seq<Json>
    requires lo <= hi <= |responses|
    decreases hi - lo
  {
    if lo == hi then [] else ResponseItems(responses[lo]) + ItemsBetween(responses, lo + 1, hi)
  }

  /** The bookmark a body carries (`data.get('bookmark')`). */
  function BookmarkOf(response: Response): Json {
    if response.Body? && response.data.JObject? then GetOr(response.data.fields, "bookmark", JNull) else JNull
  }

  /** The paging loop from the `i`-th response on, with the pins gathered so far and the
      bookmark parameter as it stands: a request per iteration, ending after a response without
      a bookmark or once `page_size` pins are held. A request past the last given response fails
      like a failed one: the program's `while True` would keep requesting from a server that always
      sends a bookmark and no items, and the finite response sequence cuts that off. */
  function Pages(pageSize: int, responses: seq<Response>, i: nat, gathered: seq<Json>, bookmark: Option<Json>): (l: Listing)
    requires i <= |responses|
    ensures 0 < |l.requests| <= |responses| - i + 1
    ensures forall k :: 0 <= k < |l.requests| ==> l.requests[k].pageSize == Min(pageSize, MaxPageSize)
    ensures l.requests[0].bookmark == bookmark
    ensures l.outcome.Ok? ==> i + |l.requests| <= |responses|
    ensures i == |responses| ==> l.outcome == Err(RequestFailed)
    ensures l.outcome.Ok? && pageSize >= 0 ==> |l.outcome.value| <= pageSize
    decreases |responses| - i
  {
    var request := Request(Min(pageSize, MaxPageSize), bookmark);
    if i == |responses| || responses[i].Failure? then Listing([request], Err(RequestFailed))
    else
      var data := responses[i].data;
      if !data.JObject? then Listing([request], Err(AttributeError))
      else
        match ExtendWith(GetOr(data.fields, "items", JArray([])))
        case Err(e) => Listing([request], Err(e))
        case Ok(items) =>
          var all := gathered + items;
          var next := GetOr(data.fields, "bookmark", JNull);
          if !Truthy(next) || |all| >= pageSize then Listing([request], Ok(PyTake(all, pageSize)))
          else
            var rest := Pages(pageSize, responses, i + 1, all, Some(next));
            Listing([request] + rest.requests, rest.outcome)
  }

  /** Whether the loop asks for another page after response `i`: that response was a mapping
      whose items could be added, it carried a bookmark, and fewer than `page_size` pins are held. */
  predicate GoesOn(pageSize: int, responses: seq<Response>, i: nat, gathered: seq<Json>) {
    && i < |responses| && responses[i].Body? && responses[i].data.JObject?
    && ExtendWith(GetOr(responses[i].data.fields, "items", JArray([]))).Ok?
    && Truthy(BookmarkOf(responses[i]))
    && |gathered + ResponseItems(responses[i])| < pageSize
  }

  /** One turn of the loop that goes on: a request, then the rest of the loop with the new pins
      and the response's bookmark. */
  lemma PagesGoOn(pageSize: int, responses: seq<Response>, i: nat, gathered: seq<Json>, bookmark: Option<Json>)
    requires GoesOn(pageSize, responses, i, gathered)
    ensures var rest := Pages(pageSize, responses, i + 1, gathered + ResponseItems(responses[i]), Some(BookmarkOf(responses[i])));
            Pages(pageSize, responses, i, gathered, bookmark)
              == Listing([Request(Min(pageSize, MaxPageSize), bookmark)] + rest.requests, rest.outcome)
  {
  }

  /** A loop that does not go on sends one request and, when it succeeds, returns the first
      `page_size` of the pins held with response `i`'s. */
  lemma PagesStop(pageSize: int, responses: seq<Response>, i: nat, gathered: seq<Json>, bookmark: Option<Json>)
    requires i <= |responses| && !GoesOn(pageSize, responses, i, gathered)
    ensures |Pages(pageSize, responses, i, gathered, bookmark).requests| == 1
    ensures Pages(pageSize, responses, i, gathered, bookmark).outcome.Ok? ==>
              && i < |responses| && responses[i].Body? && responses[i].data.JObject?
              && Pages(pageSize, responses, i, gathered, bookmark).outcome.value
                 == PyTake(gathered + ResponseItems(responses[i]), pageSize)
              && (!Truthy(BookmarkOf(responses[i])) || |gathered + ResponseItems(responses[i])| >= pageSize)
  {
  }

  /** Each request after the first carries the bookmark of the response before it (counted
      from response `i`), and that bookmark was present. */
  predicate FollowsBookmarks(requests: seq<Request>, responses: seq<Response>, i: nat) {
    forall k :: 0 < k < |requests| ==>
      i + k <= |responses| && Truthy(BookmarkOf(responses[i + k - 1]))
      && requests[k].bookmark == Some(BookmarkOf(responses[i + k - 1]))
  }

  /** A bookmark-following run of requests stays one when a request carrying a present bookmark
      of response `i` is put in front of it. */
  lemma FollowsBookmarksCons(first: Request, rest: seq<Request>, responses: seq<Response>, i: nat)
    requires i < |responses| && Truthy(BookmarkOf(responses[i]))
    requires |rest| > 0 ==> rest[0].bookmark == Some(BookmarkOf(responses[i]))
    requires FollowsBookmarks(rest, responses, i + 1)
    ensures FollowsBookmarks([first] + rest, responses, i)
  {
    var l := [first] + rest;
    forall k | 0 < k < |l|
      ensures i + k <= |responses| && Truthy(BookmarkOf(responses[i + k - 1]))
              && l[k].bookmark == Some(BookmarkOf(responses[i + k - 1]))
    {
      assert l[k] == rest[k - 1];
      if k > 1 {
        assert i + 1 + (k - 1) - 1 == i + k - 1;
      }
    }
  }

  /** The loop only goes on when a response carried a bookmark, and sends it with the next request. */
  lemma {:induction false} PagesFollowBookmarks(pageSize: int, responses: seq<Response>, i: nat, gathered: seq<Json>, bookmark: Option<Json>)
    requires i <= |responses|
    ensures FollowsBookmarks(Pages(pageSize, responses, i, gathered, bookmark).requests, responses, i)
    decreases |responses| - i
  {
    if GoesOn(pageSize, responses, i, gathered) {
      var all := gathered + ResponseItems(responses[i]);
      var next := BookmarkOf(responses[i]);
      PagesGoOn(pageSize, responses, i, gathered, bookmark);
      PagesFollowBookmarks(pageSize, responses, i + 1, all, Some(next));
      var rest := Pages(pageSize, responses, i + 1, all, Some(next)).requests;
      FollowsBookmarksCons(Request(Min(pageSize, MaxPageSize), bookmark), rest, responses, i);
    } else {
      PagesStop(pageSize, responses, i, gathered, bookmark);
    }
  }

  /** The pins held after adding those of responses `lo` up to `hi` one response at a time, as
      the loop does. */
  function Collected(held: seq<Json>, responses: seq<Response>, lo: nat, hi: nat): seq<Json>
    requires lo <= hi <= |responses|
    decreases hi - lo
  {
    if lo == hi then held else Collected(held + ResponseItems(responses[lo]), responses, lo + 1, hi)
  }

  /** Adding the responses one at a time holds the earlier pins followed by theirs, in order. */
  lemma {:induction false} CollectedAppends(held: seq<Json>, responses: seq<Response>, lo: nat, hi: nat)
    requires lo <= hi <= |responses|
    ensures Collected(held, responses, lo, hi) == held + ItemsBetween(responses, lo, hi)
    decreases hi - lo
  {
    if lo == hi {
      assert held + [] == held;
    } else {
      var first := ResponseItems(responses[lo]);
      var later := ItemsBetween(responses, lo + 1, hi);
      assert Collected(held, responses, lo, hi) == Collected(held + first, responses, lo + 1, hi);
      assert ItemsBetween(responses, lo, hi) == first + later;
      CollectedAppends(held + first, responses, lo + 1, hi);
      AppendAssociative(held, first, later);
    }
  }

  /** A successful listing from response `i` on returns the first `page_size` of the pins held
      before it and those its answered responses listed; and the last of those responses had
      no bookmark, or enough pins had been gathered. */
  predicate GathersInOrder(l: Listing, pageSize: int, responses: seq<Response>, i: nat, gathered: seq<Json>) {
    l.outcome.Ok? ==>
      var n := |l.requests|;
      && 0 < n && i + n <= |responses|
      && var all := Collected(gathered, responses, i, i + n);
         && l.outcome.value == PyTake(all, pageSize)
         && (!Truthy(BookmarkOf(responses[i + n - 1])) || |all| >= pageSize)
  }

  /** Putting a turn of the loop in front of a listing that gathers in order gives one that does. */
  lemma GathersInOrderCons(l: Listing, rest: Listing, pageSize: int, responses: seq<Response>, i: nat, gathered: seq<Json>)
    requires i < |responses|
    requires |l.requests| == 1 + |rest.requests| && l.outcome == rest.outcome
    requires GathersInOrder(rest, pageSize, responses, i + 1, gathered + ResponseItems(responses[i]))
    ensures GathersInOrder(l, pageSize, responses, i, gathered)
  {
  }

  /** A single request whose answer ended the loop gathers in order. */
  lemma GathersInOrderOne(l: Listing, pageSize: int, responses: seq<Response>, i: nat, gathered: seq<Json>)
    requires |l.requests| == 1
    requires l.outcome.Ok? ==>
               && i < |responses|
               && l.outcome.value == PyTake(gathered + ResponseItems(responses[i]), pageSize)
               && (!Truthy(BookmarkOf(responses[i])) || |gathered + ResponseItems(responses[i])| >= pageSize)
    ensures GathersInOrder(l, pageSize, responses, i, gathered)
  {
  }

  /** The pins returned are the first `page_size` of the pins held and those the answered
      responses listed, in order; the last of those responses had no bookmark, or enough pins
      had been gathered. */
  lemma {:induction false} PagesGatherInOrder(pageSize: int, responses: seq<Response>, i: nat, gathered: seq<Json>, bookmark: Option<Json>)
    requires i <= |responses|
    ensures GathersInOrder(Pages(pageSize, responses, i, gathered, bookmark), pageSize, responses, i, gathered)
    decreases |responses| - i
  {
    if GoesOn(pageSize, responses, i, gathered) {
      var all := gathered + ResponseItems(responses[i]);
      var next := BookmarkOf(responses[i]);
      PagesGoOn(pageSize, responses, i, gathered, bookmark);
      PagesGatherInOrder(pageSize, responses, i + 1, all, Some(next));
      GathersInOrderCons(Pages(pageSize, responses, i, gathered, bookmark), Pages(pageSize, responses, i + 1, all, Some(next)),
                         pageSize, responses, i, gathered);
    } else {
      PagesStop(pageSize, responses, i, gathered, bookmark);
      GathersInOrderOne(Pages(pageSize, responses, i, gathered, bookmark), pageSize, responses, i, gathered);
    }
  }

  /** `get_board_pins(board_id, page_size)` given the access token and the server's responses. */
  function GetBoardPins(token: Option<string>, pageSize: int, responses: seq<Response>): (l: Listing)
    ensures token.None? || token.value == "" ==> l == Listing([], Err(TokenNotSet))
    ensures forall k :: 0 <= k < |l.requests| ==> l.requests[k].pageSize == Min(pageSize, MaxPageSize)
    ensures |l.requests| > 0 ==> l.requests[0].bookmark.None?
    ensures l.outcome.Ok? && pageSize >= 0 ==> |l.outcome.value| <= pageSize
  {
    if token.None? || token.value == "" then Listing([], Err(TokenNotSet))
    else Pages(pageSize, responses, 0, [], None)
  }

  /** What the listing returns, in terms of the pins of the answered responses: the first
      `page_size` of them, in order. */
  lemma ListingTakesFirstPins(token: string, pageSize: int, responses: seq<Response>)
    requires token != ""
    requires GetBoardPins(Some(token), pageSize, responses).outcome.Ok?
    ensures var l := GetBoardPins(Some(token), pageSize, responses);
            var n := |l.requests|;
            && 0 < n <= |responses|
            && l.outcome.value == PyTake(ItemsBetween(responses, 0, n), pageSize)
            && (!Truthy(BookmarkOf(responses[n - 1])) || |ItemsBetween(responses, 0, n)| >= pageSize)
  {
    var l := Pages(pageSize, responses, 0, [], None);
    PagesGatherInOrder(pageSize, responses, 0, [], None);
    CollectedAppends([], responses, 0, |l.requests|);
    assert [] + ItemsBetween(responses, 0, |l.requests|) == ItemsBetween(responses, 0, |l.requests|);
  }

  // ---------------------------------------------------------------------------
  // One image URL per pin

  /** `mapping.get(key, default)`, which only a mapping has. */
  function Get(j: Json, key: string, default: Json): (r: Result<Json, ApiError>)
    ensures r.Ok? <==> j.JObject?
    ensures r.Err? ==> r.error == AttributeError
    ensures j.JObject? && key in j.fields ==> r == Ok(j.fields[key])
    ensures j.JObject? && key !in j.fields ==> r == Ok(default)
  {
    if j.JObject? then Ok(GetOr(j.fields, key, default)) else Err(AttributeError)
  }

  /** `images.get(quality) or images.get('original')` on a mapping. */
  function ChosenImage(images: map<string, Json>, quality: string): (image: Json)
    ensures quality in images && Truthy(images[quality]) ==> image == images[quality]
    ensures !(quality in images && Truthy(images[quality])) ==> image == GetOr(images, "original", JNull)
  {
    var wanted := GetOr(images, quality, JNull);
    if Truthy(wanted) then wanted else GetOr(images, "original", JNull)
  }

  /** What one pin contributes: `None` when it has no usable image (the `KeyError` and
      `TypeError` cases are skipped); an `AttributeError` from a pin, media or images value that
      is not a mapping is not caught and ends the whole call. */
  function PinImageUrl(pin: Json, quality: string): (r: Result<Option<Json>, ApiError>)
    ensures r.Err? <==> !pin.JObject?
                        || !GetOr(pin.fields, "media", JObject(map[])).JObject?
                        || !GetOr(GetOr(pin.fields, "media", JObject(map[])).fields, "images", JObject(map[])).JObject?
    ensures r.Err? ==> r.error == AttributeError
    ensures r.Ok? && r.value.Some? ==>
              var images := GetOr(GetOr(pin.fields, "media", JObject(map[])).fields, "images", JObject(map[])).fields;
              var image := ChosenImage(images, quality);
              image.JObject? && "url" in image.fields && r.value.value == image.fields["url"]
    ensures r.Ok? ==>
              var images := GetOr(GetOr(pin.fields, "media", JObject(map[])).fields, "images", JObject(map[])).fields;
              var image := ChosenImage(images, quality);
              image.JObject? && "url" in image.fields ==> r.value == Some(image.fields["url"])
  {
    var media :- Get(pin, "media", JObject(map[]));
    var images :- Get(media, "images", JObject(map[]));
    if !images.JObject? then Err(AttributeError)
    else
      var image := ChosenImage(images.fields, quality);
      // `'url' in image` then `image['url']`: only a mapping holding the key gets through; a
      // string or list raises `TypeError` at the subscript and a number at the `in`.
      if Truthy(image) && image.JObject? && "url" in image.fields then Ok(Some(image.fields["url"]))
      else Ok(None)
  }

  /** `extract_image_urls(pins, quality)`: one URL per pin that has one, in pin order. */
  function ExtractImageUrls(pins: seq<Json>, quality: string): (r: Result<seq<Json>, ApiError>)
    ensures r.Ok? <==> forall k :: 0 <= k < |pins| ==> PinImageUrl(pins[k], quality).Ok?
    ensures r.Ok? ==> |r.value| <= |pins|
    ensures r.Err? ==> r.error == AttributeError
    ensures r.Ok? ==> forall k :: 0 <= k < |pins| && PinImageUrl(pins[k], quality).Ok? && PinImageUrl(pins[k], quality).value.Some? ==>
                        PinImageUrl(pins[k], quality).value.value in r.value
    decreases |pins|
  {
    if |pins| == 0 then Ok([])
    else
      var first :- PinImageUrl(pins[0], quality);
      var rest :- ExtractImageUrls(pins[1..], quality);
      assert forall k :: 1 <= k < |pins| ==> pins[k] == pins[1..][k - 1];
      Ok(if first.Some? then [first.value] + rest else rest)
  }

  /** A single pin contributes its own URL when it has one, and nothing otherwise; with
      `ExtractAppend` this fixes the result for any list of pins. */
  lemma ExtractOne(pin: Json, quality: string)
    ensures PinImageUrl(pin, quality).Err? ==> ExtractImageUrls([pin], quality) == Err(AttributeError)
    ensures PinImageUrl(pin, quality).Ok? ==>
              ExtractImageUrls([pin], quality)
              == Ok(if PinImageUrl(pin, quality).value.Some? then [PinImageUrl(pin, quality).value.value] else [])
  {
    assert [pin][1..] == [];
    if PinImageUrl(pin, quality).Ok? && PinImageUrl(pin, quality).value.Some? {
      assert [PinImageUrl(pin, quality).value.value] + [] == [PinImageUrl(pin, quality).value.value];
    }
  }

  /** Some pin of the list yields `u`. */
  ghost predicate SomePinYields(pins: seq<Json>, quality: string, u: Json) {
    exists k :: 0 <= k < |pins| && PinImageUrl(pins[k], quality) == Ok(Some(u))
  }

  /** Every URL returned is the URL of some pin: nothing else is added. */
  lemma {:induction false} ExtractedUrlsFromPins(pins: seq<Json>, quality: string)
    requires ExtractImageUrls(pins, quality).Ok?
    ensures forall u :: u in ExtractImageUrls(pins, quality).value ==> SomePinYields(pins, quality, u)
    decreases |pins|
  {
    if |pins| > 0 {
      ExtractedUrlsFromPins(pins[1..], quality);
      var first := PinImageUrl(pins[0], quality).value;
      var rest := ExtractImageUrls(pins[1..], quality).value;
      forall u | u in ExtractImageUrls(pins, quality).value
        ensures SomePinYields(pins, quality, u)
      {
        if first.Some? && u == first.value {
          assert PinImageUrl(pins[0], quality) == Ok(Some(u));
        } else {
          assert u in rest;
          assert SomePinYields(pins[1..], quality, u);
          var k :| 0 <= k < |pins[1..]| && PinImageUrl(pins[1..][k], quality) == Ok(Some(u));
          assert pins[1..][k] == pins[k + 1];
        }
      }
    }
  }

  /** The URLs of a list of pins are those of its first part followed by those of the rest. */
  lemma {:induction false} ExtractAppend(a: seq<Json>, b: seq<Json>, quality: string)
    requires ExtractImageUrls(a, quality).Ok? && ExtractImageUrls(b, quality).Ok?
    ensures ExtractImageUrls(a + b, quality) == Ok(ExtractImageUrls(a, quality).value + ExtractImageUrls(b, quality).value)
    decreases |a|
  {
    if |a| == 0 {
      assert a + b == b;
      assert [] + ExtractImageUrls(b, quality).value == ExtractImageUrls(b, quality).value;
    } else {
      assert (a + b)[0] == a[0] && (a + b)[1..] == a[1..] + b;
      ExtractAppend(a[1..], b, quality);
      var first := PinImageUrl(a[0], quality).value;
      PrependKept(first, ExtractImageUrls(a[1..], quality).value, ExtractImageUrls(b, quality).value);
    }
  }

  lemma PrependKept(first: Option<Json>, ra: seq<Json>, rb: seq<Json>)
    ensures (if first.Some? then [first.value] + (ra + rb) else ra + rb) == (if first.Some? then [first.value] + ra else ra) + rb
  {
    if first.Some? {
      AppendAssociative([first.value], ra, rb);
    }
  }

  /** The `images` mapping of a pin whose pin, media and images values are all mappings (a
      missing `media` or `images` counting as an empty mapping). */
  predicate HasImageMapping(pin: Json) {
    && pin.JObject?
    && GetOr(pin.fields, "media", JObject(map[])).JObject?
    && GetOr(GetOr(pin.fields, "media", JObject(map[])).fields, "images", JObject(map[])).JObject?
  }

  function ImagesOf(pin: Json): map<string, Json>
    requires HasImageMapping(pin)
  {
    GetOr(GetOr(pin.fields, "media", JObject(map[])).fields, "images", JObject(map[])).fields
  }

  /** Any pin whose requested quality is a mapping holding a URL yields that URL. */
  lemma RequestedQualityPreferred(pin: Json, quality: string)
    requires HasImageMapping(pin)
    requires quality in ImagesOf(pin) && ImagesOf(pin)[quality].JObject? && "url" in ImagesOf(pin)[quality].fields
    ensures PinImageUrl(pin, quality) == Ok(Some(ImagesOf(pin)[quality].fields["url"]))
  {
    var image := ImagesOf(pin)[quality];
    assert Truthy(image) by {
      assert "url" in image.fields;
    }
  }

  /** Any pin whose requested quality is missing or empty falls back to the original image:
      its URL when the original is a mapping holding one, and nothing when there is no
      original. */
  lemma OriginalFallback(pin: Json, quality: string)
    requires HasImageMapping(pin)
    requires !(quality in ImagesOf(pin) && Truthy(ImagesOf(pin)[quality]))
    ensures "original" in ImagesOf(pin) && ImagesOf(pin)["original"].JObject? && "url" in ImagesOf(pin)["original"].fields ==>
              PinImageUrl(pin, quality) == Ok(Some(ImagesOf(pin)["original"].fields["url"]))
    ensures "original" !in ImagesOf(pin) ==> PinImageUrl(pin, quality) == Ok(None)
  {
    if "original" in ImagesOf(pin) {
      var image := ImagesOf(pin)["original"];
      if image.JObject? && "url" in image.fields {
        assert Truthy(image) by {
          assert "url" in image.fields;
        }
      }
    }
  }

  /** A pin with no media contributes nothing, and does not stop the others. */
  lemma PinWithoutMediaSkipped(quality: string)
    ensures PinImageUrl(JObject(map[]), quality) == Ok(None)
  {
  }

  /** `get_images_from_board_url(board_url, max_images)` after the client was constructed:
      board id, then pins, then their original-quality URLs. */
  function GetImagesFromBoardUrl(path: string, token: Option<string>, maxImages: int, responses: seq<Response>): (r: Result<seq<Json>, ApiError>)
    ensures |PathSegments(path)| < 2 ==> r == Err(InvalidBoardUrl)
    ensures |PathSegments(path)| >= 2 && (token.None? || token.value == "") ==> r == Err(TokenNotSet)
    ensures r.Ok? && maxImages >= 0 ==> |r.value| <= maxImages
  {
    var _ :- ParseBoardId(path);
    var pins :- GetBoardPins(token, maxImages, responses).outcome;
    ExtractImageUrls(pins, "original")
  }

  /** `get_pinterest_images_via_api`: the client refuses to start without both app credentials. */
  function GetPinterestImagesViaApi(appId: Option<string>, appSecret: Option<string>, path: string,
                                    token: Option<string>, maxImages: int, responses: seq<Response>): (r: Result<seq<Json>, ApiError>)
    ensures appId.None? || appId.value == "" || appSecret.None? || appSecret.value == "" ==> r == Err(MissingCredentials)
    ensures r.Ok? && maxImages >= 0 ==> |r.value| <= maxImages
  {
    if appId.None? || appId.value == "" || appSecret.None? || appSecret.value == "" then Err(MissingCredentials)
    else GetImagesFromBoardUrl(path, token, maxImages, responses)
  }
}

=== FILE: pixels.dfy ===
/** Unit conversion of the renderer: millimetres to pixels at a given resolution, and the
    pixel size of a font. Python floats are exact reals here and `int()` truncates toward zero. */
module Pixels {

  /** Python's `int(x)` for a float: truncation toward zero. */
  function Trunc(x: real): (n: int)
    ensures x >= 0.0 ==> 0 <= n && n as real <= x < n as real + 1.0
    ensures x < 0.0 ==> n <= 0 && x <= n as real < x + 1.0
  {
    if x >= 0.0 then x.Floor else -((-x).Floor)
  }

  /** Truncation keeps order. */
  lemma TruncMonotone(a: real, b: real)
    requires a <= b
    ensures Trunc(a) <= Trunc(b)
  {
  }

  /** `mm_to_pixels(mm, dpi)`, with 25.4 millimetres to the inch. */
  function MmToPixels(mm: real, dpi: int): (px: int)
    ensures mm >= 0.0 && dpi >= 0 ==>
              px >= 0 && px as real <= mm * dpi as real / 25.4 < px as real + 1.0
  {
    Trunc(mm / 25.4 * dpi as real)
  }

  /** The quantity `MmToPixels` truncates, as the length times pixels per millimetre. */
  lemma MmToPixelsScaled(mm: real, dpi: int)
    ensures MmToPixels(mm, dpi) == Trunc(mm * (dpi as real / 25.4))
  {
    assert mm / 25.4 * dpi as real == mm * (dpi as real / 25.4);
  }

  /** More millimetres never give fewer pixels. */
  lemma MmToPixelsMonotoneInMm(a: real, b: real, dpi: int)
    requires 0.0 <= a <= b && dpi >= 0
    ensures MmToPixels(a, dpi) <= MmToPixels(b, dpi)
  {
    ScaleMonotone(a, b, dpi as real);
    var pa, pb := MmToPixels(a, dpi), MmToPixels(b, dpi);
    assert pa as real <= a * dpi as real / 25.4;
    assert b * dpi as real / 25.4 < pb as real + 1.0;
    assert a * dpi as real / 25.4 <= b * dpi as real / 25.4;
    assert pa as real < pb as real + 1.0;
  }

  /** A higher resolution never gives fewer pixels. */
  lemma MmToPixelsMonotoneInDpi(mm: real, d1: int, d2: int)
    requires mm >= 0.0 && 0 <= d1 <= d2
    ensures MmToPixels(mm, d1) <= MmToPixels(mm, d2)
  {
    MmToPixelsScaled(mm, d1);
    MmToPixelsScaled(mm, d2);
    var r1, r2 := d1 as real / 25.4, d2 as real / 25.4;
    assert r1 <= r2;
    ScaleMonotoneLeft(mm, r1, r2);
    var x1, x2 := mm * r1, mm * r2;
    assert x1 <= x2;
    TruncMonotone(x1, x2);
  }

  lemma MulNonNegative(a: real, b: real)
    requires a >= 0.0 && b >= 0.0
    ensures a * b >= 0.0
  {
  }

  /** Doubling the resolution doubles the pixel count, up to the one pixel truncation may add. */
  lemma DoubleResolution(mm: real, dpi: int)
    requires mm >= 0.0 && dpi >= 0
    ensures var p := MmToPixels(mm, dpi);
            MmToPixels(mm, 2 * dpi) == 2 * p || MmToPixels(mm, 2 * dpi) == 2 * p + 1
  {
    var v := mm / 25.4 * dpi as real;
    assert mm / 25.4 * (2 * dpi) as real == 2.0 * v;
    var p := Trunc(v);
    var q := Trunc(2.0 * v);
    assert 2 * p <= q < 2 * p + 2 by {
      assert p as real <= v < p as real + 1.0;
      assert q as real <= 2.0 * v < q as real + 1.0;
    }
  }

  /** An A6 card (148 x 105 mm) is 874 x 620 pixels at 150 DPI and 1748 x 1240 at 300 DPI. */
  lemma A6CanvasSizes()
    ensures MmToPixels(148.0, 150) == 874 && MmToPixels(105.0, 150) == 620
    ensures MmToPixels(148.0, 300) == 1748 && MmToPixels(105.0, 300) == 1240
  {
    assert 874.0 <= 148.0 / 25.4 * 150.0 < 875.0;
    assert 620.0 <= 105.0 / 25.4 * 150.0 < 621.0;
    assert 1748.0 <= 148.0 / 25.4 * 300.0 < 1749.0;
    assert 1240.0 <= 105.0 / 25.4 * 300.0 < 1241.0;
  }

  /** `size_px` of `get_font_for_type`: the size (nominally in millimetres) is converted to
      pixels, divided by 72 and multiplied by the size and 2 once more, as the code writes it. */
  function FontPixelSize(size: real, dpi: int): (px: int)
    ensures size >= 0.0 && dpi >= 0 ==>
              px >= 0 && px as real <= size * size * dpi as real / 914.4 < px as real + 1.0
  {
    Trunc(size / 25.4 * dpi as real * (1.0 / 72.0) * size * 2.0)
  }

  /** A larger (non-negative) font size never gives a smaller pixel size. */
  lemma FontPixelSizeMonotone(a: real, b: real, dpi: int)
    requires 0.0 <= a <= b && dpi >= 0
    ensures FontPixelSize(a, dpi) <= FontPixelSize(b, dpi)
  {
    var k := dpi as real / 914.4;
    FontPixelArgument(a, dpi);
    FontPixelArgument(b, dpi);
    SquareMonotone(a, b);
    ScaleMonotone(a * a, b * b, k);
    TruncMonotone(a * a * k, b * b * k);
    assert FontPixelSize(a, dpi) == Trunc(a * a * k);
    assert FontPixelSize(b, dpi) == Trunc(b * b * k);
  }

  /** The quantity `FontPixelSize` truncates, as a square times a factor of the resolution. */
  lemma FontPixelArgument(size: real, dpi: int)
    ensures FontPixelSize(size, dpi) == Trunc(size * size * (dpi as real / 914.4))
  {
    assert size / 25.4 * dpi as real * (1.0 / 72.0) * size * 2.0 == size * size * (dpi as real / 914.4);
  }

  lemma SquareMonotone(a: real, b: real)
    requires 0.0 <= a <= b
    ensures a * a <= b * b
  {
    MulNonNegative(b - a, b + a);
    assert (b - a) * (b + a) == b * b - a * a;
  }

  lemma ScaleMonotone(x: real, y: real, k: real)
    requires x <= y && k >= 0.0
    ensures x * k <= y * k
  {
    MulNonNegative(y - x, k);
    assert (y - x) * k == y * k - x * k;
  }

  lemma ScaleMonotoneLeft(k: real, x: real, y: real)
    requires x <= y && k >= 0.0
    ensures k * x <= k * y
  {
    MulNonNegative(k, y - x);
    assert k * (y - x) == k * y - k * x;
  }
}

=== FILE: render.dfy ===
/** The card renderer (`render_card_design` and the two element renderers) as a function from
    the design document to a canvas and its drawing primitives. The renderer does not validate:
    it reads whatever the document holds, with its own defaults, and a value of the wrong kind
    ends rendering with the Python exception it would raise. */
module Render {
  import opened Wrappers
  import opened Json
  import opened Drawing
  import Colour
  import Schema
  import Pixels
  import Fonts
  import Motifs

  /** The Python exceptions rendering can end in. */
  datatype RenderError =
    | KeyError(key: string)   // a subscripted mapping lacks the key
    | TypeError               // arithmetic on, subscripting or iterating a value that does not allow it
    | AttributeError          // `.get` on a value that is not a mapping, `.lstrip` on one that is not a string
    | ValueError              // a colour whose character pairs are not base-16 numbers

  /** A value as Python arithmetic takes it: ints, floats, and booleans as 0 and 1. */
  function AsNumber(j: Json): (r: Option<real>)
    ensures Schema.AsReal(j).Some? ==> r == Schema.AsReal(j)
    ensures r.Some? <==> j.JInt? || j.JFloat? || j.JBool?
  {
    match j
    case JInt(i) => Some(i as real)
    case JFloat(v) => Some(v)
    case JBool(b) => Some(if b then 1.0 else 0.0)
    case _ => None
  }

  /** `mm_to_pixels(container[key], dpi)`. */
  function Coordinate(container: Json, key: string, dpi: int): (r: Result<int, RenderError>)
    ensures r.Ok? <==> container.JObject? && key in container.fields && AsNumber(container.fields[key]).Some?
    ensures r.Ok? ==> r.value == Pixels.MmToPixels(AsNumber(container.fields[key]).value, dpi)
    ensures container.JObject? && key !in container.fields ==> r == Err(KeyError(key))
    ensures r.Err? && !r.error.KeyError? ==> r.error == TypeError
  {
    if !container.JObject? then Err(TypeError)
    else if key !in container.fields then Err(KeyError(key))
    else
      match AsNumber(container.fields[key])
      case None => Err(TypeError)
      case Some(mm) => Ok(Pixels.MmToPixels(mm, dpi))
  }

  /** `hex_to_rgb(color)`: only a string has `.lstrip`; a string whose pairs do not parse fails. */
  function ColourOf(color: Json): (r: Result<Colour.Rgb, RenderError>)
    ensures !color.JStr? ==> r == Err(AttributeError)
    ensures color.JStr? && Colour.IsHexColor(color.s) ==> r.Ok? && Colour.InByteRange(r.value)
    ensures r.Ok? ==> color.JStr? && Colour.HexToRgb(color.s) == Some(r.value)
  {
    if !color.JStr? then Err(AttributeError)
    else
      match Colour.HexToRgb(color.s)
      case None => Err(ValueError)
      case Some(rgb) => Ok(rgb)
  }

  /** The position used when an element has none. */
  function OriginPosition(): Json {
    JObject(map["x" := JInt(0), "y" := JInt(0)])
  }

  /** `render_text_element`: one text primitive at the converted position. */
  function TextOp(m: map<string, Json>, dpi: int, canLoad: (string, int) -> bool): (r: Result<DrawOp, RenderError>)
    ensures r.Ok? ==> r.value.Text?
    ensures r.Ok? ==> r.value.content == GetOr(m, "content", JStr(""))
    ensures r.Ok? ==> var position := GetOr(m, "position", OriginPosition());
                      Coordinate(position, "x", dpi) == Ok(r.value.at.x)
                      && Coordinate(position, "y", dpi) == Ok(r.value.at.y)
    ensures r.Ok? ==> ColourOf(GetOr(m, "color", JStr("#000000"))) == Ok(r.value.colour)
    ensures r.Ok? ==> var size := AsNumber(GetOr(m, "fontSize", JInt(16)));
                      size.Some?
                      && Fonts.FontFor(GetOr(m, "font", JStr("Serif")), size.value, dpi, canLoad) == Some(r.value.font)
  {
    var content := GetOr(m, "content", JStr(""));
    var fontType := GetOr(m, "font", JStr("Serif"));
    var fontSize := GetOr(m, "fontSize", JInt(16));
    var color := GetOr(m, "color", JStr("#000000"));
    var position := GetOr(m, "position", OriginPosition());
    var x :- Coordinate(position, "x", dpi);
    var y :- Coordinate(position, "y", dpi);
    var size :- if AsNumber(fontSize).Some? then Ok(AsNumber(fontSize).value) else Err(TypeError);
    var font :- if Fonts.FontFor(fontType, size, dpi, canLoad).Some? then
                  Ok(Fonts.FontFor(fontType, size, dpi, canLoad).value)
                else Err(TypeError);
    var rgb :- ColourOf(color);
    Ok(Text(Point(x, y), content, rgb, font))
  }

  /** The size used when a decorative element has none: 10 x 10 mm. */
  function DefaultSize(): Json {
    JObject(map["width" := JInt(10), "height" := JInt(10)])
  }

  /** `render_decorative_element`: the motif's primitives at the converted box. */
  function DecorativeOps(m: map<string, Json>, dpi: int): (r: Result<seq<DrawOp>, RenderError>)
    ensures r.Ok? ==> forall i :: 0 <= i < |r.value| ==> !r.value[i].Text?
    ensures r.Ok? && Motifs.MotifOf(GetOr(m, "content", JStr(""))).None? ==> r.value == []
    ensures r.Ok? ==>
              var position := GetOr(m, "position", OriginPosition());
              var size := GetOr(m, "size", DefaultSize());
              var color := ColourOf(GetOr(m, "color", JStr("#000000")));
              && Coordinate(position, "x", dpi).Ok? && Coordinate(position, "y", dpi).Ok?
              && Coordinate(size, "width", dpi).Ok? && Coordinate(size, "height", dpi).Ok?
              && color.Ok?
              && r.value == Motifs.MotifOps(GetOr(m, "content", JStr("")),
                                            Coordinate(position, "x", dpi).value, Coordinate(position, "y", dpi).value,
                                            Coordinate(size, "width", dpi).value, Coordinate(size, "height", dpi).value,
                                            color.value)
  {
    var content := GetOr(m, "content", JStr(""));
    var position := GetOr(m, "position", OriginPosition());
    var size := GetOr(m, "size", DefaultSize());
    var color := GetOr(m, "color", JStr("#000000"));
    var x :- Coordinate(position, "x", dpi);
    var y :- Coordinate(position, "y", dpi);
    var w :- Coordinate(size, "width", dpi);
    var h :- Coordinate(size, "height", dpi);
    var rgb :- ColourOf(color);
    Ok(Motifs.MotifOps(content, x, y, w, h, rgb))
  }

  /** How many of the primitives are text. */
  function TextOps(ops: seq<DrawOp>): (n: nat)
    ensures n <= |ops|
  {
    if |ops| == 0 then 0 else (if ops[0].Text? then 1 else 0) + TextOps(ops[1..])
  }

  lemma {:induction false} NoTextOps(ops: seq<DrawOp>)
    requires forall i :: 0 <= i < |ops| ==> !ops[i].Text?
    ensures TextOps(ops) == 0
  {
    if |ops| > 0 {
      NoTextOps(ops[1..]);
    }
  }

  /** One iteration of the element loop: dispatch on the `type` tag; images and unknown types
      draw nothing. */
  function ElementOps(j: Json, dpi: int, canLoad: (string, int) -> bool): (r: Result<seq<DrawOp>, RenderError>)
    ensures !j.JObject? ==> r == Err(AttributeError)
    ensures j.JObject? && Schema.TagOf(j) != JStr("text") && Schema.TagOf(j) != JStr("decorative") ==> r == Ok([])
    ensures r.Ok? ==> TextOps(r.value) == if Schema.TagOf(j) == JStr("text") then 1 else 0
    ensures r.Ok? && Schema.TagOf(j) == JStr("text") ==> |r.value| == 1 && TextOp(j.fields, dpi, canLoad) == Ok(r.value[0])
  {
    if !j.JObject? then Err(AttributeError)
    else
      var tag := Schema.TagOf(j);
      if tag == JStr("text") then
        var op :- TextOp(j.fields, dpi, canLoad);
        assert TextOps([op]) == 1;
        Ok([op])
      else if tag == JStr("decorative") then
        var ops :- DecorativeOps(j.fields, dpi);
        NoTextOps(ops);
        Ok(ops)
      else Ok([])
  }

  /** The element loop: every element's primitives in document order; the first exception
      ends rendering. */
  function RenderElements(items: seq<Json>, dpi: int, canLoad: (string, int) -> bool): (r: Result<seq<DrawOp>, RenderError>)
    ensures r.Ok? <==> forall k :: 0 <= k < |items| ==> ElementOps(items[k], dpi, canLoad).Ok?
    ensures r.Err? ==> exists k :: 0 <= k < |items| && ElementOps(items[k], dpi, canLoad) == Err(r.error)
    decreases |items|
  {
    if |items| == 0 then Ok([])
    else
      var first :- ElementOps(items[0], dpi, canLoad);
      var rest :- RenderElements(items[1..], dpi, canLoad);
      Ok(first + rest)
  }

  /** `render_card_design(card_json, dpi)`: the canvas from the card's size and background
      (defaults 148 x 105 mm on white), then the elements' primitives. */
  function RenderCardDesign(doc: Json, dpi: int, canLoad: (string, int) -> bool): (r: Result<Canvas, RenderError>)
    ensures !doc.JObject? ==> r == Err(AttributeError)
    ensures r.Ok? ==>
              var card := GetOr(doc.fields, "card", JObject(map[]));
              && card.JObject?
              && AsNumber(GetOr(card.fields, "width", JInt(148))).Some?
              && AsNumber(GetOr(card.fields, "height", JInt(105))).Some?
              && r.value.width == Pixels.MmToPixels(AsNumber(GetOr(card.fields, "width", JInt(148))).value, dpi)
              && r.value.height == Pixels.MmToPixels(AsNumber(GetOr(card.fields, "height", JInt(105))).value, dpi)
              && ColourOf(GetOr(card.fields, "backgroundColor", JStr("#FFFFFF"))) == Ok(r.value.background)
    ensures r.Ok? ==> var it := Iterate(GetOr(doc.fields, "elements", JArray([])));
                      it.Items? && RenderElements(it.items, dpi, canLoad) == Ok(r.value.ops)
  {
    if !doc.JObject? then Err(AttributeError)
    else
      var card := GetOr(doc.fields, "card", JObject(map[]));
      if !card.JObject? then Err(AttributeError)
      else
        var widthMm := GetOr(card.fields, "width", JInt(148));
        var heightMm := GetOr(card.fields, "height", JInt(105));
        var background := GetOr(card.fields, "backgroundColor", JStr("#FFFFFF"));
        var width :- if AsNumber(widthMm).Some? then Ok(Pixels.MmToPixels(AsNumber(widthMm).value, dpi)) else Err(TypeError);
        var height :- if AsNumber(heightMm).Some? then Ok(Pixels.MmToPixels(AsNumber(heightMm).value, dpi)) else Err(TypeError);
        var rgb :- ColourOf(background);
        match Iterate(GetOr(doc.fields, "elements", JArray([])))
        case NotIterable => Err(TypeError)
        case FirstNotMapping => Err(AttributeError)
        case Items(items) =>
          var ops :- RenderElements(items, dpi, canLoad);
          Ok(Canvas(width, height, rgb, ops))
  }
}

=== FILE: render_props.dfy ===
/** Properties of the renderer: primitives come out in document order, every design the
    validator accepts renders on an A6 canvas with one text primitive per text element, and the
    renderer's defaults. */
module RenderProperties {
  import opened Wrappers
  import opened Json
  import opened Drawing
  import Text
  import Colour
  import Schema
  import SchemaProperties
  import Pixels
  import Fonts
  import opened Render

  /** Running two renderings one after the other: the first exception, or both lists in order. */
  function Sequenced(first: Result<seq<DrawOp>, RenderError>, second: Result<seq<DrawOp>, RenderError>)
    : Result<seq<DrawOp>, RenderError>
  {
    if first.Err? then first
    else if second.Err? then second
    else Ok(first.value + second.value)
  }

  /** Rendering a list in two parts: the first part's primitives, then the second's; an
      exception in the first part wins. */
  lemma {:induction false} RenderElementsAppend(a: seq<Json>, b: seq<Json>, dpi: int, canLoad: (string, int) -> bool)
    ensures RenderElements(a + b, dpi, canLoad)
            == Sequenced(RenderElements(a, dpi, canLoad), RenderElements(b, dpi, canLoad))
    decreases |a|
  {
    if |a| == 0 {
      assert a + b == b;
      if RenderElements(b, dpi, canLoad).Ok? {
        assert [] + RenderElements(b, dpi, canLoad).value == RenderElements(b, dpi, canLoad).value;
      }
    } else {
      var ab := a + b;
      assert ab[0] == a[0];
      assert ab[1..] == a[1..] + b;
      var head := ElementOps(a[0], dpi, canLoad);
      var tail := RenderElements(a[1..], dpi, canLoad);
      var second := RenderElements(b, dpi, canLoad);
      RenderElementsAppend(a[1..], b, dpi, canLoad);
      RenderElementsStep(ab, dpi, canLoad);
      RenderElementsStep(a, dpi, canLoad);
      assert RenderElements(ab, dpi, canLoad) == Sequenced(head, Sequenced(tail, second));
      assert RenderElements(a, dpi, canLoad) == Sequenced(head, tail);
      SequencedAssociative(head, tail, second);
    }
  }

  lemma SequencedAssociative(x: Result<seq<DrawOp>, RenderError>, y: Result<seq<DrawOp>, RenderError>,
                             z: Result<seq<DrawOp>, RenderError>)
    ensures Sequenced(x, Sequenced(y, z)) == Sequenced(Sequenced(x, y), z)
  {
    if x.Ok? && y.Ok? && z.Ok? {
      assert x.value + (y.value + z.value) == (x.value + y.value) + z.value;
    }
  }

  /** One step of the element loop. */
  lemma RenderElementsStep(items: seq<Json>, dpi: int, canLoad: (string, int) -> bool)
    requires |items| > 0
    ensures RenderElements(items, dpi, canLoad)
            == Sequenced(ElementOps(items[0], dpi, canLoad), RenderElements(items[1..], dpi, canLoad))
  {
  }

  /** Element `k`'s primitives sit, as one block, right after those of the elements before it. */
  lemma ElementBlockInOrder(items: seq<Json>, k: nat, dpi: int, canLoad: (string, int) -> bool)
    requires k < |items| && RenderElements(items, dpi, canLoad).Ok?
    ensures var before := RenderElements(items[..k], dpi, canLoad);
            var mine := ElementOps(items[k], dpi, canLoad);
            var ops := RenderElements(items, dpi, canLoad).value;
            before.Ok? && mine.Ok?
            && |before.value| + |mine.value| <= |ops|
            && ops[..|before.value| + |mine.value|] == before.value + mine.value
  {
    var rest := [items[k]] + items[k + 1..];
    SplitAround(items, k);
    RenderElementsAppend(items[..k], rest, dpi, canLoad);
    RenderElementsStep(rest, dpi, canLoad);
    var before := RenderElements(items[..k], dpi, canLoad).value;
    var mine := ElementOps(items[k], dpi, canLoad).value;
    var after := RenderElements(items[k + 1..], dpi, canLoad).value;
    assert RenderElements(items, dpi, canLoad).value == before + (mine + after);
    PrefixOfConcat(before, mine, after);
  }

  lemma SplitAround<T>(items: seq<T>, k: nat)
    requires k < |items|
    ensures var rest := [items[k]] + items[k + 1..];
            items == items[..k] + rest && rest[0] == items[k] && rest[1..] == items[k + 1..]
  {
  }

  lemma PrefixOfConcat<T>(a: seq<T>, b: seq<T>, c: seq<T>)
    ensures (a + (b + c))[..|a| + |b|] == a + b
  {
  }

  lemma {:induction false} TextOpsAppend(a: seq<DrawOp>, b: seq<DrawOp>)
    ensures TextOps(a + b) == TextOps(a) + TextOps(b)
    decreases |a|
  {
    if |a| == 0 {
      assert a + b == b;
    } else {
      assert (a + b)[1..] == a[1..] + b;
      TextOpsAppend(a[1..], b);
    }
  }

  /** A rendered element list has exactly one text primitive per element tagged `text`. */
  lemma {:induction false} TextOpsMatchTags(items: seq<Json>, dpi: int, canLoad: (string, int) -> bool)
    requires RenderElements(items, dpi, canLoad).Ok?
    ensures TextOps(RenderElements(items, dpi, canLoad).value) == SchemaProperties.CountTagged(items, "text")
    decreases |items|
  {
    if |items| > 0 {
      TextOpsMatchTags(items[1..], dpi, canLoad);
      TextOpsAppend(ElementOps(items[0], dpi, canLoad).value, RenderElements(items[1..], dpi, canLoad).value);
    }
  }

  /** An element the validator accepts renders without an exception. This holds for the strict
      reading of numbers modelled here; `LaxFontSizeCrashesRenderer` shows that it fails for the
      program's lax one. */
  lemma ParsedElementRenders(j: Json, index: nat, dpi: int, canLoad: (string, int) -> bool)
    requires Schema.ParseElement(j, index).Ok?
    ensures ElementOps(j, dpi, canLoad).Ok?
  {
    var e := Schema.ParseElement(j, index).value;
    if e.TextElement? {
      SchemaProperties.TextDispatch(j, index);
      TextFieldsRender(j.fields, dpi, canLoad);
    } else if e.DecorativeElement? {
      SchemaProperties.DecorativeDispatch(j, index);
      DecorativeFieldsRender(j.fields, dpi);
    }
  }

  /** The fields of an accepted text element render. */
  lemma TextFieldsRender(m: map<string, Json>, dpi: int, canLoad: (string, int) -> bool)
    requires Schema.ParseText(m).Ok?
    ensures TextOp(m, dpi, canLoad).Ok?
  {
    PositionReadable(m, dpi);
    assert AsNumber(GetOr(m, "fontSize", JInt(16))).Some?;
    assert Fonts.Candidates(GetOr(m, "font", JStr("Serif"))).Some?;
    assert Colour.IsHexColor(GetOr(m, "color", JStr("#000000")).s);
  }

  /** The fields of an accepted decorative element render. */
  lemma DecorativeFieldsRender(m: map<string, Json>, dpi: int)
    requires Schema.ParseDecorative(m).Ok?
    ensures DecorativeOps(m, dpi).Ok?
  {
    PositionReadable(m, dpi);
    SizeReadable(m, dpi);
    assert Colour.IsHexColor(GetOr(m, "color", JStr("#000000")).s);
  }

  lemma PositionReadable(m: map<string, Json>, dpi: int)
    requires Schema.PositionField(m).Some?
    ensures var position := GetOr(m, "position", OriginPosition());
            Coordinate(position, "x", dpi).Ok? && Coordinate(position, "y", dpi).Ok?
  {
    assert Schema.ParsePosition(m["position"]).Some?;
  }

  lemma SizeReadable(m: map<string, Json>, dpi: int)
    requires Schema.SizeField(m).Some?
    ensures var size := GetOr(m, "size", DefaultSize());
            Coordinate(size, "width", dpi).Ok? && Coordinate(size, "height", dpi).Ok?
  {
    assert Schema.ParseSize(m["size"]).Some?;
  }

  /** The renderer reads the same element list as the validator: metadata keys never hide it. */
  lemma ValidatedElementsRender(doc: Json, dpi: int, canLoad: (string, int) -> bool)
    requires Schema.Validate(doc).Ok?
    ensures var it := Iterate(GetOr(doc.fields, "elements", JArray([])));
            && it.Items?
            && RenderElements(it.items, dpi, canLoad).Ok?
            && TextOps(RenderElements(it.items, dpi, canLoad).value)
               == Schema.TextCount(Schema.Validate(doc).value.elements)
  {
    var d := Schema.Validate(doc).value;
    var clean := Schema.StripMetadata(doc.fields);
    assert !Text.StartsWith("elements", "_") by { assert "elements"[..1] == "e"; }
    assert Schema.ElementsValue(clean) == GetOr(doc.fields, "elements", JArray([]));
    var raw := Iterate(Schema.ElementsValue(clean)).items;
    assert Schema.ParseElements(raw, 0) == Ok(d.elements);
    forall k | 0 <= k < |raw|
      ensures ElementOps(raw[k], dpi, canLoad).Ok?
    {
      assert Schema.ParseElement(raw[0 + k], 0 + k) == Ok(d.elements[k]);
      ParsedElementRenders(raw[k], k, dpi, canLoad);
    }
    TextOpsMatchTags(raw, dpi, canLoad);
    SchemaProperties.CountsFollowTags(raw, d.elements);
  }

  /** The renderer reads the validated card: 148 x 105 mm and the validated background. */
  lemma ValidatedCardReadable(doc: Json)
    requires Schema.Validate(doc).Ok?
    ensures var card := GetOr(doc.fields, "card", JObject(map[]));
            && card.JObject?
            && AsNumber(GetOr(card.fields, "width", JInt(148))) == Some(Schema.CardWidthMm)
            && AsNumber(GetOr(card.fields, "height", JInt(105))) == Some(Schema.CardHeightMm)
            && ColourOf(GetOr(card.fields, "backgroundColor", JStr("#FFFFFF"))).Ok?
            && GetOr(card.fields, "backgroundColor", JStr("#FFFFFF"))
               == JStr(Schema.Validate(doc).value.card.backgroundColor)
  {
    var d := Schema.Validate(doc).value;
    var clean := Schema.StripMetadata(doc.fields);
    assert !Text.StartsWith("card", "_") by { assert "card"[..1] == "c"; }
    var cardJson := Schema.CardValue(clean);
    assert Schema.ParseCard(cardJson) == Ok(d.card);
    assert cardJson == GetOr(doc.fields, "card", JObject(map[]));
  }

  /** Every design the validator accepts renders: on a canvas of the A6 size in pixels, in its
      background colour, with exactly one text primitive per text element. Like
      `ParsedElementRenders`, this holds for strictly typed numbers only. */
  lemma ValidatedDesignRenders(doc: Json, dpi: int, canLoad: (string, int) -> bool)
    requires Schema.Validate(doc).Ok?
    ensures var d := Schema.Validate(doc).value;
            var r := RenderCardDesign(doc, dpi, canLoad);
            && r.Ok?
            && r.value.width == Pixels.MmToPixels(Schema.CardWidthMm, dpi)
            && r.value.height == Pixels.MmToPixels(Schema.CardHeightMm, dpi)
            && Colour.HexToRgb(d.card.backgroundColor) == Some(r.value.background)
            && TextOps(r.value.ops) == Schema.TextCount(d.elements)
  {
    ValidatedElementsRender(doc, dpi, canLoad);
    ValidatedCardReadable(doc);
  }

  // ---------------------------------------------------------------------------
  // The program's validator reads numbers leniently; the renderer does not

  /** One or more decimal digits. */
  predicate IsDecimal(s: string) {
    |s| > 0 && forall k :: 0 <= k < |s| ==> '0' <= s[k] <= '9'
  }

  /** The value of a string of decimal digits, most significant digit first. */
  function DecimalValue(s: string): nat
    requires IsDecimal(s)
    decreases |s|
  {
    var d := (s[|s| - 1] as int) - ('0' as int);
    if |s| == 1 then d else 10 * DecimalValue(s[..|s| - 1]) + d
  }

  /** How pydantic's lax mode reads a field declared `int`: an int as itself, a bool as 0 or 1,
      a float without a fractional part as its value, and a string of decimal digits as the
      number it spells. */
  function LaxInt(j: Json): (r: Option<int>)
    ensures j.JInt? ==> r == Some(j.i)
    ensures j.JStr? ==> (r.Some? <==> IsDecimal(j.s))
    ensures j.JObject? || j.JArray? || j.JNull? ==> r.None?
  {
    match j
    case JInt(i) => Some(i)
    case JBool(b) => Some(if b then 1 else 0)
    case JFloat(v) => if v.Floor as real == v then Some(v.Floor) else None
    case JStr(s) => if IsDecimal(s) then Some(DecimalValue(s)) else None
    case _ => None
  }

  /** The lax reading undoes the decimal writing of a number. */
  lemma {:induction false} LaxIntReadsDecimal(n: nat)
    ensures LaxInt(JStr(Text.NatToString(n))) == Some(n)
    decreases n
  {
    var s := Text.NatToString(n);
    if n >= 10 {
      LaxIntReadsDecimal(n / 10);
      var p := Text.NatToString(n / 10);
      assert s == p + [(('0' as int) + n % 10) as char];
      assert s[..|s| - 1] == p;
    }
  }

  /** A text element with its font size written as a decimal string. The program's validator
      reads the string as the int it spells, so it accepts the element exactly when it accepts
      the element with that int; the strict validator here rejects it; and the renderer, which
      divides the raw value, fails with `TypeError`. */
  lemma LaxFontSizeCrashesRenderer(m: map<string, Json>, n: nat, index: nat, dpi: int,
                                   canLoad: (string, int) -> bool)
    requires Schema.ParseElement(JObject(m["fontSize" := JInt(n)]), index).Ok?
    requires Schema.ParseElement(JObject(m["fontSize" := JInt(n)]), index).value.TextElement?
    ensures var lax := m["fontSize" := JStr(Text.NatToString(n))];
            && LaxInt(lax["fontSize"]) == Some(n)
            && Schema.ParseElement(JObject(lax), index).Err?
            && ElementOps(JObject(lax), dpi, canLoad) == Err(TypeError)
  {
    var strict := m["fontSize" := JInt(n)];
    var lax := m["fontSize" := JStr(Text.NatToString(n))];
    LaxIntReadsDecimal(n);
    assert Schema.TagOf(JObject(lax)) == Schema.TagOf(JObject(strict)) == JStr("text");
    SchemaProperties.TextDispatch(JObject(strict), index);
    SchemaProperties.TextDispatch(JObject(lax), index);
    assert Schema.PositionField(lax) == Schema.PositionField(strict);
    PositionReadable(lax, dpi);
  }

  /** The schema example renders on 874 x 620 pixels at 150 DPI and on 1748 x 1240 at 300 DPI,
      with its two text lines. */
  lemma SchemaExampleCanvases(canLoad: (string, int) -> bool)
    ensures var r := RenderCardDesign(Schema.SchemaExample(), 150, canLoad);
            r.Ok? && r.value.width == 874 && r.value.height == 620 && TextOps(r.value.ops) == 2
    ensures var r := RenderCardDesign(Schema.SchemaExample(), 300, canLoad);
            r.Ok? && r.value.width == 1748 && r.value.height == 1240 && TextOps(r.value.ops) == 2
  {
    SchemaProperties.SchemaExampleAccepted();
    ValidatedDesignRenders(Schema.SchemaExample(), 150, canLoad);
    ValidatedDesignRenders(Schema.SchemaExample(), 300, canLoad);
    Pixels.A6CanvasSizes();
    ExampleTextCount();
  }

  lemma ExampleTextCount()
    ensures Schema.Validate(Schema.SchemaExample()).Ok?
    ensures Schema.TextCount(Schema.Validate(Schema.SchemaExample()).value.elements) == 2
  {
    SchemaProperties.SchemaExampleAccepted();
  }

  /** An empty design renders as an empty 148 x 105 mm white canvas. */
  lemma EmptyDesignDefaults(dpi: int, canLoad: (string, int) -> bool)
    ensures RenderCardDesign(JObject(map[]), dpi, canLoad)
            == Ok(Canvas(Pixels.MmToPixels(148.0, dpi), Pixels.MmToPixels(105.0, dpi), Colour.Rgb(255, 255, 255), []))
  {
    var doc := JObject(map[]);
    var card := JObject(map[]);
    assert GetOr(doc.fields, "card", JObject(map[])) == card;
    assert AsNumber(GetOr(card.fields, "width", JInt(148))) == Some(148.0);
    assert AsNumber(GetOr(card.fields, "height", JInt(105))) == Some(105.0);
    DefaultColoursDecode();
    assert ColourOf(GetOr(card.fields, "backgroundColor", JStr("#FFFFFF"))) == Ok(Colour.Rgb(255, 255, 255));
    assert Iterate(GetOr(doc.fields, "elements", JArray([]))) == Items([]);
    assert RenderElements([], dpi, canLoad) == Ok([]);
    assert RenderCardDesign(doc, dpi, canLoad).Ok?;
  }

  /** The two default colours decode to white and black. */
  lemma DefaultColoursDecode()
    ensures ColourOf(JStr("#FFFFFF")) == Ok(Colour.Rgb(255, 255, 255))
    ensures ColourOf(JStr("#000000")) == Ok(Colour.Rgb(0, 0, 0))
  {
    Colour.WhiteAndBlack();
  }

  /** A text element with none of its optional keys draws an empty string at the origin in
      black, in the 16-unit Serif font. */
  lemma TextOpDefaults(m: map<string, Json>, dpi: int, canLoad: (string, int) -> bool)
    requires "position" !in m && "content" !in m && "font" !in m && "color" !in m && "fontSize" !in m
    ensures TextOp(m, dpi, canLoad)
            == Ok(Text(Point(0, 0), JStr(""), Colour.Rgb(0, 0, 0),
                       Fonts.PickFont(Fonts.SerifFamily, Pixels.FontPixelSize(16.0, dpi), canLoad)))
  {
    DefaultColoursDecode();
    OriginIsZero(dpi);
    DefaultFont(dpi, canLoad);
    assert AsNumber(JInt(16)) == Some(16.0);
  }

  lemma DefaultFont(dpi: int, canLoad: (string, int) -> bool)
    ensures Fonts.FontFor(JStr("Serif"), 16.0, dpi, canLoad)
            == Some(Fonts.PickFont(Fonts.SerifFamily, Pixels.FontPixelSize(16.0, dpi), canLoad))
  {
    assert Fonts.Candidates(JStr("Serif")) == Some(Fonts.SerifFamily);
  }

  lemma OriginIsZero(dpi: int)
    ensures Coordinate(OriginPosition(), "x", dpi) == Ok(0)
    ensures Coordinate(OriginPosition(), "y", dpi) == Ok(0)
  {
    assert Pixels.MmToPixels(0.0, dpi) == 0;
  }

  lemma TextElementDefaults(dpi: int, canLoad: (string, int) -> bool)
    ensures ElementOps(JObject(map["type" := JStr("text")]), dpi, canLoad)
            == Ok([Text(Point(0, 0), JStr(""), Colour.Rgb(0, 0, 0),
                        Fonts.PickFont(Fonts.SerifFamily, Pixels.FontPixelSize(16.0, dpi), canLoad))])
  {
    var m := map["type" := JStr("text")];
    assert m.Keys == {"type"};
    TextOpDefaults(m, dpi, canLoad);
  }

  /** A decorative element without a size is drawn as if it were 10 x 10 mm. */
  lemma DecorativeDefaultSize(m: map<string, Json>, dpi: int)
    requires "size" !in m
    ensures DecorativeOps(m, dpi) == DecorativeOps(m["size" := DefaultSize()], dpi)
  {
    var sized := m["size" := DefaultSize()];
    assert GetOr(sized, "size", DefaultSize()) == GetOr(m, "size", DefaultSize());
    assert GetOr(sized, "content", JStr("")) == GetOr(m, "content", JStr(""));
    assert GetOr(sized, "position", OriginPosition()) == GetOr(m, "position", OriginPosition());
    assert GetOr(sized, "color", JStr("#000000")) == GetOr(m, "color", JStr("#000000"));
  }
}

=== FILE: schema.dfy ===
/** The card-design schema and its validator (`card_schema.py`).

    A design document is a JSON mapping with a `card` (fixed A6-landscape canvas and a
    background colour) and an ordered list of `elements`, each a text, decorative or
    image element selected by its `type` tag. `Validate` parses the loose document into
    the typed `CardDesign` below or reports the one `Violation` the Python code raises. */
module Schema {
  import opened Wrappers
  import opened Json
  import Text
  import Colour
  import ElementLoop

  /** A6 landscape, in millimetres: the only canvas the schema admits. */
  const CardWidthMm: real := 148.0
  const CardHeightMm: real := 105.0
  /** Bounds on element geometry, in millimetres. */
  const MaxCoordinateMm: real := 200.0
  const MaxExtentMm: real := 100.0
  /** Bounds on text elements. */
  const MaxContentLength: nat := 200
  const MinFontSize: int := 12
  const MaxFontSize: int := 40
  /** Bounds on the element list. */
  const MinElements: nat := 1
  const MaxElements: nat := 10
  const MinTextElements: nat := 2
  const MaxTextElements: nat := 5
  const MaxDecorativeElements: nat := 2

  /** The prefix of every failure message `validate_card_design` raises. */
  const FailurePrefix: string := "Card design validation failed: "

  datatype Position = Position(x: real, y: real)
  datatype Size = Size(width: real, height: real)
  datatype CardDimensions = CardDimensions(width: real, height: real, backgroundColor: string)

  datatype FontFamily = Serif | SansSerif | Script
  datatype Motif = FloralBranch | HeartLine | GeometricBorder | LeafAccent | DotsPattern

  datatype Element =
    | TextElement(content: string, font: FontFamily, fontSize: int, color: string, position: Position)
    | DecorativeElement(motif: Motif, position: Position, size: Size, color: string)
    | ImageElement(src: string, position: Position, size: Size)

  datatype CardDesign = CardDesign(card: CardDimensions, elements: seq<Element>)

  datatype ElementKind = TextKind | DecorativeKind | ImageKind

  /** The list-level checks: the list's length bounds, then `validate_elements`. */
  datatype CountViolation =
    | TooFewElements
    | TooManyElements
    | TooFewText
    | TooManyText
    | TooManyDecorative

  /** Why a document was rejected. Field names are listed in declaration order, as the
      schema library reports every failing field of the object being built. */
  datatype Violation =
    | NotAMapping                                   // the document has no `.items()`
    | ElementsNotIterable                           // `enumerate` of None, a bool or a number
    | ElementNotAMapping(index: nat)                // the item has no `.get`
    | UnknownElementType(index: nat, tag: Json)     // `type` is none of the three tags
    | InvalidElement(index: nat, kind: ElementKind, fields: seq<string>)
    | InvalidDesign(cardFields: seq<string>, count: Option<CountViolation>)

  /** The index an element-level violation names. */
  function ViolationIndex(v: Violation): Option<nat> {
    match v
    case ElementNotAMapping(i) => Some(i)
    case UnknownElementType(i, _) => Some(i)
    case InvalidElement(i, _, _) => Some(i)
    case _ => None
  }

  // ---------------------------------------------------------------------------
  // Enumerations

  function FontName(f: FontFamily): string {
    match f
    case Serif => "Serif"
    case SansSerif => "Sans-Serif"
    case Script => "Script"
  }

  /** The font pattern `^(Serif|Sans-Serif|Script)$`. */
  function ParseFont(s: string): (r: Option<FontFamily>)
    ensures r.Some? ==> FontName(r.value) == s
    ensures r.None? ==> forall f: FontFamily :: FontName(f) != s
  {
    if s == "Serif" then Some(Serif)
    else if s == "Sans-Serif" then Some(SansSerif)
    else if s == "Script" then Some(Script)
    else None
  }

  function MotifName(m: Motif): string {
    match m
    case FloralBranch => "floral-branch"
    case HeartLine => "heart-line"
    case GeometricBorder => "geometric-border"
    case LeafAccent => "leaf-accent"
    case DotsPattern => "dots-pattern"
  }

  /** The motif pattern `^(floral-branch|heart-line|geometric-border|leaf-accent|dots-pattern)$`. */
  function ParseMotif(s: string): (r: Option<Motif>)
    ensures r.Some? ==> MotifName(r.value) == s
    ensures r.None? ==> forall m: Motif :: MotifName(m) != s
  {
    if s == "floral-branch" then Some(FloralBranch)
    else if s == "heart-line" then Some(HeartLine)
    else if s == "geometric-border" then Some(GeometricBorder)
    else if s == "leaf-accent" then Some(LeafAccent)
    else if s == "dots-pattern" then Some(DotsPattern)
    else None
  }

  function KindTag(e: Element): string {
    match e
    case TextElement(_, _, _, _, _) => "text"
    case DecorativeElement(_, _, _, _) => "decorative"
    case ImageElement(_, _, _) => "image"
  }

  // ---------------------------------------------------------------------------
  // What a valid design is

  predicate ValidPosition(p: Position) {
    0.0 <= p.x <= MaxCoordinateMm && 0.0 <= p.y <= MaxCoordinateMm
  }

  predicate ValidSize(s: Size) {
    0.0 < s.width <= MaxExtentMm && 0.0 < s.height <= MaxExtentMm
  }

  predicate ValidCard(c: CardDimensions) {
    c.width == CardWidthMm && c.height == CardHeightMm && Colour.IsHexColor(c.backgroundColor)
  }

  predicate ValidElement(e: Element) {
    match e
    case TextElement(content, _, fontSize, color, position) =>
      1 <= |content| <= MaxContentLength && MinFontSize <= fontSize <= MaxFontSize
      && Colour.IsHexColor(color) && ValidPosition(position)
    case DecorativeElement(_, position, size, color) =>
      ValidPosition(position) && ValidSize(size) && Colour.IsHexColor(color)
    case ImageElement(_, position, size) =>
      ValidPosition(position) && ValidSize(size)
  }

  function TextCount(es: seq<Element>): (n: nat)
    ensures n <= |es|
  {
    if |es| == 0 then 0 else (if es[0].TextElement? then 1 else 0) + TextCount(es[1..])
  }

  function DecorativeCount(es: seq<Element>): (n: nat)
    ensures n <= |es|
  {
    if |es| == 0 then 0 else (if es[0].DecorativeElement? then 1 else 0) + DecorativeCount(es[1..])
  }

  predicate CountsValid(es: seq<Element>) {
    MinElements <= |es| <= MaxElements
    && MinTextElements <= TextCount(es) <= MaxTextElements
    && DecorativeCount(es) <= MaxDecorativeElements
  }

  predicate ValidDesign(d: CardDesign) {
    ValidCard(d.card)
    && (forall i :: 0 <= i < |d.elements| ==> ValidElement(d.elements[i]))
    && CountsValid(d.elements)
  }

  // ---------------------------------------------------------------------------
  // Reading fields of a mapping

  /** A `float` field: the schema library takes an int or a float. */
  function AsReal(j: Json): Option<real> {
    match j
    case JInt(i) => Some(i as real)
    case JFloat(r) => Some(r)
    case _ => None
  }

  function RealField(m: map<string, Json>, key: string): Option<real> {
    if key in m then AsReal(m[key]) else None
  }

  function IntField(m: map<string, Json>, key: string): Option<int> {
    if key in m && m[key].JInt? then Some(m[key].i) else None
  }

  function StringField(m: map<string, Json>, key: string): Option<string> {
    if key in m && m[key].JStr? then Some(m[key].s) else None
  }

  /** The name of a field, if its check failed. */
  function Check(name: string, ok: bool): seq<string> {
    if ok then [] else [name]
  }

  /** `Position`: x and y in [0, 200]. */
  function ParsePosition(j: Json): (r: Option<Position>)
    ensures r.Some? ==> ValidPosition(r.value)
    ensures r.Some? ==> j.JObject? && RealField(j.fields, "x") == Some(r.value.x)
                        && RealField(j.fields, "y") == Some(r.value.y)
  {
    if !j.JObject? then None
    else
      var x := RealField(j.fields, "x");
      var y := RealField(j.fields, "y");
      if x.Some? && y.Some? && ValidPosition(Position(x.value, y.value)) then
        Some(Position(x.value, y.value))
      else None
  }

  /** `Size`: width and height in (0, 100]. */
  function ParseSize(j: Json): (r: Option<Size>)
    ensures r.Some? ==> ValidSize(r.value)
    ensures r.Some? ==> j.JObject? && RealField(j.fields, "width") == Some(r.value.width)
                        && RealField(j.fields, "height") == Some(r.value.height)
  {
    if !j.JObject? then None
    else
      var w := RealField(j.fields, "width");
      var h := RealField(j.fields, "height");
      if w.Some? && h.Some? && ValidSize(Size(w.value, h.value)) then Some(Size(w.value, h.value))
      else None
  }

  function PositionField(m: map<string, Json>): Option<Position> {
    if "position" in m then ParsePosition(m["position"]) else None
  }

  function SizeField(m: map<string, Json>): Option<Size> {
    if "size" in m then ParseSize(m["size"]) else None
  }

  function ColorField(m: map<string, Json>, key: string): (r: Option<string>)
    ensures r.Some? ==> Colour.IsHexColor(r.value) && StringField(m, key) == r
  {
    var c := StringField(m, key);
    if c.Some? && Colour.IsHexColor(c.value) then c else None
  }

  // ---------------------------------------------------------------------------
  // The three element models

  /** `TextElement(**element)`. */
  function ParseText(m: map<string, Json>): (r: Result<Element, seq<string>>)
    ensures r.Ok? ==> r.value.TextElement? && ValidElement(r.value)
    ensures r.Ok? ==> StringField(m, "content") == Some(r.value.content)
                      && StringField(m, "font") == Some(FontName(r.value.font))
                      && IntField(m, "fontSize") == Some(r.value.fontSize)
                      && StringField(m, "color") == Some(r.value.color)
                      && PositionField(m) == Some(r.value.position)
    ensures r.Err? ==> |r.error| > 0
  {
    var content := StringField(m, "content");
    var contentOk := content.Some? && 1 <= |content.value| <= MaxContentLength;
    var fontName := StringField(m, "font");
    var font := if fontName.Some? then ParseFont(fontName.value) else None;
    var fontSize := IntField(m, "fontSize");
    var fontSizeOk := fontSize.Some? && MinFontSize <= fontSize.value <= MaxFontSize;
    var color := ColorField(m, "color");
    var position := PositionField(m);
    var failed := Check("content", contentOk) + Check("font", font.Some?)
                  + Check("fontSize", fontSizeOk) + Check("color", color.Some?)
                  + Check("position", position.Some?);
    if failed == [] then
      Ok(TextElement(content.value, font.value, fontSize.value, color.value, position.value))
    else Err(failed)
  }

  /** `DecorativeElement(**element)`. */
  function ParseDecorative(m: map<string, Json>): (r: Result<Element, seq<string>>)
    ensures r.Ok? ==> r.value.DecorativeElement? && ValidElement(r.value)
    ensures r.Ok? ==> StringField(m, "content") == Some(MotifName(r.value.motif))
                      && PositionField(m) == Some(r.value.position)
                      && SizeField(m) == Some(r.value.size)
                      && StringField(m, "color") == Some(r.value.color)
    ensures r.Err? ==> |r.error| > 0
  {
    var name := StringField(m, "content");
    var motif := if name.Some? then ParseMotif(name.value) else None;
    var position := PositionField(m);
    var size := SizeField(m);
    var color := ColorField(m, "color");
    var failed := Check("content", motif.Some?) + Check("position", position.Some?)
                  + Check("size", size.Some?) + Check("color", color.Some?);
    if failed == [] then Ok(DecorativeElement(motif.value, position.value, size.value, color.value))
    else Err(failed)
  }

  /** `ImageElement(**element)`. */
  function ParseImage(m: map<string, Json>): (r: Result<Element, seq<string>>)
    ensures r.Ok? ==> r.value.ImageElement? && ValidElement(r.value)
    ensures r.Ok? ==> StringField(m, "src") == Some(r.value.src)
                      && PositionField(m) == Some(r.value.position)
                      && SizeField(m) == Some(r.value.size)
    ensures r.Err? ==> |r.error| > 0
  {
    var src := StringField(m, "src");
    var position := PositionField(m);
    var size := SizeField(m);
    var failed := Check("src", src.Some?) + Check("position", position.Some?) + Check("size", size.Some?);
    if failed == [] then Ok(ImageElement(src.value, position.value, size.value)) else Err(failed)
  }

  /** The `type` tag of an element, `None` when absent. */
  function TagOf(j: Json): Json {
    if j.JObject? then GetOr(j.fields, "type", JNull) else JNull
  }

  /** One iteration of the element loop: dispatch on the `type` tag. */
  function ParseElement(j: Json, index: nat): (r: Result<Element, Violation>)
    ensures r.Ok? ==> TagOf(j) == JStr(KindTag(r.value))
    ensures r.Err? ==> ViolationIndex(r.error) == Some(index)
    ensures r.Err? ==> j.JObject? || r.error == ElementNotAMapping(index)
  {
    if !j.JObject? then Err(ElementNotAMapping(index))
    else
      var tag := TagOf(j);
      if tag == JStr("text") then
        match ParseText(j.fields)
        case Ok(e) => Ok(e)
        case Err(fields) => Err(InvalidElement(index, TextKind, fields))
      else if tag == JStr("decorative") then
        match ParseDecorative(j.fields)
        case Ok(e) => Ok(e)
        case Err(fields) => Err(InvalidElement(index, DecorativeKind, fields))
      else if tag == JStr("image") then
        match ParseImage(j.fields)
        case Ok(e) => Ok(e)
        case Err(fields) => Err(InvalidElement(index, ImageKind, fields))
      else Err(UnknownElementType(index, tag))
  }

  /** Every element the dispatch accepts satisfies the schema's field constraints. */
  lemma ParsedElementIsValid(j: Json, index: nat)
    ensures ParseElement(j, index).Ok? ==> ValidElement(ParseElement(j, index).value)
  {
  }

  lemma ParsedElementsAreValid(raw: seq<Json>)
    requires ParseElements(raw, 0).Ok?
    ensures forall k :: 0 <= k < |ParseElements(raw, 0).value| ==> ValidElement(ParseElements(raw, 0).value[k])
  {
    var es := ParseElements(raw, 0).value;
    forall k | 0 <= k < |es|
      ensures ValidElement(es[k])
    {
      assert ParseElement(raw[0 + k], 0 + k) == Ok(es[k]);
      ParsedElementIsValid(raw[k], k);
    }
  }

  /** The element loop from index `i` on: the first element that does not parse stops it. */
  function ParseElements(raw: seq<Json>, i: nat): (r: Result<seq<Element>, Violation>)
    requires i <= |raw|
    ensures r.Ok? ==> |r.value| == |raw| - i
                      && forall k :: 0 <= k < |r.value| ==> ParseElement(raw[i + k], i + k) == Ok(r.value[k])
    ensures r.Err? ==> ViolationIndex(r.error).Some? && i <= ViolationIndex(r.error).value < |raw|
  {
    var r := ElementLoop.ParseEach(ParseElement, raw, i);
    if r.Ok? then r
    else
      ElementLoop.FailureOfSomeItem(ParseElement, raw, i);
      r
  }

  /** `CardDimensions`: width and height default to the A6 values and must equal them. */
  function ParseCard(j: Json): (r: Result<CardDimensions, seq<string>>)
    ensures r.Ok? ==> ValidCard(r.value)
    ensures r.Ok? ==> j.JObject? && StringField(j.fields, "backgroundColor") == Some(r.value.backgroundColor)
    ensures j.JObject? && "width" in j.fields && AsReal(j.fields["width"]) != Some(CardWidthMm) ==> r.Err?
    ensures j.JObject? && "height" in j.fields && AsReal(j.fields["height"]) != Some(CardHeightMm) ==> r.Err?
    ensures r.Err? ==> |r.error| > 0
  {
    if !j.JObject? then Err(["card"])
    else
      var m := j.fields;
      var width := if "width" in m then AsReal(m["width"]) else Some(CardWidthMm);
      var height := if "height" in m then AsReal(m["height"]) else Some(CardHeightMm);
      var background := ColorField(m, "backgroundColor");
      var failed := Check("width", width == Some(CardWidthMm)) + Check("height", height == Some(CardHeightMm))
                    + Check("backgroundColor", background.Some?);
      if failed == [] then Ok(CardDimensions(width.value, height.value, background.value))
      else Err(failed)
  }

  /** The list length bounds, then `validate_elements`' count checks, first failure wins. */
  function CountCheck(es: seq<Element>): (r: Option<CountViolation>)
    ensures r.None? <==> CountsValid(es)
  {
    if |es| < MinElements then Some(TooFewElements)
    else if |es| > MaxElements then Some(TooManyElements)
    else if TextCount(es) < MinTextElements then Some(TooFewText)
    else if TextCount(es) > MaxTextElements then Some(TooManyText)
    else if DecorativeCount(es) > MaxDecorativeElements then Some(TooManyDecorative)
    else None
  }

  /** The document without its internal metadata keys (those starting with `_`). */
  function StripMetadata(m: map<string, Json>): (clean: map<string, Json>)
    ensures forall k :: k in clean <==> k in m && !Text.StartsWith(k, "_")
    ensures forall k :: k in clean ==> clean[k] == m[k]
  {
    map k | k in m && !Text.StartsWith(k, "_") :: m[k]
  }

  /** The `elements` value of a cleaned document; an empty list when absent. */
  function ElementsValue(clean: map<string, Json>): Json {
    GetOr(clean, "elements", JArray([]))
  }

  /** The `card` value of a cleaned document; `None` when absent. */
  function CardValue(clean: map<string, Json>): Json {
    GetOr(clean, "card", JNull)
  }

  /** `validate_card_design`, returning the parsed design in place of `True`. Elements are
      parsed in order and the first bad one is reported; only when all of them parse are
      the card and the element counts checked. */
  function Validate(doc: Json): (r: Result<CardDesign, Violation>)
    ensures r.Ok? ==> ValidDesign(r.value)
    ensures !doc.JObject? ==> r == Err(NotAMapping)
    ensures r.Err? && r.error.InvalidDesign? ==>
              doc.JObject? && Iterate(ElementsValue(StripMetadata(doc.fields))).Items?
              && ParseElements(Iterate(ElementsValue(StripMetadata(doc.fields))).items, 0).Ok?
  {
    if !doc.JObject? then Err(NotAMapping)
    else
      var clean := StripMetadata(doc.fields);
      match Iterate(ElementsValue(clean))
      case NotIterable => Err(ElementsNotIterable)
      case FirstNotMapping => Err(ElementNotAMapping(0))
      case Items(raw) =>
        match ParseElements(raw, 0)
        case Err(v) => Err(v)
        case Ok(elements) =>
          ParsedElementsAreValid(raw);
          var card := ParseCard(CardValue(clean));
          var count := CountCheck(elements);
          if card.Ok? && count.None? then Ok(CardDesign(card.value, elements))
          else Err(InvalidDesign(if card.Err? then card.error else [], count))
  }

  /** `str(tag)` in an f-string for the `type` values whose text is fixed: `None`, the two
      booleans, integers and strings. A float, list or mapping is written `<value>`. */
  function TagText(tag: Json): string {
    match tag
    case JNull => "None"
    case JBool(b) => if b then "True" else "False"
    case JInt(i) => if i < 0 then "-" + Text.NatToString(-i) else Text.NatToString(i)
    case JStr(s) => s
    case _ => "<value>"
  }

  /** The prefix of the unknown-type message, up to and including the index and `: `. */
  function UnknownTypeLead(i: nat): string {
    "Unknown element type at index " + Text.NatToString(i) + ": "
  }

  /** The failing field names, separated by `, `. */
  function FieldNames(fields: seq<string>): string
    decreases |fields|
  {
    if |fields| == 0 then ""
    else if |fields| == 1 then fields[0]
    else fields[0] + ", " + FieldNames(fields[1..])
  }

  /** The message of `validate_elements`' count check that failed. */
  function CountMessage(c: CountViolation): string {
    match c
    case TooFewElements => "Card must have at least one element"
    case TooManyElements => "Card must have at most 10 elements"
    case TooFewText => "Card must have at least 2 text elements"
    case TooManyText => "Card must have at most 5 text elements"
    case TooManyDecorative => "Card must have at most 2 decorative elements"
  }

  /** A readable reason for a violation: where it is, and the names of the failing fields. */
  function Describe(v: Violation): (s: string)
    ensures |s| > 0
  {
    match v
    case NotAMapping => "the design is not a mapping"
    case ElementsNotIterable => "elements is not a list"
    case ElementNotAMapping(i) => "element at index " + Text.NatToString(i) + " is not a mapping"
    case UnknownElementType(i, tag) => UnknownTypeLead(i) + TagText(tag)
    case InvalidElement(i, _, fields) => "invalid element at index " + Text.NatToString(i) + ": " + FieldNames(fields)
    case InvalidDesign(fields, Some(c)) =>
      CountMessage(c) + (if fields == [] then "" else "; invalid card: " + FieldNames(fields))
    case InvalidDesign(fields, None) => "invalid card: " + FieldNames(fields)
  }

  /** `validate_card_design` as the caller sees it: `True`, or one error whose message
      starts with the fixed prefix. */
  function ValidateCardDesign(doc: Json): (r: Result<bool, string>)
    ensures r.Ok? <==> Validate(doc).Ok?
    ensures r.Ok? ==> r.value
    ensures r.Err? ==> Text.StartsWith(r.error, FailurePrefix) && |r.error| > |FailurePrefix|
  {
    match Validate(doc)
    case Ok(_) => Ok(true)
    case Err(v) =>
      var msg := FailurePrefix + Describe(v);
      assert msg[..|FailurePrefix|] == FailurePrefix;
      Err(msg)
  }

  /** `get_schema_example()`. */
  function SchemaExample(): Json {
    JObject(map[
      "card" := JObject(map[
        "width" := JInt(148),
        "height" := JInt(105),
        "backgroundColor" := JStr("#F5F3F0")]),
      "elements" := JArray([
        JObject(map[
          "type" := JStr("text"),
          "content" := JStr("Einladung zur Hochzeit"),
          "font" := JStr("Serif"),
          "fontSize" := JInt(24),
          "color" := JStr("#4A4A4A"),
          "position" := JObject(map["x" := JInt(10), "y" := JInt(15)])]),
        JObject(map[
          "type" := JStr("text"),
          "content" := JStr("Anna & Markus"),
          "font" := JStr("Script"),
          "fontSize" := JInt(36),
          "color" := JStr("#C5A48A"),
          "position" := JObject(map["x" := JInt(10), "y" := JInt(40)])]),
        JObject(map[
          "type" := JStr("decorative"),
          "content" := JStr("heart-line"),
          "position" := JObject(map["x" := JInt(60), "y" := JInt(75)]),
          "size" := JObject(map["width" := JInt(25), "height" := JInt(8)]),
          "color" := JStr("#C5A48A")])])])
  }
}

=== FILE: schema_props.dfy ===
/** Properties of the card-design validator: what it accepts is exactly the valid designs
    (soundness is `Validate`'s own postcondition, completeness is the encode/validate round
    trip below), metadata keys do not matter, elements are checked in order with the first
    bad one reported, and the count rules are only applied once every element has parsed. */
module SchemaProperties {
  import opened Wrappers
  import opened Json
  import Text
  import Colour
  import opened Schema
  import ElementLoop

  // ---------------------------------------------------------------------------
  // Writing a typed design back as a document

  function EncodePosition(p: Position): Json {
    JObject(map["x" := JFloat(p.x), "y" := JFloat(p.y)])
  }

  function EncodeSize(s: Size): Json {
    JObject(map["width" := JFloat(s.width), "height" := JFloat(s.height)])
  }

  function EncodeElement(e: Element): Json {
    match e
    case TextElement(content, font, fontSize, color, position) =>
      JObject(map[
        "type" := JStr("text"),
        "content" := JStr(content),
        "font" := JStr(FontName(font)),
        "fontSize" := JInt(fontSize),
        "color" := JStr(color),
        "position" := EncodePosition(position)])
    case DecorativeElement(motif, position, size, color) =>
      JObject(map[
        "type" := JStr("decorative"),
        "content" := JStr(MotifName(motif)),
        "position" := EncodePosition(position),
        "size" := EncodeSize(size),
        "color" := JStr(color)])
    case ImageElement(src, position, size) =>
      JObject(map[
        "type" := JStr("image"),
        "src" := JStr(src),
        "position" := EncodePosition(position),
        "size" := EncodeSize(size)])
  }

  function EncodeElements(es: seq<Element>): (r: seq<Json>)
    ensures |r| == |es|
    ensures forall i :: 0 <= i < |es| ==> r[i] == EncodeElement(es[i])
  {
    seq(|es|, i requires 0 <= i < |es| => EncodeElement(es[i]))
  }

  function EncodeCard(c: CardDimensions): Json {
    JObject(map[
      "width" := JFloat(c.width),
      "height" := JFloat(c.height),
      "backgroundColor" := JStr(c.backgroundColor)])
  }

  function EncodeDesign(d: CardDesign): Json {
    JObject(map["card" := EncodeCard(d.card), "elements" := JArray(EncodeElements(d.elements))])
  }

  // ---------------------------------------------------------------------------
  // Completeness: every valid design is accepted, and parsed back to itself

  lemma PositionRoundTrip(p: Position)
    requires ValidPosition(p)
    ensures ParsePosition(EncodePosition(p)) == Some(p)
  {
    var m := EncodePosition(p).fields;
    assert RealField(m, "x") == Some(p.x);
    assert RealField(m, "y") == Some(p.y);
  }

  lemma SizeRoundTrip(s: Size)
    requires ValidSize(s)
    ensures ParseSize(EncodeSize(s)) == Some(s)
  {
    var m := EncodeSize(s).fields;
    assert RealField(m, "width") == Some(s.width);
    assert RealField(m, "height") == Some(s.height);
  }

  /** A valid element written as a document parses back to itself, at any index. */
  lemma ElementRoundTrip(e: Element, index: nat)
    requires ValidElement(e)
    ensures ParseElement(EncodeElement(e), index) == Ok(e)
  {
    match e
    case TextElement(_, _, _, _, _) => TextRoundTrip(e);
    case DecorativeElement(_, _, _, _) => DecorativeRoundTrip(e);
    case ImageElement(_, _, _) => ImageRoundTrip(e);
  }

  lemma TextRoundTrip(e: Element)
    requires e.TextElement? && ValidElement(e)
    ensures TagOf(EncodeElement(e)) == JStr("text") && ParseText(EncodeElement(e).fields) == Ok(e)
  {
    var m := EncodeElement(e).fields;
    PositionRoundTrip(e.position);
    assert StringField(m, "content") == Some(e.content);
    assert StringField(m, "font") == Some(FontName(e.font));
    assert ParseFont(FontName(e.font)) == Some(e.font);
    assert IntField(m, "fontSize") == Some(e.fontSize);
    assert ColorField(m, "color") == Some(e.color);
    assert PositionField(m) == Some(e.position);
  }

  lemma DecorativeRoundTrip(e: Element)
    requires e.DecorativeElement? && ValidElement(e)
    ensures TagOf(EncodeElement(e)) == JStr("decorative") && ParseDecorative(EncodeElement(e).fields) == Ok(e)
  {
    var m := EncodeElement(e).fields;
    PositionRoundTrip(e.position);
    SizeRoundTrip(e.size);
    assert StringField(m, "content") == Some(MotifName(e.motif));
    assert ParseMotif(MotifName(e.motif)) == Some(e.motif);
    assert PositionField(m) == Some(e.position);
    assert SizeField(m) == Some(e.size);
    assert ColorField(m, "color") == Some(e.color);
  }

  lemma ImageRoundTrip(e: Element)
    requires e.ImageElement? && ValidElement(e)
    ensures TagOf(EncodeElement(e)) == JStr("image") && ParseImage(EncodeElement(e).fields) == Ok(e)
  {
    var m := EncodeElement(e).fields;
    PositionRoundTrip(e.position);
    SizeRoundTrip(e.size);
    assert StringField(m, "src") == Some(e.src);
    assert PositionField(m) == Some(e.position);
    assert SizeField(m) == Some(e.size);
  }

  lemma ElementsRoundTrip(es: seq<Element>, i: nat)
    requires i <= |es|
    requires forall k :: 0 <= k < |es| ==> ValidElement(es[k])
    ensures ParseElements(EncodeElements(es), i) == Ok(es[i..])
  {
    var raw := EncodeElements(es);
    forall k | 0 <= k < |raw|
      ensures ParseElement(raw[k], k) == Ok(es[k])
    {
      ElementRoundTrip(es[k], k);
    }
    ParseEachFrom(raw, es, i);
  }

  lemma CardRoundTrip(c: CardDimensions)
    requires ValidCard(c)
    ensures ParseCard(EncodeCard(c)) == Ok(c)
  {
    var m := EncodeCard(c).fields;
    assert ColorField(m, "backgroundColor") == Some(c.backgroundColor);
  }

  /** Every valid design, written as a document, is accepted and parsed back to itself:
      the validator rejects nothing the schema allows. */
  lemma ValidateRoundTrip(d: CardDesign)
    requires ValidDesign(d)
    ensures Validate(EncodeDesign(d)) == Ok(d)
  {
    var doc := EncodeDesign(d);
    var clean := StripMetadata(doc.fields);
    assert !Text.StartsWith("elements", "_") by { assert "elements"[..1] == "e"; }
    assert !Text.StartsWith("card", "_") by { assert "card"[..1] == "c"; }
    assert "elements" in clean && "card" in clean;
    assert ElementsValue(clean) == JArray(EncodeElements(d.elements));
    assert CardValue(clean) == EncodeCard(d.card);
    ElementsRoundTrip(d.elements, 0);
    assert d.elements[0..] == d.elements;
    assert Iterate(ElementsValue(clean)) == Items(EncodeElements(d.elements));
    assert ParseElements(EncodeElements(d.elements), 0) == Ok(d.elements);
    CardRoundTrip(d.card);
    assert ParseCard(CardValue(clean)) == Ok(d.card);
    assert CountCheck(d.elements).None?;
  }

  /** What the validator accepts it accepts again once written back: acceptance depends only
      on the parsed design. */
  lemma ValidateIdempotent(doc: Json)
    requires Validate(doc).Ok?
    ensures Validate(EncodeDesign(Validate(doc).value)) == Validate(doc)
  {
    ValidateRoundTrip(Validate(doc).value);
  }

  // ---------------------------------------------------------------------------
  // Metadata keys

  /** Adding or changing a key that starts with `_` never changes the verdict or the result. */
  lemma MetadataIgnored(m: map<string, Json>, key: string, value: Json)
    requires Text.StartsWith(key, "_")
    ensures Validate(JObject(m[key := value])) == Validate(JObject(m))
  {
    assert StripMetadata(m[key := value]) == StripMetadata(m);
  }

  /** The metadata the card generator attaches (`_design_brief`, `_source_images_count`)
      does not affect validation. */
  lemma GeneratorMetadataIgnored(m: map<string, Json>, brief: Json, count: int)
    ensures Validate(JObject(m["_design_brief" := brief]["_source_images_count" := JInt(count)]))
            == Validate(JObject(m))
  {
    MetadataIgnored(m["_design_brief" := brief], "_source_images_count", JInt(count));
    MetadataIgnored(m, "_design_brief", brief);
  }

  // ---------------------------------------------------------------------------
  // Order of the checks

  /** `elements` as the Python loop sees it, when it is a list. */
  function ElementList(doc: Json): Option<seq<Json>> {
    if doc.JObject? && "elements" in doc.fields && doc.fields["elements"].JArray? then
      Some(doc.fields["elements"].items)
    else None
  }

  lemma ElementListAfterStripping(doc: Json)
    requires doc.JObject?
    ensures ElementList(doc).Some? ==>
              Iterate(ElementsValue(StripMetadata(doc.fields))) == Items(ElementList(doc).value)
    ensures Iterate(ElementsValue(StripMetadata(doc.fields))).Items? && ElementList(doc).None? ==>
              Iterate(ElementsValue(StripMetadata(doc.fields))).items == []
  {
    assert !Text.StartsWith("elements", "_") by { assert "elements"[..1] == "e"; }
  }

  /** When element `k` is the first one that does not parse, the validator reports exactly
      its violation, whatever else is wrong with the document. */
  lemma FirstBadElementReported(doc: Json, k: nat)
    requires ElementList(doc).Some? && k < |ElementList(doc).value|
    requires ParseElement(ElementList(doc).value[k], k).Err?
    requires forall j :: 0 <= j < k ==> ParseElement(ElementList(doc).value[j], j).Ok?
    ensures Validate(doc) == Err(ParseElement(ElementList(doc).value[k], k).error)
  {
    ElementListAfterStripping(doc);
    ElementLoop.StopsAtFirstFailure(ParseElement, ElementList(doc).value, 0, k);
  }

  /** Conversely, a violation naming an element index names the first element that does
      not parse; every element before it parsed. */
  lemma ReportedElementIsFirstBad(doc: Json)
    requires ElementList(doc).Some?
    requires Validate(doc).Err? && ViolationIndex(Validate(doc).error).Some?
    ensures var raw := ElementList(doc).value;
            var k := ViolationIndex(Validate(doc).error).value;
            k < |raw| && ParseElement(raw[k], k) == Err(Validate(doc).error)
            && forall j :: 0 <= j < k ==> ParseElement(raw[j], j).Ok?
  {
    ElementListAfterStripping(doc);
    var raw := ElementList(doc).value;
    if ParseElements(raw, 0).Err? {
      var k := ElementLoop.FailsAtFirstFailure(ParseElement, raw, 0);
      assert ViolationIndex(ParseElement(raw[k], k).error) == Some(k);
    }
  }

  /** The count rules and the card are only examined once every element has parsed. */
  lemma CountsCheckedAfterElements(doc: Json)
    requires Validate(doc).Err? && Validate(doc).error.InvalidDesign?
    ensures doc.JObject?
    ensures var it := Iterate(ElementsValue(StripMetadata(doc.fields)));
            it.Items? && forall k :: 0 <= k < |it.items| ==> ParseElement(it.items[k], k).Ok?
  {
    var raw := Iterate(ElementsValue(StripMetadata(doc.fields))).items;
    var r := ParseElements(raw, 0);
    forall k | 0 <= k < |raw|
      ensures ParseElement(raw[k], k).Ok?
    {
      assert ParseElement(raw[0 + k], 0 + k) == Ok(r.value[k]);
    }
  }

  /** An element is reported as having an unknown type exactly when it is a mapping whose
      tag is none of `text`, `decorative` and `image`. */
  lemma UnknownTagIff(j: Json, index: nat)
    ensures var r := ParseElement(j, index);
            r.Err? && r.error.UnknownElementType? <==>
              j.JObject? && TagOf(j) !in {JStr("text"), JStr("decorative"), JStr("image")}
    ensures var r := ParseElement(j, index);
            r.Err? && r.error.UnknownElementType? ==> r.error == UnknownElementType(index, TagOf(j))
  {
  }

  /** An unrecognised `type` tag fails, naming the element's index. */
  lemma UnknownTagNamesIndex(doc: Json, k: nat)
    requires ElementList(doc).Some? && k < |ElementList(doc).value|
    requires var e := ElementList(doc).value[k];
             e.JObject? && TagOf(e) !in {JStr("text"), JStr("decorative"), JStr("image")}
    requires forall j :: 0 <= j < k ==> ParseElement(ElementList(doc).value[j], j).Ok?
    ensures Validate(doc) == Err(UnknownElementType(k, TagOf(ElementList(doc).value[k])))
    ensures ValidateCardDesign(doc)
            == Err(FailurePrefix + UnknownTypeLead(k) + TagText(TagOf(ElementList(doc).value[k])))
  {
    UnknownTagIff(ElementList(doc).value[k], k);
    FirstBadElementReported(doc, k);
    var lead, tag := UnknownTypeLead(k), TagText(TagOf(ElementList(doc).value[k]));
    assert FailurePrefix + (lead + tag) == FailurePrefix + lead + tag;
  }

  /** The unknown-type message is the lead naming the index, then the tag as Python writes it:
      a string tag as itself, a missing tag as `None`. */
  lemma UnknownTypeMessageEndsWithTag(i: nat, tag: Json)
    requires tag.JStr? || tag.JNull?
    ensures var msg := Describe(UnknownElementType(i, tag));
            var text := if tag.JStr? then tag.s else "None";
            Text.StartsWith(msg, UnknownTypeLead(i)) && Text.EndsWith(msg, text)
  {
    var text := if tag.JStr? then tag.s else "None";
    assert TagText(tag) == text;
    Text.JoinedEnds(UnknownTypeLead(i), text);
  }

  /** Every field name in the list appears in its joined text. */
  lemma {:induction false} FieldNamesNameEach(fields: seq<string>)
    ensures forall f :: f in fields ==> Text.Contains(FieldNames(fields), f)
    decreases |fields|
  {
    if |fields| == 1 {
      assert fields[0] + "" == fields[0];
      Text.ContainsOwnPrefix(fields[0], "");
    } else if |fields| > 1 {
      var rest := FieldNames(fields[1..]);
      FieldNamesNameEach(fields[1..]);
      assert FieldNames(fields) == fields[0] + (", " + rest);
      forall f | f in fields
        ensures Text.Contains(FieldNames(fields), f)
      {
        if f == fields[0] {
          Text.ContainsOwnPrefix(f, ", " + rest);
        } else {
          assert f in fields[1..];
          Text.ContainsExtendLeft(fields[0] + ", ", rest, f);
          assert fields[0] + ", " + rest == fields[0] + (", " + rest);
        }
      }
    }
  }

  /** The message of a rejected element or card names every field that failed. */
  lemma DescribeNamesFields(v: Violation)
    requires v.InvalidElement? || v.InvalidDesign?
    ensures var fields := if v.InvalidElement? then v.fields else v.cardFields;
            forall f :: f in fields ==> Text.Contains(Describe(v), f)
  {
    var fields := if v.InvalidElement? then v.fields else v.cardFields;
    var names := FieldNames(fields);
    FieldNamesNameEach(fields);
    var lead := if v.InvalidElement? then "invalid element at index " + Text.NatToString(v.index) + ": "
                else if v.count.None? then "invalid card: "
                else CountMessage(v.count.value) + "; invalid card: ";
    if fields != [] {
      assert Describe(v) == lead + names;
      forall f | f in fields
        ensures Text.Contains(Describe(v), f)
      {
        Text.ContainsExtendLeft(lead, names, f);
      }
    }
  }

  // ---------------------------------------------------------------------------
  // The count rules, stated on the document itself

  /** How many items carry the given `type` tag. */
  function CountTagged(raw: seq<Json>, tag: string): (n: nat)
    ensures n <= |raw|
  {
    if |raw| == 0 then 0 else (if TagOf(raw[0]) == JStr(tag) then 1 else 0) + CountTagged(raw[1..], tag)
  }

  /** Counting the parsed elements by kind is counting the raw items by tag. */
  lemma CountsFollowTags(raw: seq<Json>, es: seq<Element>)
    requires ParseElements(raw, 0) == Ok(es)
    ensures TextCount(es) == CountTagged(raw, "text")
    ensures DecorativeCount(es) == CountTagged(raw, "decorative")
  {
    forall k | 0 <= k < |es|
      ensures TagOf(raw[0 + k]) == JStr(KindTag(es[k]))
    {
      assert ParseElement(raw[0 + k], 0 + k) == Ok(es[k]);
    }
    CountsFollowTagsFrom(raw, es, 0);
    assert raw[0..] == raw;
  }

  lemma {:induction false} CountsFollowTagsFrom(raw: seq<Json>, es: seq<Element>, i: nat)
    requires i <= |raw| && |es| == |raw| - i
    requires forall k :: 0 <= k < |es| ==> TagOf(raw[i + k]) == JStr(KindTag(es[k]))
    ensures TextCount(es) == CountTagged(raw[i..], "text")
    ensures DecorativeCount(es) == CountTagged(raw[i..], "decorative")
    decreases |es|
  {
    if |es| > 0 {
      assert TagOf(raw[i + 0]) == JStr(KindTag(es[0]));
      assert raw[i..][0] == raw[i];
      assert raw[i..][1..] == raw[i + 1..];
      forall k | 0 <= k < |es[1..]|
        ensures TagOf(raw[i + 1 + k]) == JStr(KindTag(es[1..][k]))
      {
        assert TagOf(raw[i + (k + 1)]) == JStr(KindTag(es[k + 1]));
      }
      CountsFollowTagsFrom(raw, es[1..], i + 1);
    }
  }

  /** An accepted document has a list of 1 to 10 elements, of which 2 to 5 are tagged
      `text` and at most 2 are tagged `decorative`; any other document is rejected. */
  lemma AcceptedDocumentCounts(doc: Json)
    requires Validate(doc).Ok?
    ensures ElementList(doc).Some?
    ensures var raw := ElementList(doc).value;
            && 1 <= |raw| <= 10
            && 2 <= CountTagged(raw, "text") <= 5
            && CountTagged(raw, "decorative") <= 2
  {
    ElementListAfterStripping(doc);
    var raw := Iterate(ElementsValue(StripMetadata(doc.fields))).items;
    var es := Validate(doc).value.elements;
    assert ParseElements(raw, 0) == Ok(es);
    CountsFollowTags(raw, es);
  }

  /** A card whose width or height is given and is not exactly 148 x 105 is rejected. */
  lemma WrongCardSizeRejected(doc: Json)
    requires doc.JObject? && "card" in doc.fields && doc.fields["card"].JObject?
    requires var c := doc.fields["card"].fields;
             ("width" in c && AsReal(c["width"]) != Some(CardWidthMm))
             || ("height" in c && AsReal(c["height"]) != Some(CardHeightMm))
    ensures Validate(doc).Err?
  {
    assert !Text.StartsWith("card", "_") by { assert "card"[..1] == "c"; }
    assert CardValue(StripMetadata(doc.fields)) == doc.fields["card"];
  }

  /** Missing card dimensions default to exactly 148 x 105. */
  lemma CardDefaults(background: string)
    requires Colour.IsHexColor(background)
    ensures ParseCard(JObject(map["backgroundColor" := JStr(background)]))
            == Ok(CardDimensions(148.0, 105.0, background))
  {
    var m := map["backgroundColor" := JStr(background)];
    assert ColorField(m, "backgroundColor") == Some(background);
  }

  // ---------------------------------------------------------------------------
  // The schema example and the validation test scenarios

  function CardJson(): Json {
    JObject(map["width" := JInt(148), "height" := JInt(105), "backgroundColor" := JStr("#F5F3F0")])
  }

  function TextJson(content: string, font: string, fontSize: int, color: string, y: int): Json {
    JObject(map[
      "type" := JStr("text"),
      "content" := JStr(content),
      "font" := JStr(font),
      "fontSize" := JInt(fontSize),
      "color" := JStr(color),
      "position" := JObject(map["x" := JInt(10), "y" := JInt(y)])])
  }

  function DesignJson(elements: seq<Json>): Json {
    JObject(map["card" := CardJson(), "elements" := JArray(elements)])
  }

  /** What a test document's text element yields: the fields that fail, in declaration order. */
  function TextFailures(content: string, font: string, fontSize: int, color: string, y: int): seq<string> {
    Check("content", 1 <= |content| <= MaxContentLength) + Check("font", ParseFont(font).Some?)
    + Check("fontSize", MinFontSize <= fontSize <= MaxFontSize) + Check("color", Colour.IsHexColor(color))
    + Check("position", 0 <= y <= 200)
  }

  lemma TextJsonVerdict(content: string, font: string, fontSize: int, color: string, y: int, index: nat)
    ensures var failed := TextFailures(content, font, fontSize, color, y);
            ParseElement(TextJson(content, font, fontSize, color, y), index)
            == if failed == [] then
                 Ok(TextElement(content, ParseFont(font).value, fontSize, color, Position(10.0, y as real)))
               else Err(InvalidElement(index, TextKind, failed))
  {
    var j := TextJson(content, font, fontSize, color, y);
    var m := j.fields;
    assert TagOf(j) == JStr("text");
    TextDispatch(j, index);
    assert StringField(m, "content") == Some(content);
    assert StringField(m, "font") == Some(font);
    assert IntField(m, "fontSize") == Some(fontSize);
    assert StringField(m, "color") == Some(color);
    var p := m["position"];
    assert RealField(p.fields, "x") == Some(10.0);
    assert RealField(p.fields, "y") == Some(y as real);
    assert PositionField(m) == (if 0 <= y <= 200 then Some(Position(10.0, y as real)) else None);
  }

  /** A test text element whose every field is in range parses to the element it describes. */
  lemma TextJsonAccepted(content: string, font: string, f: FontFamily, fontSize: int, color: string, y: int, index: nat)
    requires 1 <= |content| <= MaxContentLength && ParseFont(font) == Some(f)
    requires MinFontSize <= fontSize <= MaxFontSize && Colour.IsHexColor(color) && 0 <= y <= 200
    ensures ParseElement(TextJson(content, font, fontSize, color, y), index)
            == Ok(TextElement(content, f, fontSize, color, Position(10.0, y as real)))
  {
    TextJsonVerdict(content, font, fontSize, color, y, index);
    assert TextFailures(content, font, fontSize, color, y) == [];
  }

  /** When every element parses, the loop from `i` returns exactly the parsed elements from `i` on. */
  lemma ParseEachFrom(raw: seq<Json>, es: seq<Element>, i: nat)
    requires |raw| == |es| && i <= |raw|
    requires forall k :: 0 <= k < |raw| ==> ParseElement(raw[k], k) == Ok(es[k])
    ensures ParseElements(raw, i) == Ok(es[i..])
  {
    ElementLoop.SucceedsWhenAllParse(ParseElement, raw, i);
    var r := ParseElements(raw, i);
    assert forall k :: 0 <= k < |r.value| ==> ParseElement(raw[i + k], i + k) == Ok(r.value[k]);
    assert forall k :: 0 <= k < |r.value| ==> r.value[k] == es[i + k];
    assert r.value == es[i..];
  }

  /** Once every element has parsed and the card has parsed, the verdict is the count rules'
      alone: the design itself when they hold, otherwise the first count rule broken. */
  lemma VerdictAfterParsing(doc: Json, es: seq<Element>, c: CardDimensions)
    requires ElementList(doc).Some? && |ElementList(doc).value| == |es|
    requires forall k :: 0 <= k < |es| ==> ParseElement(ElementList(doc).value[k], k) == Ok(es[k])
    requires "card" in doc.fields && ParseCard(doc.fields["card"]) == Ok(c)
    ensures CountsValid(es) ==> Validate(doc) == Ok(CardDesign(c, es))
    ensures !CountsValid(es) ==> Validate(doc) == Err(InvalidDesign([], CountCheck(es)))
  {
    ElementListAfterStripping(doc);
    ParseEachFrom(ElementList(doc).value, es, 0);
    assert es[0..] == es;
    assert !Text.StartsWith("card", "_") by { assert "card"[..1] == "c"; }
    assert CardValue(StripMetadata(doc.fields)) == doc.fields["card"];
  }

  lemma CardJsonParses()
    ensures ParseCard(CardJson()) == Ok(CardDimensions(148.0, 105.0, "#F5F3F0"))
  {
    var m := CardJson().fields;
    assert Colour.IsHexColor("#F5F3F0");
    assert ColorField(m, "backgroundColor") == Some("#F5F3F0");
  }

  lemma SampleColours()
    ensures Colour.IsHexColor("#4A4A4A") && Colour.IsHexColor("#C5A48A") && !Colour.IsHexColor("red")
  {
  }

  /** The two-text design of the validation tests is accepted. */
  lemma TwoTextDesignAccepted()
    ensures Validate(DesignJson([
              TextJson("Einladung zur Hochzeit", "Serif", 24, "#4A4A4A", 15),
              TextJson("Anna & Markus", "Script", 36, "#C5A48A", 40)])).Ok?
  {
    var raw := [TextJson("Einladung zur Hochzeit", "Serif", 24, "#4A4A4A", 15),
                TextJson("Anna & Markus", "Script", 36, "#C5A48A", 40)];
    var e0 := TextElement("Einladung zur Hochzeit", Serif, 24, "#4A4A4A", Position(10.0, 15.0));
    var e1 := TextElement("Anna & Markus", Script, 36, "#C5A48A", Position(10.0, 40.0));
    SampleColours();
    assert ParseFont("Serif") == Some(Serif) && ParseFont("Script") == Some(Script);
    TextJsonAccepted("Einladung zur Hochzeit", "Serif", Serif, 24, "#4A4A4A", 15, 0);
    TextJsonAccepted("Anna & Markus", "Script", Script, 36, "#C5A48A", 40, 1);
    CardJsonParses();
    assert TextCount([e0, e1]) == 2;
    TwoParse(raw, [e0, e1]);
    VerdictAfterParsing(DesignJson(raw), [e0, e1], CardDimensions(148.0, 105.0, "#F5F3F0"));
  }

  /** A font size of 100 is rejected, naming the `fontSize` field of element 0. */
  lemma FontSizeTooLargeRejected()
    ensures Validate(DesignJson([
              TextJson("Test", "Serif", 100, "#4A4A4A", 15),
              TextJson("Test 2", "Serif", 24, "#4A4A4A", 40)]))
            == Err(InvalidElement(0, TextKind, ["fontSize"]))
  {
    var raw := [TextJson("Test", "Serif", 100, "#4A4A4A", 15), TextJson("Test 2", "Serif", 24, "#4A4A4A", 40)];
    SampleColours();
    assert ParseFont("Serif") == Some(Serif);
    TextJsonVerdict("Test", "Serif", 100, "#4A4A4A", 15, 0);
    assert TextFailures("Test", "Serif", 100, "#4A4A4A", 15) == ["fontSize"];
    FirstBadElementReported(DesignJson(raw), 0);
  }

  /** The font "Comic-Sans" is rejected, naming the `font` field of element 0. */
  lemma UnknownFontRejected()
    ensures Validate(DesignJson([
              TextJson("Test", "Comic-Sans", 24, "#4A4A4A", 15),
              TextJson("Test 2", "Serif", 24, "#4A4A4A", 40)]))
            == Err(InvalidElement(0, TextKind, ["font"]))
  {
    var raw := [TextJson("Test", "Comic-Sans", 24, "#4A4A4A", 15), TextJson("Test 2", "Serif", 24, "#4A4A4A", 40)];
    SampleColours();
    assert ParseFont("Comic-Sans") == None;
    TextJsonVerdict("Test", "Comic-Sans", 24, "#4A4A4A", 15, 0);
    assert TextFailures("Test", "Comic-Sans", 24, "#4A4A4A", 15) == ["font"];
    FirstBadElementReported(DesignJson(raw), 0);
  }

  /** The colour "red" is rejected, naming the `color` field of element 0. */
  lemma ColourNameRejected()
    ensures Validate(DesignJson([
              TextJson("Test", "Serif", 24, "red", 15),
              TextJson("Test 2", "Serif", 24, "#4A4A4A", 40)]))
            == Err(InvalidElement(0, TextKind, ["color"]))
  {
    var raw := [TextJson("Test", "Serif", 24, "red", 15), TextJson("Test 2", "Serif", 24, "#4A4A4A", 40)];
    SampleColours();
    assert ParseFont("Serif") == Some(Serif);
    TextJsonVerdict("Test", "Serif", 24, "red", 15, 0);
    assert TextFailures("Test", "Serif", 24, "red", 15) == ["color"];
    FirstBadElementReported(DesignJson(raw), 0);
  }

  /** A design with a single text element is rejected by the minimum-text-count rule. */
  lemma SingleTextRejected()
    ensures Validate(DesignJson([TextJson("Test", "Serif", 24, "#4A4A4A", 15)]))
            == Err(InvalidDesign([], Some(TooFewText)))
  {
    var raw := [TextJson("Test", "Serif", 24, "#4A4A4A", 15)];
    var e0 := TextElement("Test", Serif, 24, "#4A4A4A", Position(10.0, 15.0));
    SampleColours();
    assert ParseFont("Serif") == Some(Serif);
    TextJsonVerdict("Test", "Serif", 24, "#4A4A4A", 15, 0);
    assert TextFailures("Test", "Serif", 24, "#4A4A4A", 15) == [];
    CardJsonParses();
    assert TextCount([e0]) == 1;
    VerdictAfterParsing(DesignJson(raw), [e0], CardDimensions(148.0, 105.0, "#F5F3F0"));
  }

  function DecorativeJson(content: string, x: int, y: int, w: int, h: int, color: string): Json {
    JObject(map[
      "type" := JStr("decorative"),
      "content" := JStr(content),
      "position" := JObject(map["x" := JInt(x), "y" := JInt(y)]),
      "size" := JObject(map["width" := JInt(w), "height" := JInt(h)]),
      "color" := JStr(color)])
  }

  /** A decorative element with a known motif, a hex colour and an in-range box parses. */
  lemma DecorativeJsonParses(content: string, motif: Motif, x: int, y: int, w: int, h: int, color: string, index: nat)
    requires ParseMotif(content) == Some(motif) && Colour.IsHexColor(color)
    requires 0 <= x <= 200 && 0 <= y <= 200 && 0 < w <= 100 && 0 < h <= 100
    ensures ParseElement(DecorativeJson(content, x, y, w, h, color), index)
            == Ok(DecorativeElement(motif, Position(x as real, y as real), Size(w as real, h as real), color))
  {
    var j := DecorativeJson(content, x, y, w, h, color);
    var m := j.fields;
    assert TagOf(j) == JStr("decorative");
    DecorativeDispatch(j, index);
    assert StringField(m, "content") == Some(content);
    assert ColorField(m, "color") == Some(color);
    assert RealField(m["position"].fields, "x") == Some(x as real);
    assert RealField(m["position"].fields, "y") == Some(y as real);
    assert PositionField(m) == Some(Position(x as real, y as real));
    assert RealField(m["size"].fields, "width") == Some(w as real);
    assert RealField(m["size"].fields, "height") == Some(h as real);
    assert SizeField(m) == Some(Size(w as real, h as real));
  }

  lemma ExampleDecorativeParses()
    ensures ParseElement(SchemaExample().fields["elements"].items[2], 2)
            == Ok(DecorativeElement(HeartLine, Position(60.0, 75.0), Size(25.0, 8.0), "#C5A48A"))
  {
    SampleColours();
    assert ParseMotif("heart-line") == Some(HeartLine);
    assert SchemaExample().fields["elements"].items[2] == DecorativeJson("heart-line", 60, 75, 25, 8, "#C5A48A");
    DecorativeJsonParses("heart-line", HeartLine, 60, 75, 25, 8, "#C5A48A", 2);
  }

  lemma ExampleTextsParse()
    ensures ParseElement(SchemaExample().fields["elements"].items[0], 0)
            == Ok(TextElement("Einladung zur Hochzeit", Serif, 24, "#4A4A4A", Position(10.0, 15.0)))
    ensures ParseElement(SchemaExample().fields["elements"].items[1], 1)
            == Ok(TextElement("Anna & Markus", Script, 36, "#C5A48A", Position(10.0, 40.0)))
  {
    var raw := SchemaExample().fields["elements"].items;
    SampleColours();
    assert ParseFont("Serif") == Some(Serif) && ParseFont("Script") == Some(Script);
    assert raw[0] == TextJson("Einladung zur Hochzeit", "Serif", 24, "#4A4A4A", 15);
    assert raw[1] == TextJson("Anna & Markus", "Script", 36, "#C5A48A", 40);
    TextJsonVerdict("Einladung zur Hochzeit", "Serif", 24, "#4A4A4A", 15, 0);
    TextJsonVerdict("Anna & Markus", "Script", 36, "#C5A48A", 40, 1);
    assert TextFailures("Einladung zur Hochzeit", "Serif", 24, "#4A4A4A", 15) == [];
    assert TextFailures("Anna & Markus", "Script", 36, "#C5A48A", 40) == [];
  }

  lemma TwoTextsOneMotifCounts(e0: Element, e1: Element, e2: Element)
    requires e0.TextElement? && e1.TextElement? && e2.DecorativeElement?
    ensures TextCount([e0, e1, e2]) == 2 && DecorativeCount([e0, e1, e2]) == 1
    ensures CountsValid([e0, e1, e2])
  {
    var es := [e0, e1, e2];
    assert es[1..] == [e1, e2] && es[1..][1..] == [e2] && es[1..][1..][1..] == [];
    assert TextCount([e2]) == 0 && DecorativeCount([e2]) == 1;
    assert TextCount([e1, e2]) == 1 && DecorativeCount([e1, e2]) == 1;
  }

  /** An element tagged `text` is parsed as a text element. */
  lemma TextDispatch(j: Json, index: nat)
    requires j.JObject? && TagOf(j) == JStr("text")
    ensures var r := ParseText(j.fields);
            ParseElement(j, index) == if r.Ok? then Ok(r.value) else Err(InvalidElement(index, TextKind, r.error))
  {
  }

  /** An element tagged `decorative` is parsed as a decorative element. */
  lemma DecorativeDispatch(j: Json, index: nat)
    requires j.JObject? && TagOf(j) == JStr("decorative")
    ensures var r := ParseDecorative(j.fields);
            ParseElement(j, index) == if r.Ok? then Ok(r.value) else Err(InvalidElement(index, DecorativeKind, r.error))
  {
  }

  lemma TwoParse(raw: seq<Json>, es: seq<Element>)
    requires |raw| == 2 && |es| == 2
    requires ParseElement(raw[0], 0) == Ok(es[0]) && ParseElement(raw[1], 1) == Ok(es[1])
    ensures forall k :: 0 <= k < |es| ==> ParseElement(raw[k], k) == Ok(es[k])
  {
    forall k | 0 <= k < |es|
      ensures ParseElement(raw[k], k) == Ok(es[k])
    {
      if k == 0 {
      } else {
        assert k == 1;
      }
    }
  }

  lemma ThreeParse(raw: seq<Json>, es: seq<Element>)
    requires |raw| == 3 && |es| == 3
    requires ParseElement(raw[0], 0) == Ok(es[0]) && ParseElement(raw[1], 1) == Ok(es[1])
    requires ParseElement(raw[2], 2) == Ok(es[2])
    ensures forall k :: 0 <= k < |es| ==> ParseElement(raw[k], k) == Ok(es[k])
  {
    forall k | 0 <= k < |es|
      ensures ParseElement(raw[k], k) == Ok(es[k])
    {
      if k == 0 {
      } else if k == 1 {
      } else {
        assert k == 2;
      }
    }
  }

  /** The design `get_schema_example()` describes: two text lines and a heart-line motif on an
      off-white A6 card. */
  function SchemaExampleDesign(): CardDesign {
    CardDesign(CardDimensions(148.0, 105.0, "#F5F3F0"), [
      TextElement("Einladung zur Hochzeit", Serif, 24, "#4A4A4A", Position(10.0, 15.0)),
      TextElement("Anna & Markus", Script, 36, "#C5A48A", Position(10.0, 40.0)),
      DecorativeElement(HeartLine, Position(60.0, 75.0), Size(25.0, 8.0), "#C5A48A")])
  }

  /** `get_schema_example()` passes validation, parsed to the design above. */
  lemma SchemaExampleAccepted()
    ensures Validate(SchemaExample()) == Ok(SchemaExampleDesign())
    ensures TextCount(SchemaExampleDesign().elements) == 2
  {
    var doc := SchemaExample();
    var es := SchemaExampleDesign().elements;
    var raw := doc.fields["elements"].items;
    assert ElementList(doc) == Some(raw);
    assert |raw| == 3;
    ExampleTextsParse();
    ExampleDecorativeParses();
    ThreeParse(raw, es);
    assert "card" in doc.fields && doc.fields["card"] == CardJson();
    CardJsonParses();
    TwoTextsOneMotifCounts(es[0], es[1], es[2]);
    assert es == [es[0], es[1], es[2]];
    VerdictAfterParsing(doc, es, SchemaExampleDesign().card);
  }
}

=== FILE: text.dfy ===
/** String and list helpers that mirror the Python built-ins the core relies on:
    `startswith`, `in` on strings, `replace`, `lower`, `split`, list slicing
    `xs[:n]`, and the "append unless already present" idiom. */
module Text {

  /** `s.startswith(p)`. */
  predicate StartsWith(s: string, p: string) {
    |p| <= |s| && s[..|p|] == p
  }

  /** A concatenation starts with its first part and ends with its second. */
  lemma JoinedEnds(a: string, b: string)
    ensures StartsWith(a + b, a) && EndsWith(a + b, b)
  {
    assert (a + b)[..|a|] == a;
    assert (a + b)[|a + b| - |b|..] == b;
  }

  /** `s.endswith(p)`. */
  predicate EndsWith(s: string, p: string) {
    |p| <= |s| && s[|s| - |p|..] == p
  }

  /** `p` occurs in `s` beginning at index `i`. */
  predicate OccursAt(s: string, p: string, i: int) {
    0 <= i && i + |p| <= |s| && s[i..i + |p|] == p
  }

  /** Python's `p in s` on strings, computed by trying every start position from the left. */
  function Contains(s: string, p: string): bool
    decreases |s|
  {
    if StartsWith(s, p) then true
    else if |s| == 0 then false
    else Contains(s[1..], p)
  }

  /** The scan agrees with the declarative reading: `p` occurs at some index of `s`. */
  lemma {:induction false} ContainsIffOccurs(s: string, p: string)
    ensures Contains(s, p) <==> exists i :: OccursAt(s, p, i)
    decreases |s|
  {
    if StartsWith(s, p) {
      assert OccursAt(s, p, 0);
    } else if |s| == 0 {
      assert forall i :: !OccursAt(s, p, i);
    } else {
      ContainsIffOccurs(s[1..], p);
      if exists i :: OccursAt(s, p, i) {
        var i :| OccursAt(s, p, i);
        assert i != 0;
        assert s[1..][i - 1..i - 1 + |p|] == s[i..i + |p|];
        assert OccursAt(s[1..], p, i - 1);
      }
      if exists j :: OccursAt(s[1..], p, j) {
        var j :| OccursAt(s[1..], p, j);
        assert s[1..][j..j + |p|] == s[j + 1..j + 1 + |p|];
        assert OccursAt(s, p, j + 1);
      }
    }
  }

  /** An occurrence survives putting more text in front. */
  lemma {:induction false} ContainsExtendLeft(a: string, t: string, p: string)
    requires Contains(t, p)
    ensures Contains(a + t, p)
    decreases |a|
  {
    if |a| > 0 {
      ContainsExtendLeft(a[1..], t, p);
      assert (a + t)[1..] == a[1..] + t;
    } else {
      assert a + t == t;
    }
  }

  /** An occurrence survives putting more text after it. */
  lemma {:induction false} ContainsExtendRight(s: string, t: string, p: string)
    requires Contains(s, p)
    ensures Contains(s + t, p)
    decreases |s|
  {
    if StartsWith(s, p) {
      assert (s + t)[..|p|] == s[..|p|];
    } else {
      ContainsExtendRight(s[1..], t, p);
      assert (s + t)[1..] == s[1..] + t;
    }
  }

  /** Every string contains each of its prefixes. */
  lemma ContainsOwnPrefix(p: string, t: string)
    ensures Contains(p + t, p)
  {
    assert (p + t)[..|p|] == p;
  }

  /** Python's `s.replace(pat, rep)`: every non-overlapping occurrence, leftmost first. */
  function ReplaceAll(s: string, pat: string, rep: string): string
    requires |pat| > 0
    decreases |s|
  {
    if |s| == 0 then ""
    else if StartsWith(s, pat) then rep + ReplaceAll(s[|pat|..], pat, rep)
    else [s[0]] + ReplaceAll(s[1..], pat, rep)
  }

  /** Replacing a substring that does not occur leaves the string as it was. */
  lemma {:induction false} ReplaceAllAbsent(s: string, pat: string, rep: string)
    requires |pat| > 0
    requires !Contains(s, pat)
    ensures ReplaceAll(s, pat, rep) == s
    decreases |s|
  {
    if |s| > 0 {
      ReplaceAllAbsent(s[1..], pat, rep);
      assert [s[0]] + s[1..] == s;
    }
  }

  /** Where no occurrence starts among the first `k` characters, those characters are copied
      unchanged and replacing goes on from there. */
  lemma {:induction false} ReplaceAllSkips(s: string, pat: string, rep: string, k: nat)
    requires |pat| > 0 && k <= |s|
    requires forall j :: 0 <= j < k ==> !StartsWith(s[j..], pat)
    ensures ReplaceAll(s, pat, rep) == s[..k] + ReplaceAll(s[k..], pat, rep)
    decreases k
  {
    if k > 0 {
      assert s[0..] == s;
      forall j | 0 <= j < k - 1
        ensures !StartsWith(s[1..][j..], pat)
      {
        assert s[1..][j..] == s[j + 1..];
      }
      ReplaceAllSkips(s[1..], pat, rep, k - 1);
      assert s[1..][k - 1..] == s[k..];
      assert [s[0]] + s[1..][..k - 1] == s[..k];
      AppendAssociative([s[0]], s[1..][..k - 1], ReplaceAll(s[k..], pat, rep));
    }
  }

  lemma AppendAssociative<T>(a: seq<T>, b: seq<T>, c: seq<T>)
    ensures a + (b + c) == (a + b) + c
  {
  }

  /** Replacing a substring that does occur leaves the replacement in the result. */
  lemma {:induction false} ReplaceAllPresent(s: string, pat: string, rep: string)
    requires |pat| > 0
    requires Contains(s, pat)
    ensures Contains(ReplaceAll(s, pat, rep), rep)
    decreases |s|
  {
    if StartsWith(s, pat) {
      ContainsOwnPrefix(rep, ReplaceAll(s[|pat|..], pat, rep));
    } else {
      ReplaceAllPresent(s[1..], pat, rep);
      ContainsExtendLeft([s[0]], ReplaceAll(s[1..], pat, rep), rep);
    }
  }

  /** `c.lower()` on the ASCII letters. */
  function LowerChar(c: char): char {
    if 'A' <= c <= 'Z' then (c as int + 32) as char else c
  }

  /** `s.lower()`, letter by letter (ASCII case mapping only). */
  function ToLower(s: string): (r: string)
    ensures |r| == |s|
    ensures forall i :: 0 <= i < |s| ==> r[i] == LowerChar(s[i])
    decreases |s|
  {
    if |s| == 0 then "" else [LowerChar(s[0])] + ToLower(s[1..])
  }

  /** Lower-casing works piece by piece. */
  lemma ToLowerAppend(a: string, b: string)
    ensures ToLower(a + b) == ToLower(a) + ToLower(b)
  {
    var l := ToLower(a + b);
    var r := ToLower(a) + ToLower(b);
    assert |l| == |r|;
    forall i | 0 <= i < |l|
      ensures l[i] == r[i]
    {
      if i < |a| {
        assert (a + b)[i] == a[i];
      } else {
        assert (a + b)[i] == b[i - |a|];
      }
    }
  }

  /** Lower-casing twice is lower-casing once. */
  lemma ToLowerIdempotent(s: string)
    ensures ToLower(ToLower(s)) == ToLower(s)
  {
    assert forall i :: 0 <= i < |s| ==> LowerChar(LowerChar(s[i])) == LowerChar(s[i]);
  }

  /** Python's `s.split(sep)` for a one-character separator: always one more part than separators. */
  function Split(s: string, sep: char): (parts: seq<string>)
    ensures |parts| >= 1
    ensures forall k :: 0 <= k < |parts| ==> sep !in parts[k]
    decreases |s|
  {
    if |s| == 0 then [""]
    else
      var rest := Split(s[1..], sep);
      if s[0] == sep then [""] + rest
      else [[s[0]] + rest[0]] + rest[1..]
  }

  /** `sep.join(parts)`. */
  function Join(parts: seq<string>, sep: char): string
    requires |parts| >= 1
    decreases |parts|
  {
    if |parts| == 1 then parts[0] else parts[0] + [sep] + Join(parts[1..], sep)
  }

  /** Splitting loses nothing: joining the parts back gives the original string. */
  lemma {:induction false} SplitJoin(s: string, sep: char)
    ensures Join(Split(s, sep), sep) == s
    decreases |s|
  {
    if |s| > 0 {
      var rest := Split(s[1..], sep);
      SplitJoin(s[1..], sep);
      if s[0] == sep {
        assert Join([""] + rest, sep) == "" + [sep] + Join(rest, sep);
      } else {
        var parts := [[s[0]] + rest[0]] + rest[1..];
        if |rest| == 1 {
          assert Join(parts, sep) == [s[0]] + rest[0];
        } else {
          assert parts[1..] == rest[1..];
          assert Join(rest, sep) == rest[0] + [sep] + Join(rest[1..], sep);
          assert Join(parts, sep) == [s[0]] + Join(rest, sep);
        }
      }
    }
  }

  /** A separator-free word followed by a separator splits off as one part. */
  lemma {:induction false} SplitWordThenSep(w: string, rest: string, sep: char)
    requires sep !in w
    ensures Split(w + [sep] + rest, sep) == [w] + Split(rest, sep)
    decreases |w|
  {
    if |w| == 0 {
      assert w + [sep] + rest == [sep] + rest;
      assert ([sep] + rest)[1..] == rest;
    } else {
      var s := w + [sep] + rest;
      assert s[0] == w[0];
      assert s[1..] == w[1..] + [sep] + rest;
      SplitWordThenSep(w[1..], rest, sep);
      assert [w[0]] + w[1..] == w;
    }
  }

  /** The parts of a split that are not empty, in order (`[p for p in parts if p]`). */
  function NonEmptyParts(parts: seq<string>): (r: seq<string>)
    ensures forall k :: 0 <= k < |r| ==> r[k] != "" && r[k] in parts
    ensures |r| <= |parts|
    decreases |parts|
  {
    if |parts| == 0 then []
    else if parts[0] == "" then NonEmptyParts(parts[1..])
    else [parts[0]] + NonEmptyParts(parts[1..])
  }

  /** `s.split(c)[0]`: everything before the first `c`. */
  function BeforeFirst(s: string, c: char): (r: string)
    ensures StartsWith(s, r) && c !in r
    ensures |r| < |s| ==> s[|r|] == c
    decreases |s|
  {
    if |s| == 0 || s[0] == c then "" else [s[0]] + BeforeFirst(s[1..], c)
  }

  /** Python's slice `xs[:n]`, including its reading of a negative `n` as "all but the last -n". */
  function PyTake<T>(xs: seq<T>, n: int): (r: seq<T>)
    ensures |r| <= |xs|
    ensures n >= 0 ==> |r| <= n
    ensures n >= 0 && n <= |xs| ==> |r| == n
    ensures r == xs[..|r|]
  {
    if n >= 0 then (if n <= |xs| then xs[..n] else xs)
    else if |xs| + n >= 0 then xs[..|xs| + n]
    else []
  }

  /** No value appears twice. */
  predicate NoDup<T(==)>(xs: seq<T>) {
    forall i, j :: 0 <= i < j < |xs| ==> xs[i] != xs[j]
  }

  /** The members of a prefix are members of the whole. */
  lemma PrefixMembers<T>(a: seq<T>, r: seq<T>)
    requires |a| <= |r| && r[..|a|] == a
    ensures forall u :: u in a ==> u in r
  {
    forall u | u in a
      ensures u in r
    {
      var i :| 0 <= i < |a| && a[i] == u;
      assert r[i] == u;
    }
  }

  /** A prefix no longer than `n` survives `xs[:n]` whole. */
  lemma ShortPrefixKept<T>(a: seq<T>, xs: seq<T>, n: int)
    requires |a| <= |xs| && xs[..|a|] == a && |a| <= n
    ensures forall u :: u in a ==> u in PyTake(xs, n)
  {
    var firsts := PyTake(xs, n);
    assert firsts[..|a|] == a;
    PrefixMembers(a, firsts);
  }

  /** `if x not in xs: xs.append(x)`. */
  function AddNew<T(==)>(xs: seq<T>, x: T): (r: seq<T>)
    ensures NoDup(xs) ==> NoDup(r)
    ensures x in r && |xs| <= |r| && r[..|xs|] == xs
    ensures |r| == if x in xs then |xs| else |xs| + 1
  {
    if x in xs then xs else xs + [x]
  }

  /** `a` can be obtained from `b` by deleting elements (order is kept). */
  ghost predicate SubsequenceOf<T>(a: seq<T>, b: seq<T>)
    decreases |b|
  {
    |a| == 0
    || (|b| > 0
        && (SubsequenceOf(a, b[..|b| - 1])
            || (a[|a| - 1] == b[|b| - 1] && SubsequenceOf(a[..|a| - 1], b[..|b| - 1]))))
  }

  /** A subsequence is never longer than the sequence it is drawn from. */
  lemma {:induction false} SubsequenceLength<T>(a: seq<T>, b: seq<T>)
    requires SubsequenceOf(a, b)
    ensures |a| <= |b|
    decreases |b|
  {
    if |a| > 0 {
      if SubsequenceOf(a, b[..|b| - 1]) {
        SubsequenceLength(a, b[..|b| - 1]);
      } else {
        SubsequenceLength(a[..|a| - 1], b[..|b| - 1]);
      }
    }
  }

  /** Python's `str.isspace()` for one character (the characters `int()` strips). */
  predicate IsSpace(c: char) {
    var n := c as int;
    n == 0x20 || 0x09 <= n <= 0x0D || 0x1C <= n <= 0x1F || n == 0x85 || n == 0xA0
    || n == 0x1680 || 0x2000 <= n <= 0x200A || n == 0x2028 || n == 0x2029
    || n == 0x202F || n == 0x205F || n == 0x3000
  }

  /** `s.strip()`: drop white space at both ends. */
  function Strip(s: string): (r: string)
    ensures |r| <= |s|
    ensures |r| > 0 ==> !IsSpace(r[0]) && !IsSpace(r[|r| - 1])
    ensures (forall i :: 0 <= i < |s| ==> !IsSpace(s[i])) ==> r == s
    decreases |s|
  {
    if |s| == 0 then ""
    else if IsSpace(s[0]) then Strip(s[1..])
    else if IsSpace(s[|s| - 1]) then Strip(s[..|s| - 1])
    else s
  }

  /** Decimal digits of a natural number, as `str(n)` writes them. */
  function NatToString(n: nat): (r: string)
    ensures |r| > 0
    ensures forall i :: 0 <= i < |r| ==> '0' <= r[i] <= '9'
    decreases n
  {
    var d := [(('0' as int) + n % 10) as char];
    if n < 10 then d else NatToString(n / 10) + d
  }
}

=== FILE: wrappers.dfy ===
/** Failure-carrying result types used throughout the model.
    `Result` stands for a Python function that either returns a value or raises;
    `Option` stands for a value that may be `None`. */
module Wrappers {

  datatype Option<+T> = None | Some(value: T) {

    predicate IsFailure() {
      None?
    }

    function PropagateFailure<U>(): Option<U>
      requires None?
    {
      None
    }

    function Extract(): T
      requires Some?
    {
      value
    }
  }

  datatype Result<+T, +E> = Ok(value: T) | Err(error: E) {

    predicate IsFailure() {
      Err?
    }

    function PropagateFailure<U>(): Result<U, E>
      requires Err?
    {
      Err(error)
    }

    function Extract(): T
      requires Ok?
    {
      value
    }
  }
}
